=== FILE: README.md ===
# ArtsyApp core logic in Dafny

ArtsyApp is an Android client for an artist-search service. Users search artists, open an artist's page (details, artworks, similar artists), keep a list of favourite artists, and sign up, in, out or delete their account. Most of the app is Compose UI. The logic embedded in it is modelled here as pure functions over immutable datatypes. The clock, the server's answers and the platform's e-mail pattern become parameters.

| file | module | models |
|---|---|---|
| `models.dfy` | `Models` | The data records, `Resource` (success or error with optional message and field errors), Kotlin's `?:` and `isNullOrEmpty` |
| `text.dfy` | `Text` | Substring search, the `ignoreCase` character comparison, the UTF-16 length Kotlin's `String.length` reports, decimal rendering of counts |
| `utils.dfy` | `Utils` | `formatDateTime`, the refresh interval of `relativeTimeFlow`, `isValidEmail` |
| `cookie_jar.dfy` | `CookieJar` | `PersistentCookieJar`: startup load, `saveFromResponse`, `loadForRequest`, with the preferences store as a second map |
| `markdown.dfy`, `markdown_links.dfy` | `Markdown`, `MarkdownLinks` | The link segmentation of `MarkdownLinkText`: the lazy regex `\[(.*?)\]\((.*?)\)` as a scanner, the loop as `Segments` |
| `carousel.dfy` | `Carousel` | The wrap-around arrows of `CategoryCarousel` |
| `auth_repository.dfy` | `AuthRepository` | How `AuthRepository` turns an HTTP answer or an exception into a `Resource` |
| `auth_view_model.dfy` | `AuthViewModel` | The session state, each operation as a begin step and a finish step |
| `favorites_view_model.dfy` | `FavoritesViewModel` | The favourite list and id set, with optimistic update and rollback, and the star's toggle |
| `search_view_model.dfy` | `SearchViewModel` | The query, its results and the favourite-flag cache |
| `artist_detail_view_model.dfy` | `ArtistDetailViewModel` | The three fetches of the artist page and the favourite checks |
| `forms.dfy` | `Forms` | The text-field behaviour shared by the register and login screens |
| `register_screen.dfy`, `login_screen.dfy` | `RegisterScreen`, `LoginScreen` | Validators, submit gating, the enabled button, server-error routing |
| `artist_detail_screen.dfy`, `search_result_screen.dfy` | `ArtistDetailScreen`, `SearchResultScreen` | Tabs, display strings, the auto-search threshold, the result-area decision table |

Each view-model operation is a coroutine that suspends on one server call. It is modelled as a `Begin…` step (what happens before the call) and a `Finish…` step that takes the call's `Resource` as an input. Running the whole operation is `Finish(Begin(st))`. The composed functions carry at most a frame condition of their own; a lemma in the table states what each does: `AuthViewModel.Register` and `Login` by `AuthViewModel.AuthenticateOutcome`, `Logout` and `DeleteAccount` by `AuthViewModel.SignOutOutcome`, `CheckLoginStatus` by `AuthViewModel.CheckOutcome`, `FavoritesViewModel.AddFavorite` and `RemoveFavorite` by `FavoritesViewModel.AddOutcome` and `RemoveOutcome`, `SearchViewModel.SearchArtists` by `SearchViewModel.SearchOutcomeSpec`, `ArtistDetailViewModel.GetArtistDetails` by `ArtistDetailViewModel.DetailsOutcome`, `GetArtworks` and `GetSimilarArtists` by `ArtistDetailViewModel.ListOutcomes`, and `CheckFavoritesStatuses` by `ArtistDetailViewModel.CheckFavoritesStatusesSpec`. Likewise the save loop `CookieJar.Merge` is stated by `CookieJar.MergeSplits`, `MergeLastWins` and `MergeKeepsOthers`.

Some things the proofs bring out about the code as written:
- An `addFavorite` whose server call fails removes the id even if it was in the set before, and a failed `removeFavorite` adds it even if it was absent (`FavoritesViewModel.RollbackRestores`). The star only ever adds an absent id or removes a present one, so through the star the rollback is exact (`FavoritesViewModel.ToggleRollback`).
- The register button's click does not consult the full-name error (`RegisterScreen.SubmitIgnoresFullname`). The button's `enabled` condition closes that gap (`RegisterScreen.EnabledSubmitIsValid`).
- The register screen's stored server error can never mention "email". So the `LaunchedEffect(email)` that drops such an error never has anything to drop, and the display filter under the button never hides anything (`RegisterScreen.BackendErrorNeverMentionsEmail`).
- `register` tests the error body for "email" ignoring case, while `login` tests "email" and "password" case-sensitively. The same error body "Email" is an e-mail problem to one and an unknown failure to the other (`AuthRepository.EmailCaseMatters`).
- 28 and 29 days print "1 month ago", and 360 to 364 days print "1 year ago" (`Utils.BucketGaps`).

## Model

Source paths are relative to the repository root.

| member | source | states |
|---|---|---|
| Utils.TruncDiv | ArtsyApp/app/src/main/java/com/csci571/artsyapp/utils/Utils.kt:21-24 | The `TimeUnit` conversions round toward zero: for a non-negative difference the quotient is the number of whole units, and for a negative one the quotient is at most 0 and rounds up |
| Utils.ClassifyUnitByThreshold | ArtsyApp/app/src/main/java/com/csci571/artsyapp/utils/Utils.kt:25-58 | The first matching bucket among seconds, minutes, hours, days, weeks (days/7), months (days/30) and years is a unit exactly when the difference lies between the millisecond boundaries 1 minute, 1 hour, 1 day, 7, 28 and 360 days |
| Utils.NestedDivision | ArtsyApp/app/src/main/java/com/csci571/artsyapp/utils/Utils.kt:24-27 | For a non-negative difference, weeks, months and years taken from whole days equal the same units taken directly from milliseconds |
| Utils.AtLeastOne | ArtsyApp/app/src/main/java/com/csci571/artsyapp/utils/Utils.kt:31-55 | The clamp never gives less than 1 and leaves counts of at least 1 alone |
| Utils.Classify | ArtsyApp/app/src/main/java/com/csci571/artsyapp/utils/Utils.kt:21-57 | The number shown is the count of whole units of the chosen bucket elapsed, clamped to at least 1, and any difference under one second, a future date included, is one second |
| Utils.BucketGaps | ArtsyApp/app/src/main/java/com/csci571/artsyapp/utils/Utils.kt:46-57 | 28–29 days give "1 month", 360–364 days give "1 year" |
| Utils.Render | ArtsyApp/app/src/main/java/com/csci571/artsyapp/utils/Utils.kt:32-56 | The text opens with the count's digits and a space, ends in " ago", and has a plural "s" before that exactly when the count is not 1; the word in between is given by `Utils.RenderWord` |
| Utils.RenderWord | ArtsyApp/app/src/main/java/com/csci571/artsyapp/utils/Utils.kt:32-56 | Between the count and " ago" stands the unit's name, with an "s" unless the count is 1 |
| Utils.WordNamesUnit | ArtsyApp/app/src/main/java/com/csci571/artsyapp/utils/Utils.kt:32-56 | Each word, singular or plural, starts with its own unit's name and with no other unit's name |
| Utils.ClassifiedWords | ArtsyApp/app/src/main/java/com/csci571/artsyapp/utils/Utils.kt:25-58 | The word for a difference starts with "second" exactly under a minute, "minute" under an hour, "hour" under a day, "day" under 7 days, "week" under 28 days, "month" under 360 days, and "year" from then on |
| Utils.RenderedWords | ArtsyApp/app/src/main/java/com/csci571/artsyapp/utils/Utils.kt:21-58 | In the text shown for a difference, the word after the count names that bucket by the same thresholds |
| Utils.FormatDateTime | ArtsyApp/app/src/main/java/com/csci571/artsyapp/utils/Utils.kt:18-59 | The text is the rendering of the chosen unit and its count of whole units elapsed, at least 1; under one second it is "1 second ago" |
| Utils.RenderInjective | ArtsyApp/app/src/main/java/com/csci571/artsyapp/utils/Utils.kt:32-56 | The text "<n> <unit> ago" determines both the count and the unit |
| Utils.NextDelay | ArtsyApp/app/src/main/java/com/csci571/artsyapp/utils/Utils.kt:70-76 | The refresh interval is one second, minute, hour or day |
| Utils.NextDelayIsDisplayedUnit | ArtsyApp/app/src/main/java/com/csci571/artsyapp/utils/Utils.kt:70-76 | The refresh interval is the length of the unit the text is in (second, minute, hour), and one day for anything older |
| Utils.NextDelayMonotone | ArtsyApp/app/src/main/java/com/csci571/artsyapp/utils/Utils.kt:70-76 | An older timestamp never refreshes more often |
| Utils.EmptyEmailInvalid | ArtsyApp/app/src/main/java/com/csci571/artsyapp/utils/Utils.kt:10-12 | The empty string is not a valid e-mail, whatever the pattern accepts |
| CookieJar.ExpiryIsStrict | ArtsyApp/app/src/main/java/com/csci571/artsyapp/utils/PersistentCookieJar.kt:83 | A cookie expiring at the current millisecond is still valid, and expired one millisecond later |
| CookieJar.Unexpired | ArtsyApp/app/src/main/java/com/csci571/artsyapp/utils/PersistentCookieJar.kt:66 | The filter keeps exactly the cookies that have not expired, and is never longer than its input |
| CookieJar.UnexpiredKeepsAll | ArtsyApp/app/src/main/java/com/csci571/artsyapp/utils/PersistentCookieJar.kt:66-69 | The filter drops nothing exactly when no cookie has expired, and then it returns the list itself |
| CookieJar.UnexpiredLater | ArtsyApp/app/src/main/java/com/csci571/artsyapp/utils/PersistentCookieJar.kt:83 | Filtering at one time and then at a later one is filtering at the later one |
| CookieJar.MergeSplits | ArtsyApp/app/src/main/java/com/csci571/artsyapp/utils/PersistentCookieJar.kt:43-51 | After the save loop the host's list is the stored cookies with no incoming name, in their original order, followed by the incoming cookies that are unexpired and not followed by another with the same name |
| CookieJar.MergeLastWins | ArtsyApp/app/src/main/java/com/csci571/artsyapp/utils/PersistentCookieJar.kt:44-51 | Each incoming name is held by exactly the last incoming cookie with that name when it is unexpired, and by none when it has expired |
| CookieJar.MergeKeepsOthers | ArtsyApp/app/src/main/java/com/csci571/artsyapp/utils/PersistentCookieJar.kt:45 | Stored cookies whose names are not in the batch survive in their original relative order |
| CookieJar.SaveFromResponse | ArtsyApp/app/src/main/java/com/csci571/artsyapp/utils/PersistentCookieJar.kt:39-60 | An empty merged list removes the host from memory and preferences, otherwise both hold the merged list; every other host is unchanged in both |
| CookieJar.LoadForRequest | ArtsyApp/app/src/main/java/com/csci571/artsyapp/utils/PersistentCookieJar.kt:62-75 | A load returns exactly the host's unexpired cookies; it writes back to memory and preferences only when something expired; other hosts are unchanged |
| CookieJar.LoadKeepsEmptyHost | ArtsyApp/app/src/main/java/com/csci571/artsyapp/utils/PersistentCookieJar.kt:62-75 | A host whose cookies have all expired is left holding an empty list rather than removed |
| CookieJar.Init | ArtsyApp/app/src/main/java/com/csci571/artsyapp/utils/PersistentCookieJar.kt:19-37 | At startup memory holds each persisted host's unexpired cookies, hosts left with none are deleted from the preferences, and other hosts keep their persisted list |
| CookieJar.InitAgrees | ArtsyApp/app/src/main/java/com/csci571/artsyapp/utils/PersistentCookieJar.kt:19-37 | After startup, memory and preferences hold the same unexpired cookies for every host at every later time |
| CookieJar.SaveAgrees | ArtsyApp/app/src/main/java/com/csci571/artsyapp/utils/PersistentCookieJar.kt:53-59 | A save keeps memory and preferences in agreement |
| CookieJar.LoadAgrees | ArtsyApp/app/src/main/java/com/csci571/artsyapp/utils/PersistentCookieJar.kt:69-72 | A load keeps memory and preferences in agreement |
| CookieJar.RestartLoadsSame | ArtsyApp/app/src/main/java/com/csci571/artsyapp/utils/PersistentCookieJar.kt:19-75 | While they agree, restarting the app and loading gives the cookies the running jar would give |
| MarkdownLinks.CloseParenSpec | ArtsyApp/app/src/main/java/com/csci571/artsyapp/ui/components/MarkdownLinkText.kt:31 | The lazy URL group ends at the first ")" reached without a line terminator, and when none is found no ")" ends one |
| MarkdownLinks.CloseBracketSpec | ArtsyApp/app/src/main/java/com/csci571/artsyapp/ui/components/MarkdownLinkText.kt:31 | The lazy text group takes the shortest text after which "](", a URL and ")" follow, and when none is found the pattern cannot match at that "[" |
| MarkdownLinks.MatchAtSpec | ArtsyApp/app/src/main/java/com/csci571/artsyapp/ui/components/MarkdownLinkText.kt:31 | Trying the pattern at an index finds the lazy match there, or there is none |
| MarkdownLinks.FindFromSpec | ArtsyApp/app/src/main/java/com/csci571/artsyapp/ui/components/MarkdownLinkText.kt:31-34 | `findAll` from an index finds the leftmost lazy match at or after it, and finds nothing only when the pattern matches nowhere there |
| MarkdownLinks.SegmentsFromRoundTrip | ArtsyApp/app/src/main/java/com/csci571/artsyapp/ui/components/MarkdownLinkText.kt:34-70 | Writing the segments from an index back as Markdown gives back the text from that index |
| MarkdownLinks.Segments | ArtsyApp/app/src/main/java/com/csci571/artsyapp/ui/components/MarkdownLinkText.kt:34-70 | Plain runs verbatim and each link as "[" text "](" url ")" reproduce the input exactly; no plain run is empty, no two plain runs are adjacent, and no link text or URL holds a line terminator or, in the URL, a ")" |
| MarkdownLinks.NoMatchIsPlain | ArtsyApp/app/src/main/java/com/csci571/artsyapp/ui/components/MarkdownLinkText.kt:67-70 | Text with no match is one plain run of itself, and the empty text gives no segment |
| MarkdownLinks.HasLinkIffMatch | ArtsyApp/app/src/main/java/com/csci571/artsyapp/ui/components/MarkdownLinkText.kt:34-62 | A link segment appears exactly when the pattern matches somewhere in the text |
| MarkdownLinks.FirstLinkIsLeftmostMatch | ArtsyApp/app/src/main/java/com/csci571/artsyapp/ui/components/MarkdownLinkText.kt:35-43 | The first link comes from the leftmost match, with the first group as its text and the second as its URL, after at most one plain run |
| MarkdownLinks.SegmentsScanned | ArtsyApp/app/src/main/java/com/csci571/artsyapp/ui/components/MarkdownLinkText.kt:30-70 | Every link segment, not only the first, is the lazy match of the pattern starting at the link's offset in the text, cut into its two groups; no match starts inside a plain run; a plain run is followed by a link or the end; and the segments are the only list with these properties |
| MarkdownLinks.ScannedUnique | ArtsyApp/app/src/main/java/com/csci571/artsyapp/ui/components/MarkdownLinkText.kt:32-70 | The left-to-right scan is deterministic: two segment lists that both scan the text from the same offset are equal |
| MarkdownLinks.VisibleText | ArtsyApp/app/src/main/java/com/csci571/artsyapp/ui/components/MarkdownLinkText.kt:41-62 | The shown text is the input less each link's brackets and URL, and it is the input unchanged exactly when the pattern matches nowhere |
| MarkdownLinks.EmptyGroups | ArtsyApp/app/src/main/java/com/csci571/artsyapp/ui/components/MarkdownLinkText.kt:31 | Both lazy groups may be empty: "[]()" is one link with empty text and URL and shows nothing |
| Markdown.VisibleLength | ArtsyApp/app/src/main/java/com/csci571/artsyapp/ui/components/MarkdownLinkText.kt:60-62 | The shown characters and the characters the links hide add up to the Markdown source |
| Markdown.HiddenZero | ArtsyApp/app/src/main/java/com/csci571/artsyapp/ui/components/MarkdownLinkText.kt:60-62 | Nothing is hidden exactly when there is no link |
| Markdown.VisiblePlain | ArtsyApp/app/src/main/java/com/csci571/artsyapp/ui/components/MarkdownLinkText.kt:41-43 | Without links, the shown text is the Markdown source itself |
| Carousel.PageCount | ArtsyApp/app/src/main/java/com/csci571/artsyapp/ui/components/CategoryCarousel.kt:48-51 | Nothing is shown for no categories; otherwise the pager has one page per category, at least one |
| Carousel.Prev | ArtsyApp/app/src/main/java/com/csci571/artsyapp/ui/components/CategoryCarousel.kt:75-78 | From an existing page the left arrow lands on an existing page, one step back modulo the page count |
| Carousel.Next | ArtsyApp/app/src/main/java/com/csci571/artsyapp/ui/components/CategoryCarousel.kt:98-101 | From an existing page the right arrow lands on an existing page, one step forward modulo the page count |
| Carousel.ArrowsInRange | ArtsyApp/app/src/main/java/com/csci571/artsyapp/ui/components/CategoryCarousel.kt:75-101 | From an existing page both arrows land on an existing page |
| Carousel.ArrowsWrap | ArtsyApp/app/src/main/java/com/csci571/artsyapp/ui/components/CategoryCarousel.kt:75-101 | The left arrow wraps from the first page to the last, the right arrow from the last to the first |
| Carousel.ArrowsInverse | ArtsyApp/app/src/main/java/com/csci571/artsyapp/ui/components/CategoryCarousel.kt:75-101 | Each arrow undoes the other |
| Carousel.SinglePage | ArtsyApp/app/src/main/java/com/csci571/artsyapp/ui/components/CategoryCarousel.kt:75-101 | With one category both arrows stay on page 0 |
| Carousel.ArrowsAreModular | ArtsyApp/app/src/main/java/com/csci571/artsyapp/ui/components/CategoryCarousel.kt:75-101 | The arrows are steps of -1 and +1 modulo the page count |
| Carousel.NextTimesIsModular | ArtsyApp/app/src/main/java/com/csci571/artsyapp/ui/components/CategoryCarousel.kt:98-101 | From page 0, k presses of the right arrow reach page k mod n, so every page is visited in order |
| AuthRepository.NetworkError | ArtsyApp/app/src/main/java/com/csci571/artsyapp/data/repository/AuthRepository.kt:32-33 | An exception becomes an error "Network error: " followed by its message, "null" when it has none, with no field errors |
| AuthRepository.Register | ArtsyApp/app/src/main/java/com/csci571/artsyapp/data/repository/AuthRepository.kt:18-35 | Success exactly for a successful answer with a user, and then that user; "Email already exists" exactly for a failure whose error body contains "email" in any case; any other failure reads "Unknown Registration failed Reason: " and the reason phrase; every error has a message and no field errors |
| AuthRepository.Login | ArtsyApp/app/src/main/java/com/csci571/artsyapp/data/repository/AuthRepository.kt:41-57 | Success exactly for a successful answer with a user; field errors exactly for a failure whose error body contains "password" or "email" with that case, and then the message and the "email" field error are "Password or email is incorrect"; any other failure reads "Unknown Login failed reason: " and the reason phrase |
| AuthRepository.GetCurrentUser | ArtsyApp/app/src/main/java/com/csci571/artsyapp/data/repository/AuthRepository.kt:63-74 | Success exactly for a successful answer with a user, and then that user; a rejected answer reads "Failed to get current user: " and the reason phrase; a thrown call, or a successful answer with no user, gives "Network error: " and the exception's message, "null" when it has none |
| AuthRepository.Acknowledge | ArtsyApp/app/src/main/java/com/csci571/artsyapp/data/repository/AuthRepository.kt:80-91 | Success, always `true`, exactly for a successful answer whatever its body; a rejected answer reads the prefix and the reason phrase; a thrown call gives "Network error: " and the exception's message |
| AuthRepository.Logout | ArtsyApp/app/src/main/java/com/csci571/artsyapp/data/repository/AuthRepository.kt:80-91 | `Success(true)` exactly for a successful answer; a rejected answer reads "Logout failed: " and the reason phrase; a thrown call gives "Network error: " and the exception's message |
| AuthRepository.DeleteAccount | ArtsyApp/app/src/main/java/com/csci571/artsyapp/data/repository/AuthRepository.kt:97-108 | `Success(true)` exactly for a successful answer; a rejected answer reads "Account deletion failed: " and the reason phrase; a thrown call gives "Network error: " and the exception's message |
| AuthRepository.RegisterNetworkError | ArtsyApp/app/src/main/java/com/csci571/artsyapp/data/repository/AuthRepository.kt:18-35 | A register error starts with "Network error: " exactly when the call threw or a successful answer had no user, and the rest is the exception's message |
| AuthRepository.LoginNetworkError | ArtsyApp/app/src/main/java/com/csci571/artsyapp/data/repository/AuthRepository.kt:41-57 | The same for login |
| AuthRepository.SignOutNetworkError | ArtsyApp/app/src/main/java/com/csci571/artsyapp/data/repository/AuthRepository.kt:80-108 | A logout or deletion error starts with "Network error: " exactly when the call threw, and with the endpoint's own prefix exactly when the answer was rejected |
| AuthRepository.EmailCaseMatters | ArtsyApp/app/src/main/java/com/csci571/artsyapp/data/repository/AuthRepository.kt:24-52 | An error body "Email" is "Email already exists" to register but an unknown failure to login |
| AuthRepository.DottedCapitalIIsEmail | ArtsyApp/app/src/main/java/com/csci571/artsyapp/data/repository/AuthRepository.kt:24-27 | `ignoreCase` also matches a dotted capital I for "i", so an error body "EMAİL taken", with the dotted capital I U+0130, is "Email already exists" |
| AuthViewModel.FinishAuthenticate | ArtsyApp/app/src/main/java/com/csci571/artsyapp/ui/viewmodel/AuthViewModel.kt:36-46 | Success signs in the returned user; failure keeps the session and records the message, or the fallback when there is none, with the field errors; loading ends |
| AuthViewModel.FinishCheck | ArtsyApp/app/src/main/java/com/csci571/artsyapp/ui/viewmodel/AuthViewModel.kt:69-86 | A found user signs in, a failed check signs out, and the error is left alone |
| AuthViewModel.FinishSignOut | ArtsyApp/app/src/main/java/com/csci571/artsyapp/ui/viewmodel/AuthViewModel.kt:88-104 | Success signs out; failure changes nothing but the loading flag |
| AuthViewModel.AuthenticateOutcome | ArtsyApp/app/src/main/java/com/csci571/artsyapp/ui/viewmodel/AuthViewModel.kt:31-67 | Register and login clear the error first: success leaves the returned user signed in with no error, failure keeps the session and shows the message or "Registration failed"/"Login failed" |
| AuthViewModel.SignOutOutcome | ArtsyApp/app/src/main/java/com/csci571/artsyapp/ui/viewmodel/AuthViewModel.kt:88-122 | Logout and account deletion end the session on success and leave everything but loading as it was on failure |
| AuthViewModel.CheckOutcome | ArtsyApp/app/src/main/java/com/csci571/artsyapp/ui/viewmodel/AuthViewModel.kt:69-86 | The login check signs in the user found, signs out when the check fails, leaves the error as it was, and ends with loading off |
| AuthViewModel.OperationsEndIdle | ArtsyApp/app/src/main/java/com/csci571/artsyapp/ui/viewmodel/AuthViewModel.kt:31-122 | Every operation ends with loading false |
| AuthViewModel.StepConsistent | ArtsyApp/app/src/main/java/com/csci571/artsyapp/ui/viewmodel/AuthViewModel.kt:15-122 | Every step of every operation keeps "logged in exactly when a user is known" |
| AuthViewModel.RunConsistent | ArtsyApp/app/src/main/java/com/csci571/artsyapp/ui/viewmodel/AuthViewModel.kt:15-122 | Any interleaving of the operations' steps keeps that invariant |
| AuthViewModel.InitialConsistent | ArtsyApp/app/src/main/java/com/csci571/artsyapp/ui/viewmodel/AuthViewModel.kt:15-18 | The initial state satisfies the invariant, and so does every state reached from it |
| FavoritesViewModel.IdsOfSpec | ArtsyApp/app/src/main/java/com/csci571/artsyapp/ui/viewmodel/FavoritesViewModel.kt:37 | An id is in the id set exactly when some favourite of the list has it |
| FavoritesViewModel.GetFavorites | ArtsyApp/app/src/main/java/com/csci571/artsyapp/ui/viewmodel/FavoritesViewModel.kt:28-51 | Success shows the list and exactly its ids with no error; failure empties both and records the error; loading ends |
| FavoritesViewModel.GetFavoritesIds | ArtsyApp/app/src/main/java/com/csci571/artsyapp/ui/viewmodel/FavoritesViewModel.kt:35-38 | After a successful fetch the id set is exactly the artist ids of the favourites shown |
| FavoritesViewModel.FinishToggle | ArtsyApp/app/src/main/java/com/csci571/artsyapp/ui/viewmodel/FavoritesViewModel.kt:62-101 | An accepted add or remove changes nothing but loading; a refused one records the error and removes the id again, or adds it back |
| FavoritesViewModel.ConfirmSingleArtistStatus | ArtsyApp/app/src/main/java/com/csci571/artsyapp/ui/viewmodel/FavoritesViewModel.kt:105-126 | On success the id is in the set exactly when the server says so and no other id changes; on failure the set is unchanged and the error recorded |
| FavoritesViewModel.AddOutcome | ArtsyApp/app/src/main/java/com/csci571/artsyapp/ui/viewmodel/FavoritesViewModel.kt:54-77 | An accepted add leaves the id in the set with no error; a refused one leaves it out, even if it was there before, and shows the error |
| FavoritesViewModel.RemoveOutcome | ArtsyApp/app/src/main/java/com/csci571/artsyapp/ui/viewmodel/FavoritesViewModel.kt:80-102 | An accepted remove leaves the id out with no error; a refused one puts it in, even if it was absent before |
| FavoritesViewModel.RollbackRestores | ArtsyApp/app/src/main/java/com/csci571/artsyapp/ui/viewmodel/FavoritesViewModel.kt:60-97 | A refused add restores the set exactly when the id was absent, a refused remove exactly when it was present |
| FavoritesViewModel.AddThenRemove | ArtsyApp/app/src/main/java/com/csci571/artsyapp/ui/viewmodel/FavoritesViewModel.kt:54-102 | Adding then removing an artist, both accepted, gives back the set without that id |
| FavoritesViewModel.Toggle | ArtsyApp/app/src/main/java/com/csci571/artsyapp/ui/screens/ArtistDetailScreen.kt:111-119 | The star removes a favourite and adds anything else: when accepted, the artist's membership flips and no other id changes; loading ends |
| FavoritesViewModel.ToggleRollback | ArtsyApp/app/src/main/java/com/csci571/artsyapp/ui/screens/ArtistDetailScreen.kt:111-119 | A refused press leaves the set exactly as it was |
| FavoritesViewModel.ToggleTwice | ArtsyApp/app/src/main/java/com/csci571/artsyapp/ui/screens/ArtistDetailScreen.kt:111-119 | Two accepted presses give back the set |
| SearchViewModel.BeginSearch | ArtsyApp/app/src/main/java/com/csci571/artsyapp/ui/viewmodel/SearchViewModel.kt:43-58 | The query is always recorded; the empty query clears the results and stops loading without a call; any other query starts loading and clears the error |
| SearchViewModel.FinishSearch | ArtsyApp/app/src/main/java/com/csci571/artsyapp/ui/viewmodel/SearchViewModel.kt:62-80 | Success shows the results; an error or an exception empties them and records the message, an exception's with the "An unexpected error occurred: " prefix; loading ends |
| SearchViewModel.SearchOutcomeSpec | ArtsyApp/app/src/main/java/com/csci571/artsyapp/ui/viewmodel/SearchViewModel.kt:43-81 | After a search the query is the one given and loading is off; success shows the results with no error; anything else shows none |
| SearchViewModel.EmptySearchIdempotent | ArtsyApp/app/src/main/java/com/csci571/artsyapp/ui/viewmodel/SearchViewModel.kt:48-52 | Searching the empty query depends on no server answer, and twice is the same as once |
| SearchViewModel.FavoriteStatus | ArtsyApp/app/src/main/java/com/csci571/artsyapp/ui/viewmodel/SearchViewModel.kt:97-114 | The map built has exactly the artists' ids as keys, each with its cached flag or else the server's answer, false when the check fails |
| SearchViewModel.GetFavoriteStatus | ArtsyApp/app/src/main/java/com/csci571/artsyapp/ui/viewmodel/SearchViewModel.kt:86-120 | No artists leave the state unchanged; otherwise only the favourites map changes, to one whose keys are exactly the artists' ids |
| SearchViewModel.StatusOfCached | ArtsyApp/app/src/main/java/com/csci571/artsyapp/ui/viewmodel/SearchViewModel.kt:103-114 | A cached id keeps its flag whatever the server would say; an uncached one takes the server's answer, false on error |
| ArtistDetailViewModel.FinishDetails | ArtsyApp/app/src/main/java/com/csci571/artsyapp/ui/viewmodel/ArtistDetailViewModel.kt:55-67 | Only the artist, error and loading flag change: success sets the artist, failure records the error |
| ArtistDetailViewModel.DetailsOutcome | ArtsyApp/app/src/main/java/com/csci571/artsyapp/ui/viewmodel/ArtistDetailViewModel.kt:52-68 | A failed fetch keeps the artist already shown; a successful one shows the new artist with no error |
| ArtistDetailViewModel.FinishArtworks | ArtsyApp/app/src/main/java/com/csci571/artsyapp/ui/viewmodel/ArtistDetailViewModel.kt:77-89 | Success replaces the artworks, failure empties them and records the error; the other fetches' lists and flags are untouched |
| ArtistDetailViewModel.FinishSimilar | ArtsyApp/app/src/main/java/com/csci571/artsyapp/ui/viewmodel/ArtistDetailViewModel.kt:99-111 | The same for the similar artists |
| ArtistDetailViewModel.ListOutcomes | ArtsyApp/app/src/main/java/com/csci571/artsyapp/ui/viewmodel/ArtistDetailViewModel.kt:74-112 | Each list fetch ends with its own loading flag down and shows the answer, or an empty list and the error on failure; nothing else changes |
| ArtistDetailViewModel.ListFetchesCommute | ArtsyApp/app/src/main/java/com/csci571/artsyapp/ui/viewmodel/ArtistDetailViewModel.kt:74-112 | The artwork and similar-artist fetches finish to the same state in either order, apart from which error is kept |
| ArtistDetailViewModel.GetArtworkCategories | ArtsyApp/app/src/main/java/com/csci571/artsyapp/ui/viewmodel/ArtistDetailViewModel.kt:118-130 | The callback gets the categories, or the empty list with the error recorded |
| ArtistDetailViewModel.CheckFavoriteStatus | ArtsyApp/app/src/main/java/com/csci571/artsyapp/ui/viewmodel/ArtistDetailViewModel.kt:136-148 | The flag is the server's answer, false with the error recorded when the check fails; a successful check keeps the error, and nothing but the flag and the error changes |
| ArtistDetailViewModel.StatusesFromSpec | ArtsyApp/app/src/main/java/com/csci571/artsyapp/ui/viewmodel/ArtistDetailViewModel.kt:157-167 | The loop's map has the starting keys plus the ids, each id with its own check's answer, false on failure |
| ArtistDetailViewModel.CheckFavoritesStatusesSpec | ArtsyApp/app/src/main/java/com/csci571/artsyapp/ui/viewmodel/ArtistDetailViewModel.kt:154-171 | The map is replaced by one whose keys are exactly the ids, each with its answer or false |
| Forms.EmailEmptyError | ArtsyApp/app/src/main/java/com/csci571/artsyapp/ui/screens/RegisterScreen.kt:80-82 | "Email cannot be empty" exactly for the empty e-mail |
| Forms.EmailFormatError | ArtsyApp/app/src/main/java/com/csci571/artsyapp/ui/screens/RegisterScreen.kt:85-91 | No error exactly for a valid e-mail; the emptiness message for the empty one; "Invalid email format" otherwise |
| Forms.EditRevalidating | ArtsyApp/app/src/main/java/com/csci571/artsyapp/ui/screens/RegisterScreen.kt:214-219 | Typing revalidates the field only while it has focus |
| Forms.ChangeFocus | ArtsyApp/app/src/main/java/com/csci571/artsyapp/ui/screens/RegisterScreen.kt:196-203 | A field validates when it loses focus, and only then |
| Forms.EmailEmptyTakesPrecedence | ArtsyApp/app/src/main/java/com/csci571/artsyapp/ui/screens/RegisterScreen.kt:86-89 | The emptiness message wins over the format message |
| Forms.FocusLossChecksOnlyEmptiness | ArtsyApp/app/src/main/java/com/csci571/artsyapp/ui/screens/RegisterScreen.kt:196-203 | Leaving a non-empty e-mail field never reports an error, so the format is checked only on submit |
| RegisterScreen.FullnameError | ArtsyApp/app/src/main/java/com/csci571/artsyapp/ui/screens/RegisterScreen.kt:72-77 | The full-name error is set exactly when the full name is empty |
| RegisterScreen.PasswordError | ArtsyApp/app/src/main/java/com/csci571/artsyapp/ui/screens/RegisterScreen.kt:93-99 | No error exactly for at least 4 UTF-16 units, as Kotlin's `length` counts; empty and too-short passwords get their own messages |
| RegisterScreen.TwoAstralCharactersAreLongEnough | ArtsyApp/app/src/main/java/com/csci571/artsyapp/ui/screens/RegisterScreen.kt:96 | Two characters outside the Basic Multilingual Plane make four UTF-16 units and pass the length rule |
| RegisterScreen.RouteError | ArtsyApp/app/src/main/java/com/csci571/artsyapp/ui/screens/RegisterScreen.kt:109-135 | A message mentioning "email" in any case becomes "Email already exists" on the e-mail field, any other becomes the server error, and no error clears it; the typed values and the focus never change |
| Text.ContainsIgnoreCase | ArtsyApp/app/src/main/java/com/csci571/artsyapp/ui/screens/RegisterScreen.kt:124 | Against an ASCII needle such as "email", the test holds exactly when some position matches it character by character under Kotlin's `equals(ignoreCase = true)` |
| Text.Utf16LengthBmp | ArtsyApp/app/src/main/java/com/csci571/artsyapp/ui/screens/RegisterScreen.kt:96 | The UTF-16 length is the number of characters exactly when none lies outside the Basic Multilingual Plane |
| RegisterScreen.BackendErrorNeverMentionsEmail | ArtsyApp/app/src/main/java/com/csci571/artsyapp/ui/screens/RegisterScreen.kt:102-135 | Whatever the user does, the kept server error never mentions "email", so the e-mail effect drops nothing and the error is shown as kept |
| RegisterScreen.DisplayedFromStart | ArtsyApp/app/src/main/java/com/csci571/artsyapp/ui/screens/RegisterScreen.kt:271 | From the empty form, the server error shown is always the one kept, and never mentions "email" |
| RegisterScreen.EditEmailClearsError | ArtsyApp/app/src/main/java/com/csci571/artsyapp/ui/screens/RegisterScreen.kt:188-193 | Editing the e-mail clears its error |
| RegisterScreen.Submit | ArtsyApp/app/src/main/java/com/csci571/artsyapp/ui/screens/RegisterScreen.kt:240-253 | All three fields are validated, the e-mail with its format, and `register` is called exactly for a valid e-mail and a password of at least 4 UTF-16 units; only the three errors change, so values, focus and the server error are kept |
| RegisterScreen.SubmitIgnoresFullname | ArtsyApp/app/src/main/java/com/csci571/artsyapp/ui/screens/RegisterScreen.kt:247 | The click alone would call `register` with an empty full name |
| RegisterScreen.EnabledSubmitIsValid | ArtsyApp/app/src/main/java/com/csci571/artsyapp/ui/screens/RegisterScreen.kt:240-255 | A click on the enabled button calls `register` only with a full name, a valid e-mail and a password of at least 4 UTF-16 units |
| LoginScreen.PasswordError | ArtsyApp/app/src/main/java/com/csci571/artsyapp/ui/screens/LoginScreen.kt:80-85 | The password error is set exactly for an empty password |
| LoginScreen.EditRules | ArtsyApp/app/src/main/java/com/csci571/artsyapp/ui/screens/LoginScreen.kt:115-145 | Editing the e-mail clears its error; editing the password revalidates only while it has focus |
| LoginScreen.FocusLossEmail | ArtsyApp/app/src/main/java/com/csci571/artsyapp/ui/screens/LoginScreen.kt:122-129 | Leaving the e-mail field reports an error exactly when it is empty |
| LoginScreen.Submit | ArtsyApp/app/src/main/java/com/csci571/artsyapp/ui/screens/LoginScreen.kt:165-178 | Both fields are fully validated, and `login` is called exactly for a valid e-mail and a non-empty password; only the two errors change |
| LoginScreen.EnabledSubmit | ArtsyApp/app/src/main/java/com/csci571/artsyapp/ui/screens/LoginScreen.kt:165-179 | With the button enabled the password is clear, so a click calls `login` exactly when the e-mail has a valid format |
| LoginScreen.NoMinimumLength | ArtsyApp/app/src/main/java/com/csci571/artsyapp/ui/screens/LoginScreen.kt:80-85 | Every non-empty password shorter than 4 UTF-16 units lets a valid e-mail log in, while the register screen calls it too short |
| LoginScreen.ErrorText | ArtsyApp/app/src/main/java/com/csci571/artsyapp/ui/screens/LoginScreen.kt:194-200 | A message is shown exactly when there is an error, and it is the error's own message |
| ArtistDetailScreen.TabTitles | ArtsyApp/app/src/main/java/com/csci571/artsyapp/ui/screens/ArtistDetailScreen.kt:87-91 | "Details" and "Artworks" always, "Similar" exactly when signed in |
| ArtistDetailScreen.Content | ArtsyApp/app/src/main/java/com/csci571/artsyapp/ui/screens/ArtistDetailScreen.kt:146-149 | The similar artists are shown only to a signed-in user, and only for an index that has a tab |
| ArtistDetailScreen.ContentMatchesTitle | ArtsyApp/app/src/main/java/com/csci571/artsyapp/ui/screens/ArtistDetailScreen.kt:87-149 | Every tab index shows the content its title names |
| ArtistDetailScreen.NationalityText | ArtsyApp/app/src/main/java/com/csci571/artsyapp/ui/screens/ArtistDetailScreen.kt:229-235 | The nationality line exists exactly for a non-empty nationality, and is the nationality followed by ", " |
| ArtistDetailScreen.Lifespan | ArtsyApp/app/src/main/java/com/csci571/artsyapp/ui/screens/ArtistDetailScreen.kt:237-245 | The lifespan line exists exactly when either date is non-empty |
| ArtistDetailScreen.LifespanParts | ArtsyApp/app/src/main/java/com/csci571/artsyapp/ui/screens/ArtistDetailScreen.kt:239-245 | The line starts with the birthday and ends with the deathday, with " – " between them exactly when both are there |
| ArtistDetailScreen.LifespanOneDate | ArtsyApp/app/src/main/java/com/csci571/artsyapp/ui/screens/ArtistDetailScreen.kt:239-245 | With only one date the line is that date alone |
| ArtistDetailScreen.ArtworkHeading | ArtsyApp/app/src/main/java/com/csci571/artsyapp/ui/screens/ArtistDetailScreen.kt:351-357 | The heading is the title, followed by ", " and the date exactly when there is a date |
| ArtistDetailScreen.StarFlips | ArtsyApp/app/src/main/java/com/csci571/artsyapp/ui/screens/ArtistDetailScreen.kt:84-119 | With the server accepting, the star flips the artist's favourite status and no other id changes |
| SearchResultScreen.SearchFor | ArtsyApp/app/src/main/java/com/csci571/artsyapp/ui/screens/SearchResultScreen.kt:55-75 | A changed query is searched exactly when it has at least 3 UTF-16 units; a submitted one always |
| SearchResultScreen.AstralQuerySearches | ArtsyApp/app/src/main/java/com/csci571/artsyapp/ui/screens/SearchResultScreen.kt:55-75 | A letter and one character outside the Basic Multilingual Plane are 3 UTF-16 units and start a search |
| SearchResultScreen.Cards | ArtsyApp/app/src/main/java/com/csci571/artsyapp/ui/screens/SearchResultScreen.kt:124-129 | One card per result, in order, starred exactly when its id is a favourite |
| SearchResultScreen.Show | ArtsyApp/app/src/main/java/com/csci571/artsyapp/ui/screens/SearchResultScreen.kt:82-119 | Loading wins over all; the empty query shows a blank area; "No result found." appears exactly for a query of at least 3 UTF-16 units with no results; a list shows the results' cards |
| SearchResultScreen.ShortQueryEmptyList | ArtsyApp/app/src/main/java/com/csci571/artsyapp/ui/screens/SearchResultScreen.kt:98-119 | A query of 1 or 2 UTF-16 units with no results shows an empty list |
| SearchResultScreen.CardToggle | ArtsyApp/app/src/main/java/com/csci571/artsyapp/ui/screens/SearchResultScreen.kt:134-142 | A card's star removes a starred artist and adds any other, as the favourites toggle does |

## Left out

- Compose rendering, layout, images, themes, navigation and the snackbar (`MainActivity.kt`, `HomeScreen.kt`, `ArtistCard.kt`, `SnackbarHost.kt`, `SnackbarViewModel.kt`): user interface with no logic beyond what the view models hold.
- Retrofit, OkHttp and Gson plumbing, and the repositories other than `AuthRepository`: every server answer is an input to the model instead.
- Coroutine scheduling, job cancellation, the 300 ms delay in `searchArtists` and the search bar's debounce. Each operation is an atomic step, so a search that an empty query should have cancelled is not modelled.
- The infinite emission loop of `relativeTimeFlow`: only the delay it picks is modelled.
- The system clock: `now` is a parameter of every call that reads it.
- The JSON form of the persisted cookies and `Cookie.Builder`'s domain, path and `persistent` handling: the preferences store is a second map from host to cookie list, and a restored cookie is taken to equal the saved one. The source's `expiresAt` marks every restored cookie persistent, so a restored session cookie differs from the saved one in that flag. Entries that are not strings are not modelled.
- `android.util.Patterns.EMAIL_ADDRESS`: a parameter `pattern`, known only through `isValidEmail`'s own emptiness test.
- The reflection that reads the error's message on the register screen: the error reaches the screen as its message string.
- Utils.Classify: the 64-bit `long` arithmetic is unbounded here, so differences beyond 2^63 milliseconds do not wrap.
- Text.ContainsIgnoreCase: exact only when the needle is ASCII, as every needle in the source ("email") is. The model knows the ASCII letters and the four non-ASCII characters whose case mapping lands on an ASCII letter (U+0130 and U+0131 for i, U+017F for s, U+212A for k); other non-ASCII case pairs are not identified, which only matters against a non-ASCII needle.
- Unpaired UTF-16 surrogates: Dafny's `char` is a Unicode scalar value, so Kotlin strings holding a lone surrogate are not represented; for the rest, `Text.Utf16Length` counts two units for each character above U+FFFF.
- SearchViewModel.SearchOutcomeSpec: a failure whose `Resource` carries no message leaves the error empty, so the lemma promises a message only after an exception.
- Repeated favourite checks of one id: the server's check is the pure function `lookup`, so checking an id twice (an id listed twice in `getFavoriteStatus` or `checkFavoritesStatuses`) is taken to give the same answer both times, while the source calls `checkFavorite` again and keeps the last answer.
- The two callers of `checkFavoriteStatus`, and `getArtworkCategories`' `onComplete`, are represented by the returned state and list: the callback is not a separate call.

=== FILE: artist_detail_screen.dfy ===
/** `ui/screens/ArtistDetailScreen.kt`: the tabs of the artist page, the
    texts built from an artist's and an artwork's nullable fields, and what
    the star in the top bar does. */
module ArtistDetailScreen {
  import opened Models
  import FavoritesViewModel

  const Details: string := "Details"
  const Artworks: string := "Artworks"
  const Similar: string := "Similar"

  /** The separator between birthday and deathday: space, en dash, space. */
  const Dash: string := " – "

  /** The tab titles: the similar-artists tab only for a signed-in user. */
  function TabTitles(isLoggedIn: bool): (tabs: seq<string>)
    ensures |tabs| == (if isLoggedIn then 3 else 2)
    ensures tabs[0] == Details && tabs[1] == Artworks
    ensures Similar in tabs <==> isLoggedIn
  {
    if isLoggedIn then [Details, Artworks, Similar] else [Details, Artworks]
  }

  datatype Tab = DetailsTab | ArtworksTab | SimilarTab

  /** The content shown for the selected tab index: index 2 shows the
      similar artists only when signed in, and nothing otherwise. */
  function Content(selected: nat, isLoggedIn: bool): (t: Option<Tab>)
    ensures t == Some(SimilarTab) ==> isLoggedIn
    ensures t.Some? ==> selected < |TabTitles(isLoggedIn)|
  {
    if selected == 0 then Some(DetailsTab)
    else if selected == 1 then Some(ArtworksTab)
    else if selected == 2 && isLoggedIn then Some(SimilarTab)
    else None
  }

  /** Each tab shown is the one whose title sits at the selected index. */
  lemma ContentMatchesTitle(selected: nat, isLoggedIn: bool)
    requires selected < |TabTitles(isLoggedIn)|
    ensures Content(selected, isLoggedIn).Some?
    ensures var titles := TabTitles(isLoggedIn);
      match Content(selected, isLoggedIn).value
      case DetailsTab => titles[selected] == Details
      case ArtworksTab => titles[selected] == Artworks
      case SimilarTab => titles[selected] == Similar
  {
  }

  /** The nationality line: "<nationality>, " when there is one, that is
      the nationality itself followed by exactly a comma and a space. */
  function NationalityText(nationality: Option<string>): (t: Option<string>)
    ensures t.Some? <==> !IsNullOrEmpty(nationality)
    ensures t.Some? ==> |t.value| == |nationality.value| + 2 && t.value[..|nationality.value|] == nationality.value
    ensures t.Some? ==> t.value[|nationality.value|..] == ", "
  {
    if IsNullOrEmpty(nationality) then None else Some(nationality.value + ", ")
  }

  /** The lifespan line, shown when either date is there: the birthday, the
      dash only when both dates are there, then the deathday. */
  function Lifespan(birthday: Option<string>, deathday: Option<string>): (t: Option<string>)
    ensures t.Some? <==> !IsNullOrEmpty(birthday) || !IsNullOrEmpty(deathday)
  {
    if IsNullOrEmpty(birthday) && IsNullOrEmpty(deathday) then None
    else
      var b, d := birthday.GetOr(""), deathday.GetOr("");
      Some(b + (if b != "" && d != "" then Dash else "") + d)
  }

  /** The lifespan line starts with the birthday and ends with the deathday,
      and its length says whether the dash is there. */
  lemma LifespanParts(birthday: Option<string>, deathday: Option<string>)
    requires !IsNullOrEmpty(birthday) || !IsNullOrEmpty(deathday)
    ensures var t := Lifespan(birthday, deathday).value;
      var b, d := birthday.GetOr(""), deathday.GetOr("");
      && t[..|b|] == b && t[|t| - |d|..] == d
      && (!IsNullOrEmpty(birthday) && !IsNullOrEmpty(deathday) <==> |t| == |b| + |d| + 3)
      && (!IsNullOrEmpty(birthday) && !IsNullOrEmpty(deathday) ==> t[|b|..|b| + 3] == Dash)
  {
    var t := Lifespan(birthday, deathday).value;
    var b, d := birthday.GetOr(""), deathday.GetOr("");
    var sep := if b != "" && d != "" then Dash else "";
    assert t == b + sep + d;
    assert (b + sep + d)[..|b|] == b;
    assert (b + sep + d)[|b + sep|..] == d;
  }

  /** Only one date: the line is that date alone. */
  lemma LifespanOneDate(date: string)
    requires date != ""
    ensures Lifespan(Some(date), None) == Some(date)
    ensures Lifespan(None, Some(date)) == Some(date)
    ensures Lifespan(Some(date), Some("")) == Some(date)
    ensures Lifespan(Some(""), Some(date)) == Some(date)
  {
    assert date + "" + "" == date;
    assert "" + "" + date == date;
  }

  /** The heading of an artwork card: the title, then ", <date>" when there
      is a date. */
  function ArtworkHeading(title: string, date: Option<string>): (t: string)
    ensures |t| >= |title| && t[..|title|] == title
    ensures IsNullOrEmpty(date) <==> t == title
    ensures !IsNullOrEmpty(date) ==> t[|title|..] == ", " + date.value
  {
    if IsNullOrEmpty(date) then title else title + ", " + date.value
  }

  /** The star's press: it removes the artist when its id is in the set and
      adds it otherwise. With the server accepting, the artist's favourite
      status flips and no other id changes. */
  lemma StarFlips(st: FavoritesViewModel.FavoritesState, artistId: string)
    ensures var r := FavoritesViewModel.Toggle(st, artistId, Success(true));
      && (artistId in r.favoriteIds <==> artistId !in st.favoriteIds)
      && (forall id :: id != artistId ==> (id in r.favoriteIds <==> id in st.favoriteIds))
  {
    var r := FavoritesViewModel.Toggle(st, artistId, Success(true));
    forall id | id != artistId
      ensures id in r.favoriteIds <==> id in st.favoriteIds
    {
      assert id in r.favoriteIds <==> id in r.favoriteIds - {artistId};
      assert id in st.favoriteIds <==> id in st.favoriteIds - {artistId};
    }
  }
}

=== FILE: artist_detail_view_model.dfy ===
/** `ui/viewmodel/ArtistDetailViewModel.kt`: what the artist page shows. The
    details, artworks and similar artists are fetched by three coroutines,
    each with its own loading flag; a fetch begins by raising its flag and
    finishes with the repository's `Resource`. The favourite check of an id
    is a lookup function standing for the server. */
module ArtistDetailViewModel {
  import opened Models

  datatype DetailState = DetailState(
    artist: Option<ArtistDetail>,
    artworks: seq<Artwork>,
    similarArtists: seq<ArtistDetail>,
    isLoading: bool,
    isLoadingArtworks: bool,
    isLoadingSimilar: bool,
    error: Option<string>,
    isFavorite: bool,
    favoritesMap: map<string, bool>)

  /** The state flows' initial values. */
  const Initial: DetailState := DetailState(None, [], [], false, false, false, None, false, map[])

  // ---------------------------------------------------------------------------
  // getArtistDetails

  /** The fetch raises the page's loading flag and clears the error. */
  function BeginDetails(st: DetailState): DetailState {
    st.(isLoading := true, error := None)
  }

  /** The artist on success; on failure the error, and the artist shown
      before stays. Only `artist`, `error` and `isLoading` change. */
  function FinishDetails(st: DetailState, result: Resource<ArtistDetail>): (r: DetailState)
    ensures !r.isLoading
    ensures result.Success? ==> r == st.(artist := Some(result.data), isLoading := false)
    ensures result.Error? ==> r == st.(error := result.message, isLoading := false)
  {
    match result
    case Success(a) => st.(artist := Some(a), isLoading := false)
    case Error(msg, _) => st.(error := msg, isLoading := false)
  }

  function GetArtistDetails(st: DetailState, result: Resource<ArtistDetail>): DetailState {
    FinishDetails(BeginDetails(st), result)
  }

  /** A failed fetch keeps the artist already shown; a successful one clears
      the error. */
  lemma DetailsOutcome(st: DetailState, result: Resource<ArtistDetail>)
    ensures var r := GetArtistDetails(st, result);
      && !r.isLoading
      && (result.Success? ==> r.artist == Some(result.data) && r.error.None?)
      && (result.Error? ==> r.artist == st.artist && r.error == result.message)
  {
  }

  // ---------------------------------------------------------------------------
  // getArtworks and getSimilarArtists

  /** The fetch raises only its own loading flag. */
  function BeginArtworks(st: DetailState): DetailState {
    st.(isLoadingArtworks := true)
  }

  /** The artworks on success; on failure none, and the error. The other
      fetches' flags and lists are left alone. */
  function FinishArtworks(st: DetailState, result: Resource<seq<Artwork>>): (r: DetailState)
    ensures !r.isLoadingArtworks
    ensures r.isLoading == st.isLoading && r.isLoadingSimilar == st.isLoadingSimilar
    ensures r.artist == st.artist && r.similarArtists == st.similarArtists
    ensures result.Success? ==> r.artworks == result.data && r.error == st.error
    ensures result.Error? ==> r.artworks == [] && r.error == result.message
  {
    match result
    case Success(ws) => st.(artworks := ws, isLoadingArtworks := false)
    case Error(msg, _) => st.(error := msg, artworks := [], isLoadingArtworks := false)
  }

  /** The fetch raises only its own loading flag. */
  function BeginSimilar(st: DetailState): DetailState {
    st.(isLoadingSimilar := true)
  }

  /** The similar artists on success; on failure none, and the error. */
  function FinishSimilar(st: DetailState, result: Resource<seq<ArtistDetail>>): (r: DetailState)
    ensures !r.isLoadingSimilar
    ensures r.isLoading == st.isLoading && r.isLoadingArtworks == st.isLoadingArtworks
    ensures r.artist == st.artist && r.artworks == st.artworks
    ensures result.Success? ==> r.similarArtists == result.data && r.error == st.error
    ensures result.Error? ==> r.similarArtists == [] && r.error == result.message
  {
    match result
    case Success(xs) => st.(similarArtists := xs, isLoadingSimilar := false)
    case Error(msg, _) => st.(error := msg, similarArtists := [], isLoadingSimilar := false)
  }

  function GetArtworks(st: DetailState, result: Resource<seq<Artwork>>): DetailState {
    FinishArtworks(BeginArtworks(st), result)
  }

  function GetSimilarArtists(st: DetailState, result: Resource<seq<ArtistDetail>>): DetailState {
    FinishSimilar(BeginSimilar(st), result)
  }

  /** The artwork and the similar-artist fetches: each ends with its own
      loading flag down, replaces its list with the answer, or with nothing
      and the error on failure, and changes nothing else. */
  lemma ListOutcomes(st: DetailState, ws: Resource<seq<Artwork>>, xs: Resource<seq<ArtistDetail>>)
    ensures var r := GetArtworks(st, ws);
      && r == st.(artworks := r.artworks, error := r.error, isLoadingArtworks := false)
      && (ws.Success? ==> r.artworks == ws.data && r.error == st.error)
      && (ws.Error? ==> r.artworks == [] && r.error == ws.message)
    ensures var r := GetSimilarArtists(st, xs);
      && r == st.(similarArtists := r.similarArtists, error := r.error, isLoadingSimilar := false)
      && (xs.Success? ==> r.similarArtists == xs.data && r.error == st.error)
      && (xs.Error? ==> r.similarArtists == [] && r.error == xs.message)
  {
  }

  /** The artwork and similar-artist fetches touch disjoint parts of the
      state, apart from the shared error: finishing them in either order
      gives the same lists and flags. */
  lemma ListFetchesCommute(st: DetailState, ws: Resource<seq<Artwork>>, xs: Resource<seq<ArtistDetail>>)
    ensures var a := FinishSimilar(FinishArtworks(st, ws), xs);
      var b := FinishArtworks(FinishSimilar(st, xs), ws);
      a.(error := None) == b.(error := None)
    ensures ws.Success? && xs.Success? ==>
      FinishSimilar(FinishArtworks(st, ws), xs) == FinishArtworks(FinishSimilar(st, xs), ws)
  {
  }

  // ---------------------------------------------------------------------------
  // getArtworkCategories

  /** The state after the fetch and the one list the callback receives: the
      categories, or the empty list and the error on failure. */
  function GetArtworkCategories(st: DetailState, result: Resource<seq<Category>>): (r: (DetailState, seq<Category>))
    ensures result.Success? ==> r.1 == result.data && r.0 == st
    ensures result.Error? ==> r.1 == [] && r.0 == st.(error := result.message)
  {
    match result
    case Success(cs) => (st, cs)
    case Error(msg, _) => (st.(error := msg), [])
  }

  // ---------------------------------------------------------------------------
  // Favourite checks

  /** `checkFavoriteStatus`: the answer, or false with the error. Only the
      favourite flag and, on failure, the error change. */
  function CheckFavoriteStatus(st: DetailState, result: Resource<bool>): (r: DetailState)
    ensures r.isFavorite == FlagOrFalse(result)
    ensures result.Success? ==> r.error == st.error
    ensures result.Error? ==> !r.isFavorite && r.error == result.message
    ensures r == st.(isFavorite := r.isFavorite, error := r.error)
  {
    match result
    case Success(b) => st.(isFavorite := b)
    case Error(msg, _) => st.(error := msg, isFavorite := false)
  }

  /** The loop of `checkFavoritesStatuses` from map `m` on: each id gets the
      answer of its own check, false when that check fails. */
  function StatusesFrom(m: map<string, bool>, ids: seq<string>, lookup: string -> Resource<bool>): map<string, bool>
    decreases |ids|
  {
    if ids == [] then m else StatusesFrom(m[ids[0] := FlagOrFalse(lookup(ids[0]))], ids[1..], lookup)
  }

  /** The keys are the starting keys plus the ids; an id checked has its
      answer, any other key keeps its value. */
  lemma {:induction false} StatusesFromSpec(m: map<string, bool>, ids: seq<string>, lookup: string -> Resource<bool>, id: string)
    ensures id in StatusesFrom(m, ids, lookup) <==> id in m || id in ids
    ensures id in ids ==> StatusesFrom(m, ids, lookup)[id] == FlagOrFalse(lookup(id))
    ensures id !in ids && id in m ==> StatusesFrom(m, ids, lookup)[id] == m[id]
    decreases |ids|
  {
    if ids != [] {
      var m' := m[ids[0] := FlagOrFalse(lookup(ids[0]))];
      StatusesFromSpec(m', ids[1..], lookup, id);
      assert id in ids <==> id == ids[0] || id in ids[1..];
    }
  }

  /** `checkFavoritesStatuses(ids)`: the map is replaced by one whose keys are
      exactly `ids`, failed checks reading false. */
  function CheckFavoritesStatuses(st: DetailState, ids: seq<string>, lookup: string -> Resource<bool>): (r: DetailState)
    ensures r == st.(favoritesMap := r.favoritesMap)
  {
    st.(favoritesMap := StatusesFrom(map[], ids, lookup))
  }

  lemma CheckFavoritesStatusesSpec(st: DetailState, ids: seq<string>, lookup: string -> Resource<bool>, id: string)
    ensures var r := CheckFavoritesStatuses(st, ids, lookup);
      && (id in r.favoritesMap <==> id in ids)
      && (id in ids ==> r.favoritesMap[id] == FlagOrFalse(lookup(id)))
  {
    StatusesFromSpec(map[], ids, lookup, id);
  }
}

=== FILE: auth_repository.dfy ===
/** `data/repository/AuthRepository.kt`: how the answer of each account
    endpoint becomes a `Resource`. The HTTP exchange itself is an input: the
    server answered with a status, a body and an error body, or the call threw. */
module AuthRepository {
  import opened Text
  import opened Models

  /** An HTTP answer. `body` is the user inside the response body, `None`
      when the body or its user is null; `errorBody` is the error body read
      as text; `message` is the status line's reason phrase. */
  datatype Response<+T> = Response(successful: bool, body: Option<T>, errorBody: Option<string>, message: string)

  /** What a call produced: an answer, or an exception with its message. */
  datatype Outcome<+T> = Answered(response: Response<T>) | Thrown(message: Option<string>)

  const NetworkErrorPrefix: string := "Network error: "
  const EmailTaken: string := "Email already exists"
  const BadCredentials: string := "Password or email is incorrect"
  const RegisterUnknownPrefix: string := "Unknown Registration failed Reason: "
  const LoginUnknownPrefix: string := "Unknown Login failed reason: "
  const CurrentUserPrefix: string := "Failed to get current user: "
  const LogoutPrefix: string := "Logout failed: "
  const DeletePrefix: string := "Account deletion failed: "

  /** The server answered with success and a user in the body. */
  predicate Delivered<T>(o: Outcome<T>) {
    o.Answered? && o.response.successful && o.response.body.Some?
  }

  /** The server answered with a failure status. */
  predicate Rejected<T>(o: Outcome<T>) {
    o.Answered? && !o.response.successful
  }

  /** The call threw, or the server answered success with no user, which
      `!!` turns into a `NullPointerException` without a message. */
  predicate Crashed<T>(o: Outcome<T>) {
    o.Thrown? || (o.Answered? && o.response.successful && o.response.body.None?)
  }

  /** The message of the exception a crashed call ends in. */
  function CrashMessage<T>(o: Outcome<T>): Option<string>
    requires Crashed(o)
  {
    if o.Thrown? then o.message else None
  }

  /** The catch-all `Resource.Error("Network error: ${e.message}")`. */
  function NetworkError<T>(message: Option<string>): (r: Resource<T>)
    ensures r.Error? && r.fieldErrors.None? && r.message.Some?
    ensures IsPrefix(NetworkErrorPrefix, r.message.value) && r.message.value[0] == 'N'
    ensures r.message.value[|NetworkErrorPrefix|..] == Interpolate(message)
  {
    Error(Some(NetworkErrorPrefix + Interpolate(message)), None)
  }

  /** `register`: the user on success; "Email already exists" when the error
      body mentions "email" in any letter case; otherwise the reason phrase
      after a fixed prefix. */
  function Register(o: Outcome<User>): (r: Resource<User>)
    ensures r.Success? <==> Delivered(o)
    ensures r.Success? ==> r.data == o.response.body.value
    ensures r.Error? ==> r.message.Some? && r.fieldErrors.None?
    ensures r == Error(Some(EmailTaken), None)
      <==> Rejected(o) && o.response.errorBody.Some? && ContainsIgnoreCase(o.response.errorBody.value, "email")
    ensures Rejected(o) && !(o.response.errorBody.Some? && ContainsIgnoreCase(o.response.errorBody.value, "email")) ==>
      r == Error(Some(RegisterUnknownPrefix + o.response.message), None)
  {
    match o
    case Thrown(msg) => NetworkError(msg)
    case Answered(resp) =>
      if resp.successful then
        (if resp.body.Some? then Success(resp.body.value) else NetworkError(None))
      else if resp.errorBody.Some? && ContainsIgnoreCase(resp.errorBody.value, "email") then
        Error(Some(EmailTaken), None)
      else
        Error(Some(RegisterUnknownPrefix + resp.message), None)
  }

  /** `login`: the user on success; the fixed credentials message, also as
      the field error of "email", when the error body contains "password" or
      "email" with exactly that letter case; otherwise the reason phrase
      after a fixed prefix. */
  function Login(o: Outcome<User>): (r: Resource<User>)
    ensures r.Success? <==> Delivered(o)
    ensures r.Success? ==> r.data == o.response.body.value
    ensures r.Error? ==> r.message.Some?
    ensures r.Error? && r.fieldErrors.Some?
      <==> (Rejected(o) && o.response.errorBody.Some?
            && (Contains(o.response.errorBody.value, "password") || Contains(o.response.errorBody.value, "email")))
    ensures r.Error? && r.fieldErrors.Some? ==>
      r.message == Some(BadCredentials) && r.fieldErrors.value == map["email" := BadCredentials]
    ensures (Rejected(o)
             && !(o.response.errorBody.Some?
                  && (Contains(o.response.errorBody.value, "password") || Contains(o.response.errorBody.value, "email"))))
      ==> r == Error(Some(LoginUnknownPrefix + o.response.message), None)
  {
    match o
    case Thrown(msg) => NetworkError(msg)
    case Answered(resp) =>
      if resp.successful then
        (if resp.body.Some? then Success(resp.body.value) else NetworkError(None))
      else if resp.errorBody.Some?
        && (Contains(resp.errorBody.value, "password") || Contains(resp.errorBody.value, "email")) then
        Error(Some(BadCredentials), Some(map["email" := BadCredentials]))
      else
        Error(Some(LoginUnknownPrefix + resp.message), None)
  }

  /** `getCurrentUser`: the user on success; the reason phrase after a fixed
      prefix for a rejected answer; the network error for a crash, a
      successful answer without a user included. */
  function GetCurrentUser(o: Outcome<User>): (r: Resource<User>)
    ensures r.Success? <==> Delivered(o)
    ensures r.Success? ==> r.data == o.response.body.value
    ensures r.Error? ==> r.message.Some? && r.fieldErrors.None?
    ensures Rejected(o) ==> r == Error(Some(CurrentUserPrefix + o.response.message), None)
    ensures Crashed(o) ==> r == NetworkError(CrashMessage(o))
  {
    match o
    case Thrown(msg) => NetworkError(msg)
    case Answered(resp) =>
      if resp.successful then
        (if resp.body.Some? then Success(resp.body.value) else NetworkError(None))
      else
        Error(Some(CurrentUserPrefix + resp.message), None)
  }

  /** The shape shared by `logout` and `deleteAccount`: `true` on any
      successful answer, whatever its body; the reason phrase after `prefix`
      for a rejected answer; the network error when the call threw. */
  function Acknowledge<T>(o: Outcome<T>, prefix: string): (r: Resource<bool>)
    ensures r.Success? <==> o.Answered? && o.response.successful
    ensures r.Success? ==> r.data
    ensures r.Error? ==> r.message.Some? && r.fieldErrors.None?
    ensures Rejected(o) ==> r == Error(Some(prefix + o.response.message), None)
    ensures o.Thrown? ==> r == NetworkError(o.message)
  {
    match o
    case Thrown(msg) => NetworkError(msg)
    case Answered(resp) =>
      if resp.successful then Success(true) else Error(Some(prefix + resp.message), None)
  }

  /** `logout`. */
  function Logout<T>(o: Outcome<T>): (r: Resource<bool>)
    ensures r == Success(true) <==> o.Answered? && o.response.successful
    ensures Rejected(o) ==> r.Error? && r.message.Some? && IsPrefix("Logout failed: ", r.message.value)
    ensures Rejected(o) ==> r == Error(Some(LogoutPrefix + o.response.message), None)
    ensures o.Thrown? ==> r == NetworkError(o.message)
  {
    var r := Acknowledge(o, LogoutPrefix);
    assert Rejected(o) ==> r.message.value[..|LogoutPrefix|] == LogoutPrefix;
    r
  }

  /** `deleteAccount`. */
  function DeleteAccount<T>(o: Outcome<T>): (r: Resource<bool>)
    ensures r == Success(true) <==> o.Answered? && o.response.successful
    ensures Rejected(o) ==> r.Error? && r.message.Some? && IsPrefix("Account deletion failed: ", r.message.value)
    ensures Rejected(o) ==> r == Error(Some(DeletePrefix + o.response.message), None)
    ensures o.Thrown? ==> r == NetworkError(o.message)
  {
    var r := Acknowledge(o, DeletePrefix);
    assert Rejected(o) ==> r.message.value[..|DeletePrefix|] == DeletePrefix;
    r
  }

  // ---------------------------------------------------------------------------
  // Telling the errors apart

  /** An error that starts with "Network error: " comes from an exception
      (a missing user counts as one) and from nothing else; the rest of the
      message is the exception's message, "null" when it had none. */
  lemma RegisterNetworkError(o: Outcome<User>)
    ensures var r := Register(o);
      r.Error? && IsPrefix(NetworkErrorPrefix, r.message.value) <==> Crashed(o)
    ensures var r := Register(o);
      Crashed(o) ==> r.message.value[|NetworkErrorPrefix|..] == Interpolate(CrashMessage(o))
  {
    if Rejected(o) {
      var resp := o.response;
      if !(resp.errorBody.Some? && ContainsIgnoreCase(resp.errorBody.value, "email")) {
        PrefixesDiffer(RegisterUnknownPrefix, resp.message);
      } else {
        assert EmailTaken[0] != NetworkErrorPrefix[0];
      }
    }
  }

  /** The same for `login`. */
  lemma LoginNetworkError(o: Outcome<User>)
    ensures var r := Login(o);
      r.Error? && IsPrefix(NetworkErrorPrefix, r.message.value) <==> Crashed(o)
    ensures var r := Login(o);
      Crashed(o) ==> r.message.value[|NetworkErrorPrefix|..] == Interpolate(CrashMessage(o))
  {
    if Rejected(o) {
      var resp := o.response;
      if !(resp.errorBody.Some? && (Contains(resp.errorBody.value, "password") || Contains(resp.errorBody.value, "email"))) {
        PrefixesDiffer(LoginUnknownPrefix, resp.message);
      } else {
        assert BadCredentials[0] != NetworkErrorPrefix[0];
      }
    }
  }

  /** For `logout` and `deleteAccount` an error is a network error exactly
      when the call threw, and otherwise carries the endpoint's own prefix:
      the caller can tell a failed connection from a refusal by the text. */
  lemma SignOutNetworkError<T>(o: Outcome<T>)
    ensures var r := Logout(o);
      && (r.Error? && IsPrefix(NetworkErrorPrefix, r.message.value) <==> o.Thrown?)
      && (r.Error? && IsPrefix(LogoutPrefix, r.message.value) <==> Rejected(o))
    ensures var r := DeleteAccount(o);
      && (r.Error? && IsPrefix(NetworkErrorPrefix, r.message.value) <==> o.Thrown?)
      && (r.Error? && IsPrefix(DeletePrefix, r.message.value) <==> Rejected(o))
  {
    if Rejected(o) {
      PrefixesDiffer(LogoutPrefix, o.response.message);
      PrefixesDiffer(DeletePrefix, o.response.message);
    } else if o.Thrown? {
      var m := NetworkErrorPrefix + Interpolate(o.message);
      assert m[0] != LogoutPrefix[0] && m[0] != DeletePrefix[0];
    }
  }

  /** A message that starts with another letter than "N" is no network error. */
  lemma PrefixesDiffer(prefix: string, rest: string)
    requires |prefix| > 0 && prefix[0] != 'N'
    ensures !IsPrefix(NetworkErrorPrefix, prefix + rest)
  {
    assert (prefix + rest)[0] == prefix[0];
  }

  /** An error body "Email" is an e-mail problem to `register` but not to
      `login`, which matches letter case exactly: the two endpoints classify
      the same text differently. */
  lemma EmailCaseMatters(resp: Response<User>)
    requires !resp.successful && resp.errorBody == Some("Email")
    ensures Register(Answered(resp)) == Error(Some(EmailTaken), None)
    ensures Login(Answered(resp)) == Error(Some(LoginUnknownPrefix + resp.message), None)
  {
    MatchesFromStart("Email");
    NotExactly("Email");
  }

  /** The letters of "email" in other cases, even a dotted capital I, are
      still "email" to `register`. */
  lemma DottedCapitalIIsEmail(resp: Response<User>)
    requires !resp.successful && resp.errorBody == Some("EMA\U{0130}L taken")
    ensures Register(Answered(resp)) == Error(Some(EmailTaken), None)
  {
    MatchesFromStart("EMA\U{0130}L taken");
  }

  lemma MatchesFromStart(body: string)
    requires |body| >= 5 && forall k :: 0 <= k < 5 ==> CharEqualsIgnoreCase(body[k], "email"[k])
    ensures ContainsIgnoreCase(body, "email")
  {
    assert IsAscii("email");
    assert MatchesAt(body, "email", 0);
  }

  lemma NotExactly(body: string)
    requires body == "Email"
    ensures !Contains(body, "email") && !Contains(body, "password")
  {
    assert body[..5][0] != "email"[0];
    ShorterNotContained(body[1..], "email");
    ShorterNotContained(body, "password");
  }
}

=== FILE: auth_view_model.dfy ===
/** `ui/viewmodel/AuthViewModel.kt`: the session state of the app. Each
    operation is a coroutine that runs in two steps on the main thread: it
    begins (raises `isLoading`, and for register and login clears the error),
    suspends on the repository call, and finishes with the call's `Resource`.
    Steps of different operations may interleave; each step is atomic. */
module AuthViewModel {
  import opened Models

  datatype ErrorState = ErrorState(message: string, fieldErrors: Option<map<string, string>>)

  datatype AuthState = AuthState(
    isLoggedIn: bool,
    currentUser: Option<User>,
    isLoading: bool,
    error: Option<ErrorState>)

  /** The state flows' initial values. */
  const Initial: AuthState := AuthState(false, None, false, None)

  const RegistrationFailed: string := "Registration failed"
  const LoginFailed: string := "Login failed"

  /** The session invariant: logged in exactly when a user is known. */
  predicate Consistent(st: AuthState) {
    st.isLoggedIn <==> st.currentUser.Some?
  }

  // ---------------------------------------------------------------------------
  // Steps

  /** The start of `register` and `login`: loading, error cleared. */
  function BeginWithReset(st: AuthState): (r: AuthState)
    ensures r.isLoading && r.error.None?
    ensures r.isLoggedIn == st.isLoggedIn && r.currentUser == st.currentUser
  {
    st.(isLoading := true, error := None)
  }

  /** The start of `checkLoginStatus`, `logout` and `deleteAccount`: loading,
      the error left as it was. */
  function Begin(st: AuthState): (r: AuthState)
    ensures r.isLoading
    ensures r.isLoggedIn == st.isLoggedIn && r.currentUser == st.currentUser && r.error == st.error
  {
    st.(isLoading := true)
  }

  /** The session a signed-in user gets. */
  function SignIn(st: AuthState, user: User): (r: AuthState)
    ensures Consistent(r) && r.currentUser == Some(user)
    ensures r.error == st.error
  {
    st.(currentUser := Some(user), isLoggedIn := true)
  }

  /** No session. */
  function SignOut(st: AuthState): (r: AuthState)
    ensures Consistent(r) && !r.isLoggedIn
    ensures r.error == st.error
  {
    st.(currentUser := None, isLoggedIn := false)
  }

  /** The end of `register` (with `fallback` "Registration failed") or of
      `login` (with "Login failed"): sign in on success, otherwise keep the
      session and record the message, or the fallback when there is none,
      with the field errors. */
  function FinishAuthenticate(st: AuthState, result: Resource<User>, fallback: string): (r: AuthState)
    ensures !r.isLoading
    ensures result.Success? ==> r.isLoggedIn && r.currentUser == Some(result.data) && r.error == st.error
    ensures result.Error? ==> r.isLoggedIn == st.isLoggedIn && r.currentUser == st.currentUser
    ensures result.Error? ==> r.error.Some? && r.error.value.fieldErrors == result.fieldErrors
    ensures result.Error? && result.message.Some? ==> r.error.value.message == result.message.value
    ensures result.Error? && result.message.None? ==> r.error.value.message == fallback
  {
    var st' := match result
      case Success(user) => SignIn(st, user)
      case Error(msg, fields) => st.(error := Some(ErrorState(msg.GetOr(fallback), fields)));
    st'.(isLoading := false)
  }

  /** The end of `checkLoginStatus`: sign in with the user found, or sign out. */
  function FinishCheck(st: AuthState, result: Resource<User>): (r: AuthState)
    ensures !r.isLoading && r.error == st.error
    ensures result.Success? ==> r.isLoggedIn && r.currentUser == Some(result.data)
    ensures result.Error? ==> !r.isLoggedIn && r.currentUser.None?
  {
    (if result.Success? then SignIn(st, result.data) else SignOut(st)).(isLoading := false)
  }

  /** The end of `logout` and `deleteAccount`: sign out on success, change
      nothing else on failure. */
  function FinishSignOut(st: AuthState, result: Resource<bool>): (r: AuthState)
    ensures !r.isLoading && r.error == st.error
    ensures result.Success? ==> !r.isLoggedIn && r.currentUser.None?
    ensures result.Error? ==> r == st.(isLoading := false)
  {
    (if result.Success? then SignOut(st) else st).(isLoading := false)
  }

  // ---------------------------------------------------------------------------
  // Whole operations, run without interleaving

  function Register(st: AuthState, result: Resource<User>): AuthState {
    FinishAuthenticate(BeginWithReset(st), result, RegistrationFailed)
  }

  function Login(st: AuthState, result: Resource<User>): AuthState {
    FinishAuthenticate(BeginWithReset(st), result, LoginFailed)
  }

  function CheckLoginStatus(st: AuthState, result: Resource<User>): AuthState {
    FinishCheck(Begin(st), result)
  }

  function Logout(st: AuthState, result: Resource<bool>): AuthState {
    FinishSignOut(Begin(st), result)
  }

  function DeleteAccount(st: AuthState, result: Resource<bool>): AuthState {
    FinishSignOut(Begin(st), result)
  }

  /** Register and login: a success signs the user in with no error left,
      a failure keeps the session and shows the server's message or the
      operation's own fallback. */
  lemma AuthenticateOutcome(st: AuthState, result: Resource<User>)
    ensures var r := Register(st, result);
      && (result.Success? ==> r.isLoggedIn && r.currentUser == Some(result.data) && r.error.None?)
      && (result.Error? ==>
            r.isLoggedIn == st.isLoggedIn && r.currentUser == st.currentUser
            && r.error == Some(ErrorState(result.message.GetOr(RegistrationFailed), result.fieldErrors)))
    ensures var r := Login(st, result);
      && (result.Success? ==> r.isLoggedIn && r.currentUser == Some(result.data) && r.error.None?)
      && (result.Error? ==>
            r.isLoggedIn == st.isLoggedIn && r.currentUser == st.currentUser
            && r.error == Some(ErrorState(result.message.GetOr(LoginFailed), result.fieldErrors)))
  {
  }

  /** Logout and account deletion: a success ends the session, a failure
      leaves everything but the loading flag as it was. */
  lemma SignOutOutcome(st: AuthState, result: Resource<bool>)
    ensures var r := Logout(st, result);
      (result.Success? ==> !r.isLoggedIn && r.currentUser.None?) && (result.Error? ==> r == st.(isLoading := false))
    ensures var r := DeleteAccount(st, result);
      (result.Success? ==> !r.isLoggedIn && r.currentUser.None?) && (result.Error? ==> r == st.(isLoading := false))
  {
  }

  /** The login check: a user found signs in, a failed check signs out, and
      the error shown is left as it was. */
  lemma CheckOutcome(st: AuthState, result: Resource<User>)
    ensures var r := CheckLoginStatus(st, result);
      && !r.isLoading && r.error == st.error
      && (result.Success? ==> r.isLoggedIn && r.currentUser == Some(result.data))
      && (result.Error? ==> !r.isLoggedIn && r.currentUser.None?)
  {
  }

  /** Every whole operation ends with `isLoading` false. */
  lemma OperationsEndIdle(st: AuthState, u: Resource<User>, b: Resource<bool>)
    ensures !Register(st, u).isLoading && !Login(st, u).isLoading && !CheckLoginStatus(st, u).isLoading
    ensures !Logout(st, b).isLoading && !DeleteAccount(st, b).isLoading
  {
  }

  // ---------------------------------------------------------------------------
  // Any interleaving keeps the session consistent

  /** One step of one of the coroutines. */
  datatype Event =
    | RegisterBegun | RegisterDone(user: Resource<User>)
    | LoginBegun | LoginDone(user: Resource<User>)
    | CheckBegun | CheckDone(user: Resource<User>)
    | LogoutBegun | LogoutDone(ack: Resource<bool>)
    | DeleteBegun | DeleteDone(ack: Resource<bool>)

  function Step(st: AuthState, e: Event): AuthState {
    match e
    case RegisterBegun => BeginWithReset(st)
    case RegisterDone(u) => FinishAuthenticate(st, u, RegistrationFailed)
    case LoginBegun => BeginWithReset(st)
    case LoginDone(u) => FinishAuthenticate(st, u, LoginFailed)
    case CheckBegun => Begin(st)
    case CheckDone(u) => FinishCheck(st, u)
    case LogoutBegun => Begin(st)
    case LogoutDone(b) => FinishSignOut(st, b)
    case DeleteBegun => Begin(st)
    case DeleteDone(b) => FinishSignOut(st, b)
  }

  /** The state after the steps `es`, in order. */
  function Run(st: AuthState, es: seq<Event>): AuthState
    decreases |es|
  {
    if es == [] then st else Run(Step(st, es[0]), es[1..])
  }

  /** Every step keeps the session invariant. */
  lemma StepConsistent(st: AuthState, e: Event)
    requires Consistent(st)
    ensures Consistent(Step(st, e))
  {
  }

  /** From the initial state, whatever steps run in whatever order, the app
      is logged in exactly when it knows a user. */
  lemma {:induction false} RunConsistent(st: AuthState, es: seq<Event>)
    requires Consistent(st)
    ensures Consistent(Run(st, es))
    decreases |es|
  {
    if es != [] {
      StepConsistent(st, es[0]);
      RunConsistent(Step(st, es[0]), es[1..]);
    }
  }

  lemma InitialConsistent(es: seq<Event>)
    ensures Consistent(Initial)
    ensures Consistent(Run(Initial, es))
  {
    RunConsistent(Initial, es);
  }
}

=== FILE: carousel.dfy ===
/** `ui/components/CategoryCarousel.kt`: the arrows of the category pager.
    The left arrow goes one page back and wraps from the first page to the
    last; the right arrow goes one page on and wraps from the last page to
    the first. Nothing is shown for an empty category list. */
module Carousel {
  import opened Models

  /** The number of pages the pager is built with, or nothing at all when
      there are no categories. */
  function PageCount(categories: seq<Category>): (n: Option<nat>)
    ensures n.Some? <==> |categories| > 0
    ensures n.Some? ==> n.value >= 1 && n.value == |categories|
  {
    if |categories| == 0 then None else Some(|categories|)
  }

  /** The page the left arrow scrolls to from `current` among `count` pages:
      from an existing page, one step back around the cycle of pages. */
  function Prev(current: int, count: int): (p: int)
    ensures 0 <= current < count ==> 0 <= p < count && p == (current + count - 1) % count
  {
    StepsAroundCycle(current, count);
    if current > 0 then current - 1 else count - 1
  }

  /** The page the right arrow scrolls to from `current` among `count` pages:
      from an existing page, one step on around the cycle of pages. */
  function Next(current: int, count: int): (p: int)
    ensures 0 <= current < count ==> 0 <= p < count && p == (current + 1) % count
  {
    StepsAroundCycle(current, count);
    if current < count - 1 then current + 1 else 0
  }

  /** One step back and one step on, modulo `count`, from an index below it. */
  lemma StepsAroundCycle(current: int, count: int)
    ensures 0 < current < count ==> (current + count - 1) % count == current - 1
    ensures 0 == current < count ==> (current + count - 1) % count == count - 1
    ensures 0 <= current < count - 1 ==> (current + 1) % count == current + 1
    ensures 0 <= current == count - 1 ==> (current + 1) % count == 0
  {
    if 0 < current < count {
      ModUnique(current + count - 1, count, 1, current - 1);
    }
    if 0 == current < count {
      ModUnique(count - 1, count, 0, count - 1);
    }
    if 0 <= current < count - 1 {
      ModUnique(current + 1, count, 0, current + 1);
    }
    if 0 <= current == count - 1 {
      ModUnique(current + 1, count, 1, 0);
    }
  }

  /** Both arrows stay on an existing page. */
  lemma ArrowsInRange(current: int, count: int)
    requires 0 <= current < count
    ensures 0 <= Prev(current, count) < count
    ensures 0 <= Next(current, count) < count
  {
  }

  /** The first page goes back to the last, the last page on to the first. */
  lemma ArrowsWrap(count: int)
    requires count >= 1
    ensures Prev(0, count) == count - 1
    ensures Next(count - 1, count) == 0
  {
  }

  /** Each arrow undoes the other. */
  lemma ArrowsInverse(current: int, count: int)
    requires 0 <= current < count
    ensures Prev(Next(current, count), count) == current
    ensures Next(Prev(current, count), count) == current
  {
  }

  /** With a single category both arrows stay on page 0. */
  lemma SinglePage(current: int)
    requires current == 0
    ensures Prev(current, 1) == 0 && Next(current, 1) == 0
  {
  }

  /** The arrows are steps of -1 and +1 around a cycle of `count` pages. */
  lemma ArrowsAreModular(current: int, count: int)
    requires 0 <= current < count
    ensures Prev(current, count) == (current + count - 1) % count
    ensures Next(current, count) == (current + 1) % count
  {
  }

  /** The page reached from `current` after `k` presses of the right arrow. */
  function NextTimes(current: int, count: int, k: nat): int {
    if k == 0 then current else Next(NextTimes(current, count, k - 1), count)
  }

  /** From page 0, `k` presses of the right arrow land on page `k mod count`:
      the pager visits every page in order and comes back. */
  lemma {:induction false} NextTimesIsModular(count: int, k: nat)
    requires count >= 1
    ensures NextTimes(0, count, k) == k % count
  {
    if k > 0 {
      NextTimesIsModular(count, k - 1);
      ArrowsAreModular((k - 1) % count, count);
      ModSucc(k - 1, count);
    }
  }

  lemma ModSucc(a: nat, n: int)
    requires n >= 1
    ensures (a % n + 1) % n == (a + 1) % n
  {
    var q, r := a / n, a % n;
    assert a == q * n + r;
    if r + 1 < n {
      ModUnique(a + 1, n, q, r + 1);
      ModUnique(r + 1, n, 0, r + 1);
    } else {
      assert a + 1 == (q + 1) * n;
      ModUnique(a + 1, n, q + 1, 0);
      ModUnique(r + 1, n, 1, 0);
    }
  }

  /** Quotient and remainder are the only ones. */
  lemma ModUnique(a: int, n: int, q: int, r: int)
    requires n >= 1 && a == q * n + r && 0 <= r < n
    ensures a % n == r
  {
    var q0, r0 := a / n, a % n;
    var d := q - q0;
    assert d * n == r0 - r by {
      assert a == q0 * n + r0;
      assert d * n == q * n - q0 * n;
    }
    if d >= 1 {
      MulAtLeast(d, n);
    } else if d <= -1 {
      MulAtLeast(-d, n);
    }
  }

  lemma MulAtLeast(k: int, n: int)
    requires k >= 1 && n >= 1
    ensures k * n >= n
  {
    assert k * n == n + (k - 1) * n;
  }
}

=== FILE: cookie_jar.dfy ===
/** `utils/PersistentCookieJar.kt`: session cookies kept per host in memory
    and mirrored to the preferences store. Both are maps from host to cookie
    list; the JSON encoding of the preferences and okhttp's domain and path
    handling are not modelled. `now` is the clock reading of each call. */
module CookieJar {
  import opened Models

  datatype Cookie = Cookie(
    name: string,
    value: string,
    expiresAt: int,
    domain: string,
    path: string,
    secure: bool,
    httpOnly: bool,
    hostOnly: bool)

  /** The jar's expiry test: strictly before now, so a cookie expiring at
      `now` itself is still valid. */
  predicate IsExpired(c: Cookie, now: int) {
    c.expiresAt < now
  }

  /** A cookie expiring now is still sent; one millisecond later it is not. */
  lemma ExpiryIsStrict(c: Cookie, now: int)
    requires c.expiresAt == now
    ensures !IsExpired(c, now) && IsExpired(c, now + 1)
  {
  }

  /** The in-memory store and the persisted preferences. */
  datatype Jar = Jar(store: map<string, seq<Cookie>>, prefs: map<string, seq<Cookie>>)

  /** Kotlin's `map[host].orEmpty()`. */
  function Get(m: map<string, seq<Cookie>>, host: string): seq<Cookie> {
    if host in m then m[host] else []
  }

  /** `m1` and `m2` agree on every host but `host`. */
  ghost predicate SameElsewhere(m1: map<string, seq<Cookie>>, m2: map<string, seq<Cookie>>, host: string) {
    forall h :: h != host ==> (h in m1 <==> h in m2) && (h in m1 ==> m1[h] == m2[h])
  }

  // ---------------------------------------------------------------------------
  // Filters over cookie lists

  /** The unexpired cookies of `cs`, in order. */
  function Unexpired(cs: seq<Cookie>, now: int): (r: seq<Cookie>)
    ensures |r| <= |cs|
    ensures forall c :: c in r <==> c in cs && !IsExpired(c, now)
  {
    if cs == [] then []
    else (if IsExpired(cs[0], now) then [] else [cs[0]]) + Unexpired(cs[1..], now)
  }

  /** Nothing is dropped exactly when nothing has expired. */
  lemma {:induction false} UnexpiredKeepsAll(cs: seq<Cookie>, now: int)
    ensures |Unexpired(cs, now)| == |cs| <==> forall c :: c in cs ==> !IsExpired(c, now)
    ensures |Unexpired(cs, now)| == |cs| ==> Unexpired(cs, now) == cs
  {
    if cs != [] {
      UnexpiredKeepsAll(cs[1..], now);
      assert cs == [cs[0]] + cs[1..];
    }
  }

  /** Filtering at an earlier time and then at a later one is filtering at
      the later one: expiry only ever grows. */
  lemma {:induction false} UnexpiredLater(cs: seq<Cookie>, t0: int, t: int)
    requires t0 <= t
    ensures Unexpired(Unexpired(cs, t0), t) == Unexpired(cs, t)
  {
    if cs != [] {
      UnexpiredLater(cs[1..], t0, t);
      var head := if IsExpired(cs[0], t0) then [] else [cs[0]];
      UnexpiredAppend(head, Unexpired(cs[1..], t0), t);
    }
  }

  lemma {:induction false} UnexpiredAppend(a: seq<Cookie>, b: seq<Cookie>, now: int)
    ensures Unexpired(a + b, now) == Unexpired(a, now) + Unexpired(b, now)
  {
    if a != [] {
      assert (a + b)[0] == a[0];
      assert (a + b)[1..] == a[1..] + b;
      UnexpiredAppend(a[1..], b, now);
    } else {
      assert a + b == b;
    }
  }

  /** The names carried by a cookie list. */
  function Names(cs: seq<Cookie>): set<string> {
    set c | c in cs :: c.name
  }

  /** The cookies of `cs` whose name is not in `ns`, in order. */
  function Without(cs: seq<Cookie>, ns: set<string>): (r: seq<Cookie>)
    ensures forall c :: c in r <==> c in cs && c.name !in ns
  {
    if cs == [] then []
    else (if cs[0].name in ns then [] else [cs[0]]) + Without(cs[1..], ns)
  }

  lemma {:induction false} WithoutAppend(a: seq<Cookie>, b: seq<Cookie>, ns: set<string>)
    ensures Without(a + b, ns) == Without(a, ns) + Without(b, ns)
  {
    if a != [] {
      WithoutCons(a, b, ns);
      WithoutAppend(a[1..], b, ns);
      var head := if a[0].name in ns then [] else [a[0]];
      Regroup(Without(a + b, ns), head, Without(a[1..] + b, ns), Without(a[1..], ns), Without(b, ns));
    } else {
      assert a + b == b;
    }
  }

  /** `x` is `h` followed by `p` and then `q`, however the three are grouped. */
  lemma Regroup<T>(x: seq<T>, h: seq<T>, w: seq<T>, p: seq<T>, q: seq<T>)
    requires x == h + w && w == p + q
    ensures x == (h + p) + q
  {
  }

  /** One unfolding of `Without` over a concatenation with a non-empty head. */
  lemma WithoutCons(a: seq<Cookie>, b: seq<Cookie>, ns: set<string>)
    requires a != []
    ensures var head := if a[0].name in ns then [] else [a[0]];
      Without(a + b, ns) == head + Without(a[1..] + b, ns) && Without(a, ns) == head + Without(a[1..], ns)
  {
    assert (a + b)[0] == a[0];
    assert (a + b)[1..] == a[1..] + b;
  }

  lemma {:induction false} WithoutWithout(cs: seq<Cookie>, ns1: set<string>, ns2: set<string>)
    ensures Without(Without(cs, ns1), ns2) == Without(cs, ns1 + ns2)
  {
    if cs != [] {
      WithoutWithout(cs[1..], ns1, ns2);
      var head := if cs[0].name in ns1 then [] else [cs[0]];
      WithoutAppend(head, Without(cs[1..], ns1), ns2);
    }
  }

  /** The cookies of `cs` named `n`, in order. */
  function Named(cs: seq<Cookie>, n: string): (r: seq<Cookie>)
    ensures forall c :: c in r <==> c in cs && c.name == n
  {
    if cs == [] then []
    else (if cs[0].name == n then [cs[0]] else []) + Named(cs[1..], n)
  }

  lemma {:induction false} NamedAppend(a: seq<Cookie>, b: seq<Cookie>, n: string)
    ensures Named(a + b, n) == Named(a, n) + Named(b, n)
  {
    if a != [] {
      assert (a + b)[0] == a[0];
      assert (a + b)[1..] == a[1..] + b;
      NamedAppend(a[1..], b, n);
    } else {
      assert a + b == b;
    }
  }

  lemma {:induction false} NamedAbsent(cs: seq<Cookie>, n: string)
    requires forall c :: c in cs ==> c.name != n
    ensures Named(cs, n) == []
  {
    if cs != [] {
      NamedAbsent(cs[1..], n);
    }
  }

  /** The last cookie of `cs` named `n`, if any. */
  function LastNamed(cs: seq<Cookie>, n: string): (r: Option<Cookie>)
    ensures r.Some? ==> r.value in cs && r.value.name == n
    ensures r.None? <==> n !in Names(cs)
  {
    if cs == [] then None
    else
      var later := LastNamed(cs[1..], n);
      if later.Some? then later
      else if cs[0].name == n then Some(cs[0])
      else None
  }


  // ---------------------------------------------------------------------------
  // saveFromResponse

  /** The loop of `saveFromResponse` over the incoming cookies: each one
      first removes every stored cookie with its name, then is appended when
      it has not expired. */
  function Merge(existing: seq<Cookie>, incoming: seq<Cookie>, now: int): seq<Cookie>
    decreases |incoming|
  {
    if incoming == [] then existing
    else
      var c := incoming[0];
      Merge(Without(existing, {c.name}) + (if IsExpired(c, now) then [] else [c]), incoming[1..], now)
  }

  /** The incoming cookies that end up stored: unexpired, and not followed by
      another incoming cookie with the same name. */
  function Survivors(incoming: seq<Cookie>, now: int): (r: seq<Cookie>)
    ensures forall c :: c in r ==> c in incoming && !IsExpired(c, now)
  {
    if incoming == [] then []
    else
      var c := incoming[0];
      (if !IsExpired(c, now) && c.name !in Names(incoming[1..]) then [c] else [])
      + Survivors(incoming[1..], now)
  }

  /** The merged list is the stored cookies with none of the incoming names,
      in their original order, followed by the surviving incoming cookies. */
  lemma {:induction false} MergeSplits(existing: seq<Cookie>, incoming: seq<Cookie>, now: int)
    ensures Merge(existing, incoming, now) == Without(existing, Names(incoming)) + Survivors(incoming, now)
    decreases |incoming|
  {
    if incoming != [] {
      var c, rest := incoming[0], incoming[1..];
      var added := if IsExpired(c, now) then [] else [c];
      var kept := if !IsExpired(c, now) && c.name !in Names(rest) then [c] else [];
      var w := Without(existing, {c.name});
      MergeStep(existing, incoming, now);
      MergeSplits(w + added, rest, now);
      WithoutAppend(w, added, Names(rest));
      WithoutWithout(existing, {c.name}, Names(rest));
      NamesCons(incoming);
      WithoutSingle(c, now, Names(rest));
      SurvivorsStep(incoming, now);
      Reassociate(Merge(existing, incoming, now), Without(existing, Names(incoming)), kept, Survivors(rest, now));
    } else {
      assert Names(incoming) == {};
      WithoutNothing(existing);
    }
  }

  /** An incoming cookie, once added, survives the later names exactly when
      it is unexpired and none of them is its own. */
  lemma WithoutSingle(c: Cookie, now: int, ns: set<string>)
    ensures Without(if IsExpired(c, now) then [] else [c], ns)
      == (if !IsExpired(c, now) && c.name !in ns then [c] else [])
  {
  }

  lemma Reassociate<T>(x: seq<T>, a: seq<T>, b: seq<T>, c: seq<T>)
    requires x == (a + b) + c
    ensures x == a + (b + c)
  {
  }

  /** One unfolding of `Merge`. */
  lemma MergeStep(existing: seq<Cookie>, incoming: seq<Cookie>, now: int)
    requires incoming != []
    ensures var c := incoming[0];
      Merge(existing, incoming, now)
        == Merge(Without(existing, {c.name}) + (if IsExpired(c, now) then [] else [c]), incoming[1..], now)
  {
  }

  /** One unfolding of `Survivors`. */
  lemma SurvivorsStep(incoming: seq<Cookie>, now: int)
    requires incoming != []
    ensures var c := incoming[0];
      Survivors(incoming, now)
        == (if !IsExpired(c, now) && c.name !in Names(incoming[1..]) then [c] else []) + Survivors(incoming[1..], now)
  {
  }

  /** The names of a non-empty list: its head's and its tail's. */
  lemma NamesCons(cs: seq<Cookie>)
    requires cs != []
    ensures Names(cs) == {cs[0].name} + Names(cs[1..])
  {
    assert cs == [cs[0]] + cs[1..];
  }

  lemma {:induction false} WithoutNothing(cs: seq<Cookie>)
    ensures Without(cs, {}) == cs
  {
    if cs != [] {
      WithoutNothing(cs[1..]);
      assert cs == [cs[0]] + cs[1..];
    }
  }

  /** Among the survivors, the cookies named `n` are the last incoming one
      with that name, when it has not expired, and nothing else. */
  lemma {:induction false} SurvivorsNamed(incoming: seq<Cookie>, now: int, n: string)
    ensures var last := LastNamed(incoming, n);
      Named(Survivors(incoming, now), n)
        == (if last.Some? && !IsExpired(last.value, now) then [last.value] else [])
  {
    if incoming != [] {
      var c, rest := incoming[0], incoming[1..];
      assert incoming == [c] + rest;
      var kept := if !IsExpired(c, now) && c.name !in Names(rest) then [c] else [];
      NamedAppend(kept, Survivors(rest, now), n);
      SurvivorsNamed(rest, now, n);
      if c.name == n && n !in Names(rest) {
        assert LastNamed(rest, n).None?;
      }
    }
  }

  /** After the loop, each incoming name is held by at most one cookie: the
      last incoming cookie with that name when it is unexpired, none when it
      has expired (an expired cookie deletes). */
  lemma MergeLastWins(existing: seq<Cookie>, incoming: seq<Cookie>, now: int, n: string)
    requires n in Names(incoming)
    ensures var last := LastNamed(incoming, n).value;
      Named(Merge(existing, incoming, now), n)
        == (if IsExpired(last, now) then [] else [last])
  {
    MergeSplits(existing, incoming, now);
    NamedAppend(Without(existing, Names(incoming)), Survivors(incoming, now), n);
    NamedAbsent(Without(existing, Names(incoming)), n);
    SurvivorsNamed(incoming, now, n);
  }

  /** Stored cookies whose names are not in the batch survive the loop, in
      their original relative order, and nothing else carries those names. */
  lemma MergeKeepsOthers(existing: seq<Cookie>, incoming: seq<Cookie>, now: int)
    ensures Without(Merge(existing, incoming, now), Names(incoming)) == Without(existing, Names(incoming))
  {
    var ns := Names(incoming);
    MergeSplits(existing, incoming, now);
    WithoutAppend(Without(existing, ns), Survivors(incoming, now), ns);
    WithoutWithout(existing, ns, ns);
    assert ns + ns == ns;
    WithoutNone(Survivors(incoming, now), ns);
  }

  lemma {:induction false} WithoutNone(cs: seq<Cookie>, ns: set<string>)
    requires forall c :: c in cs ==> c.name in ns
    ensures Without(cs, ns) == []
  {
    if cs != [] {
      WithoutNone(cs[1..], ns);
    }
  }

  /** `saveFromResponse(url, cookies)` for a request to `host`. */
  function SaveFromResponse(jar: Jar, host: string, cookies: seq<Cookie>, now: int): (r: Jar)
    ensures var merged := Merge(Get(jar.store, host), cookies, now);
      && (host in r.store <==> merged != [])
      && (host in r.prefs <==> merged != [])
      && (merged != [] ==> r.store[host] == merged && r.prefs[host] == merged)
    ensures SameElsewhere(jar.store, r.store, host) && SameElsewhere(jar.prefs, r.prefs, host)
  {
    var merged := Merge(Get(jar.store, host), cookies, now);
    if merged != [] then Jar(jar.store[host := merged], jar.prefs[host := merged])
    else Jar(jar.store - {host}, jar.prefs - {host})
  }

  // ---------------------------------------------------------------------------
  // loadForRequest

  datatype Loaded = Loaded(jar: Jar, cookies: seq<Cookie>)

  /** `loadForRequest(url)` for a request to `host`. */
  function LoadForRequest(jar: Jar, host: string, now: int): (r: Loaded)
    ensures forall c :: c in r.cookies <==> c in Get(jar.store, host) && !IsExpired(c, now)
    ensures (forall c :: c in Get(jar.store, host) ==> !IsExpired(c, now)) ==> r.jar == jar
    ensures (exists c :: c in Get(jar.store, host) && IsExpired(c, now)) ==>
      && r.jar.store == jar.store[host := r.cookies]
      && r.jar.prefs == jar.prefs[host := r.cookies]
    ensures SameElsewhere(jar.store, r.jar.store, host) && SameElsewhere(jar.prefs, r.jar.prefs, host)
  {
    var cookies := Get(jar.store, host);
    var valid := Unexpired(cookies, now);
    UnexpiredKeepsAll(cookies, now);
    if |valid| < |cookies| then Loaded(Jar(jar.store[host := valid], jar.prefs[host := valid]), valid)
    else Loaded(jar, valid)
  }

  /** A host whose cookies have all expired is left holding an empty list,
      not removed. */
  lemma LoadKeepsEmptyHost(jar: Jar, host: string, now: int)
    requires host in jar.store && jar.store[host] != []
    requires forall c :: c in jar.store[host] ==> IsExpired(c, now)
    ensures var r := LoadForRequest(jar, host, now);
      r.cookies == [] && host in r.jar.store && r.jar.store[host] == []
  {
    UnexpiredNone(jar.store[host], now);
  }

  lemma {:induction false} UnexpiredNone(cs: seq<Cookie>, now: int)
    requires forall c :: c in cs ==> IsExpired(c, now)
    ensures Unexpired(cs, now) == []
  {
    if cs != [] {
      UnexpiredNone(cs[1..], now);
    }
  }

  // ---------------------------------------------------------------------------
  // Startup

  /** The constructor: load every persisted host, keep its unexpired cookies
      in memory, and delete the persisted hosts left with none. A host that
      keeps some cookie keeps its persisted list as it was. */
  function Init(prefs: map<string, seq<Cookie>>, now: int): (r: Jar)
    ensures forall h :: h in r.store <==> h in prefs && Unexpired(prefs[h], now) != []
    ensures forall h :: h in r.store ==> r.store[h] == Unexpired(prefs[h], now)
    ensures forall h :: h in r.prefs <==> h in r.store
    ensures forall h :: h in r.prefs ==> r.prefs[h] == prefs[h]
  {
    var kept := set h | h in prefs && Unexpired(prefs[h], now) != [];
    Jar(map h | h in kept :: Unexpired(prefs[h], now), map h | h in kept :: prefs[h])
  }

  // ---------------------------------------------------------------------------
  // Persistence invariant

  /** From time `t0` on, filtering what memory holds and filtering what the
      preferences hold give the same cookies for every host: a restart would
      see what the running jar sees. */
  ghost predicate Agrees(jar: Jar, t0: int) {
    forall h, t :: t0 <= t ==> Unexpired(Get(jar.store, h), t) == Unexpired(Get(jar.prefs, h), t)
  }

  lemma InitAgrees(prefs: map<string, seq<Cookie>>, now: int)
    ensures Agrees(Init(prefs, now), now)
  {
    var jar := Init(prefs, now);
    forall h, t | now <= t
      ensures Unexpired(Get(jar.store, h), t) == Unexpired(Get(jar.prefs, h), t)
    {
      if h in prefs {
        UnexpiredLater(prefs[h], now, t);
      }
    }
  }

  lemma SaveAgrees(jar: Jar, t0: int, host: string, cookies: seq<Cookie>, now: int)
    requires Agrees(jar, t0)
    ensures Agrees(SaveFromResponse(jar, host, cookies, now), t0)
  {
    var r := SaveFromResponse(jar, host, cookies, now);
    forall h, t | t0 <= t
      ensures Unexpired(Get(r.store, h), t) == Unexpired(Get(r.prefs, h), t)
    {
      if h != host {
        assert Get(r.store, h) == Get(jar.store, h) && Get(r.prefs, h) == Get(jar.prefs, h);
      }
    }
  }

  lemma LoadAgrees(jar: Jar, t0: int, host: string, now: int)
    requires Agrees(jar, t0)
    ensures Agrees(LoadForRequest(jar, host, now).jar, t0)
  {
    var r := LoadForRequest(jar, host, now).jar;
    forall h, t | t0 <= t
      ensures Unexpired(Get(r.store, h), t) == Unexpired(Get(r.prefs, h), t)
    {
      if h != host {
        assert Get(r.store, h) == Get(jar.store, h) && Get(r.prefs, h) == Get(jar.prefs, h);
      }
    }
  }

  /** While the jar agrees with its preferences, a restart at time `now`
      followed by a load returns what the running jar's load returns. */
  lemma RestartLoadsSame(jar: Jar, t0: int, host: string, now: int)
    requires Agrees(jar, t0) && t0 <= now
    ensures LoadForRequest(Init(jar.prefs, now), host, now).cookies == LoadForRequest(jar, host, now).cookies
  {
    var restarted := Init(jar.prefs, now);
    LoadReturnsUnexpired(restarted, host, now);
    LoadReturnsUnexpired(jar, host, now);
    InitHolds(jar.prefs, host, now);
    UnexpiredLater(Get(jar.prefs, host), now, now);
    assert Unexpired(Get(jar.store, host), now) == Unexpired(Get(jar.prefs, host), now);
  }

  /** A load returns the host's unexpired cookies. */
  lemma LoadReturnsUnexpired(jar: Jar, host: string, now: int)
    ensures LoadForRequest(jar, host, now).cookies == Unexpired(Get(jar.store, host), now)
  {
  }

  /** After a restart, memory holds each host's unexpired persisted cookies. */
  lemma InitHolds(prefs: map<string, seq<Cookie>>, host: string, now: int)
    ensures Get(Init(prefs, now).store, host) == Unexpired(Get(prefs, host), now)
  {
  }
}

=== FILE: favorites_view_model.dfy ===
/** `ui/viewmodel/FavoritesViewModel.kt`: the user's favourite artists and
    the set of their ids that every star in the app reads. Adding and
    removing update the set optimistically before the server answers and
    roll the change back when the server refuses it. Each operation is run
    as one step; the server's answer is an input. */
module FavoritesViewModel {
  import opened Models

  datatype FavoritesState = FavoritesState(
    favorites: seq<Favorite>,
    favoriteIds: set<string>,
    isLoading: bool,
    error: Option<string>)

  /** The state flows' initial values. */
  const Initial: FavoritesState := FavoritesState([], {}, false, None)

  /** `favorites.map { it.artistId }.toSet()`. */
  function IdsOf(fs: seq<Favorite>): set<string>
    decreases |fs|
  {
    if fs == [] then {} else {fs[0].artistId} + IdsOf(fs[1..])
  }

  /** An id is in the set exactly when some favourite of the list has it. */
  lemma {:induction false} IdsOfSpec(fs: seq<Favorite>, id: string)
    ensures id in IdsOf(fs) <==> exists i :: 0 <= i < |fs| && fs[i].artistId == id
    decreases |fs|
  {
    if fs != [] {
      IdsOfSpec(fs[1..], id);
      if id in IdsOf(fs[1..]) {
        var i :| 0 <= i < |fs[1..]| && fs[1..][i].artistId == id;
        assert fs[i + 1].artistId == id;
      }
      if exists i :: 0 <= i < |fs| && fs[i].artistId == id {
        var i :| 0 <= i < |fs| && fs[i].artistId == id;
        if i > 0 {
          assert fs[1..][i - 1].artistId == id;
        }
      }
    }
  }

  /** `getFavorites`: on success the list and exactly its ids; on failure
      neither, and the error. */
  function GetFavorites(st: FavoritesState, result: Resource<seq<Favorite>>): (r: FavoritesState)
    ensures !r.isLoading
    ensures result.Success? ==> r.favorites == result.data && r.error.None?
    ensures result.Success? ==> r.favoriteIds == IdsOf(result.data)
    ensures result.Error? ==> r.favorites == [] && r.favoriteIds == {} && r.error == result.message
  {
    match result
    case Success(fs) => FavoritesState(fs, IdsOf(fs), false, None)
    case Error(msg, _) => FavoritesState([], {}, false, msg)
  }

  /** On success the id set is exactly the ids of the favourites shown. */
  lemma GetFavoritesIds(st: FavoritesState, fs: seq<Favorite>, id: string)
    ensures var r := GetFavorites(st, Success(fs));
      id in r.favoriteIds <==> exists i :: 0 <= i < |r.favorites| && r.favorites[i].artistId == id
  {
    IdsOfSpec(fs, id);
  }

  /** `addFavorite` up to its call: loading, no error, the id added. */
  function BeginAdd(st: FavoritesState, artistId: string): (r: FavoritesState)
    ensures r.isLoading && r.error.None? && r.favorites == st.favorites
    ensures r.favoriteIds == st.favoriteIds + {artistId}
  {
    st.(isLoading := true, error := None, favoriteIds := st.favoriteIds + {artistId})
  }

  /** `removeFavorite` up to its call: the id removed, loading, no error. */
  function BeginRemove(st: FavoritesState, artistId: string): (r: FavoritesState)
    ensures r.isLoading && r.error.None? && r.favorites == st.favorites
    ensures r.favoriteIds == st.favoriteIds - {artistId}
  {
    st.(favoriteIds := st.favoriteIds - {artistId}, isLoading := true, error := None)
  }

  /** The end of `addFavorite` (`undoByAdding` false) or of `removeFavorite`
      (`undoByAdding` true): on success nothing but the loading flag changes
      (the status check it launches is `ConfirmSingleArtistStatus`); on
      failure the error is shown and the id is removed again, or added back. */
  function FinishToggle(st: FavoritesState, artistId: string, undoByAdding: bool, result: Resource<bool>): (r: FavoritesState)
    ensures !r.isLoading && r.favorites == st.favorites
    ensures result.Success? ==> r == st.(isLoading := false)
    ensures result.Error? && undoByAdding ==> r.favoriteIds == st.favoriteIds + {artistId}
    ensures result.Error? && !undoByAdding ==> r.favoriteIds == st.favoriteIds - {artistId}
    ensures result.Error? ==> r.error == result.message
  {
    match result
    case Success(_) => st.(isLoading := false)
    case Error(msg, _) =>
      var ids := if undoByAdding then st.favoriteIds + {artistId} else st.favoriteIds - {artistId};
      st.(error := msg, favoriteIds := ids, isLoading := false)
  }

  function AddFavorite(st: FavoritesState, artistId: string, result: Resource<bool>): FavoritesState {
    FinishToggle(BeginAdd(st, artistId), artistId, false, result)
  }

  function RemoveFavorite(st: FavoritesState, artistId: string, result: Resource<bool>): FavoritesState {
    FinishToggle(BeginRemove(st, artistId), artistId, true, result)
  }

  /** `confirmSingleArtistStatus`: the server's answer decides the id's
      membership and nothing else; a failed check only records the error. */
  function ConfirmSingleArtistStatus(st: FavoritesState, artistId: string, result: Resource<bool>): (r: FavoritesState)
    ensures r.favorites == st.favorites && r.isLoading == st.isLoading
    ensures result.Success? ==> (artistId in r.favoriteIds <==> result.data)
    ensures result.Success? ==> forall id :: id != artistId ==> (id in r.favoriteIds <==> id in st.favoriteIds)
    ensures result.Success? ==> r.error == st.error
    ensures result.Error? ==> r.favoriteIds == st.favoriteIds && r.error == result.message
  {
    match result
    case Success(isFavorite) =>
      st.(favoriteIds := if isFavorite then st.favoriteIds + {artistId} else st.favoriteIds - {artistId})
    case Error(msg, _) => st.(error := msg)
  }

  /** An accepted add leaves the id in the set and clears the error; a
      refused one leaves it out, even when it was in the set before, and
      shows the error. Either way loading ends. */
  lemma AddOutcome(st: FavoritesState, artistId: string, result: Resource<bool>)
    ensures var r := AddFavorite(st, artistId, result);
      && !r.isLoading
      && (result.Success? ==> r.favoriteIds == st.favoriteIds + {artistId} && r.error.None?)
      && (result.Error? ==> r.favoriteIds == st.favoriteIds - {artistId} && r.error == result.message)
  {
  }

  /** An accepted remove leaves the id out and clears the error; a refused
      one puts it back, even when it was not in the set before. */
  lemma RemoveOutcome(st: FavoritesState, artistId: string, result: Resource<bool>)
    ensures var r := RemoveFavorite(st, artistId, result);
      && !r.isLoading
      && (result.Success? ==> r.favoriteIds == st.favoriteIds - {artistId} && r.error.None?)
      && (result.Error? ==> r.favoriteIds == st.favoriteIds + {artistId} && r.error == result.message)
  {
  }

  /** The rollback restores the set exactly when the optimistic change was
      a real change: adding an id that was absent, removing one that was
      present. */
  lemma RollbackRestores(st: FavoritesState, artistId: string, msg: Option<string>, fields: Option<map<string, string>>)
    ensures AddFavorite(st, artistId, Error(msg, fields)).favoriteIds == st.favoriteIds <==> artistId !in st.favoriteIds
    ensures RemoveFavorite(st, artistId, Error(msg, fields)).favoriteIds == st.favoriteIds <==> artistId in st.favoriteIds
  {
    if artistId in st.favoriteIds {
      assert artistId !in AddFavorite(st, artistId, Error(msg, fields)).favoriteIds;
    } else {
      assert artistId in RemoveFavorite(st, artistId, Error(msg, fields)).favoriteIds;
    }
  }

  /** Adding then removing the same artist, both accepted, gives back the
      set without that id. */
  lemma AddThenRemove(st: FavoritesState, artistId: string)
    ensures RemoveFavorite(AddFavorite(st, artistId, Success(true)), artistId, Success(true)).favoriteIds
      == st.favoriteIds - {artistId}
  {
  }

  // ---------------------------------------------------------------------------
  // The star

  /** A press on an artist's star, on the detail page or on a search card:
      remove the artist when its id is in the set, add it otherwise. */
  function Toggle(st: FavoritesState, artistId: string, result: Resource<bool>): (r: FavoritesState)
    ensures !r.isLoading
    ensures result.Success? ==> (artistId in r.favoriteIds <==> artistId !in st.favoriteIds)
    ensures result.Success? ==> r.favoriteIds - {artistId} == st.favoriteIds - {artistId}
  {
    if artistId in st.favoriteIds then RemoveFavorite(st, artistId, result) else AddFavorite(st, artistId, result)
  }

  /** A refused press leaves the set exactly as it was: the star always
      makes a real change, so the rollback undoes it. */
  lemma ToggleRollback(st: FavoritesState, artistId: string, msg: Option<string>, fields: Option<map<string, string>>)
    ensures Toggle(st, artistId, Error(msg, fields)).favoriteIds == st.favoriteIds
  {
    RollbackRestores(st, artistId, msg, fields);
  }

  /** Two accepted presses give back the set. */
  lemma ToggleTwice(st: FavoritesState, artistId: string)
    ensures Toggle(Toggle(st, artistId, Success(true)), artistId, Success(true)).favoriteIds == st.favoriteIds
  {
  }
}

=== FILE: forms.dfy ===
/** The text fields of the register and login screens. Each field keeps its
    text, its error message and whether it has focus; the two screens share
    the e-mail field's behaviour and rules. The platform's e-mail pattern is
    a parameter (`pattern`). */
module Forms {
  import opened Models
  import opened Utils

  datatype Field = Field(value: string, error: Option<string>, focused: bool)

  /** An empty, unfocused field without error: what `remember` starts with. */
  const Blank: Field := Field("", None, false)

  const EmailEmpty: string := "Email cannot be empty"
  const EmailInvalid: string := "Invalid email format"

  /** `validateEmailEmpty`, run when the e-mail field loses focus. */
  function EmailEmptyError(email: string): (e: Option<string>)
    ensures e.Some? <==> email == ""
    ensures e.Some? ==> e.value == EmailEmpty
  {
    if email == "" then Some(EmailEmpty) else None
  }

  /** `validateEmailFormat`, run on submit: emptiness first, then the pattern. */
  function EmailFormatError(pattern: string -> bool, email: string): (e: Option<string>)
    ensures e.None? <==> IsValidEmail(pattern, email)
    ensures email == "" ==> e == Some(EmailEmpty)
    ensures email != "" && e.Some? ==> e == Some(EmailInvalid)
  {
    if email == "" then Some(EmailEmpty)
    else if !IsValidEmail(pattern, email) then Some(EmailInvalid)
    else None
  }

  /** Typing into the e-mail field: the text changes and any error goes. */
  function EditClearing(f: Field, v: string): (r: Field)
    ensures r.value == v && r.error.None? && r.focused == f.focused
  {
    f.(value := v, error := None)
  }

  /** Typing into a field that revalidates as you type, but only while it
      has focus. */
  function EditRevalidating(f: Field, v: string, validate: string -> Option<string>): (r: Field)
    ensures r.value == v && r.focused == f.focused
    ensures f.focused ==> r.error == validate(v)
    ensures !f.focused ==> r.error == f.error
  {
    if f.focused then f.(value := v, error := validate(v)) else f.(value := v)
  }

  /** A focus change: the field validates when it loses focus, and only then. */
  function ChangeFocus(f: Field, focused: bool, validate: string -> Option<string>): (r: Field)
    ensures r.value == f.value && r.focused == focused
    ensures f.focused && !focused ==> r.error == validate(f.value)
    ensures !(f.focused && !focused) ==> r.error == f.error
  {
    if f.focused && !focused then f.(focused := focused, error := validate(f.value))
    else f.(focused := focused)
  }

  /** The emptiness message wins over the format message, whatever the
      pattern says about the empty string. */
  lemma EmailEmptyTakesPrecedence(pattern: string -> bool)
    ensures EmailFormatError(pattern, "") == Some(EmailEmpty)
  {
  }

  /** Leaving the e-mail field never complains about the format: a non-empty
      text passes, valid or not, and the submit check is the stricter one. */
  lemma FocusLossChecksOnlyEmptiness(pattern: string -> bool, f: Field)
    requires f.focused && f.value != ""
    ensures ChangeFocus(f, false, EmailEmptyError).error.None?
    ensures EmailFormatError(pattern, f.value).None? ==> EmailEmptyError(f.value).None?
  {
  }
}

=== FILE: login_screen.dfy ===
/** `ui/screens/LoginScreen.kt`: the login form. The e-mail field behaves as
    on the register screen; the password only has to be non-empty. */
module LoginScreen {
  import opened Text
  import opened Models
  import opened Utils
  import opened Forms
  import AuthViewModel
  import RegisterScreen

  datatype LoginForm = LoginForm(email: Field, password: Field)

  const Start: LoginForm := LoginForm(Blank, Blank)

  const PasswordEmpty: string := "Password cannot be empty"

  /** `validatePassword`: the only rule is that it is not empty; there is no
      minimum length at login. */
  function PasswordError(password: string): (e: Option<string>)
    ensures e.None? <==> password != ""
    ensures e.Some? ==> e.value == PasswordEmpty
  {
    if password == "" then Some(PasswordEmpty) else None
  }

  datatype Action = EditEmail(v: string) | FocusEmail(f: bool) | EditPassword(v: string) | FocusPassword(f: bool)

  function Step(form: LoginForm, a: Action): LoginForm {
    match a
    case EditEmail(v) => form.(email := EditClearing(form.email, v))
    case FocusEmail(f) => form.(email := ChangeFocus(form.email, f, EmailEmptyError))
    case EditPassword(v) => form.(password := EditRevalidating(form.password, v, PasswordError))
    case FocusPassword(f) => form.(password := ChangeFocus(form.password, f, PasswordError))
  }

  /** Typing clears the e-mail error; typing a password revalidates it only
      while the password field has focus. */
  lemma EditRules(form: LoginForm, v: string)
    ensures Step(form, EditEmail(v)).email.error.None?
    ensures form.password.focused ==> Step(form, EditPassword(v)).password.error == PasswordError(v)
    ensures !form.password.focused ==> Step(form, EditPassword(v)).password.error == form.password.error
  {
  }

  /** Leaving the e-mail field reports an empty e-mail and nothing else. */
  lemma FocusLossEmail(form: LoginForm)
    requires form.email.focused
    ensures Step(form, FocusEmail(false)).email.error.Some? <==> form.email.value == ""
  {
  }

  /** The click: both fields are fully validated and `login` is called when
      both are clear. */
  function Submit(pattern: string -> bool, form: LoginForm): (r: (LoginForm, bool))
    ensures r.0.email.error == EmailFormatError(pattern, form.email.value)
    ensures r.0.password.error == PasswordError(form.password.value)
    ensures r.1 <==> IsValidEmail(pattern, form.email.value) && form.password.value != ""
    ensures r.0.email == form.email.(error := r.0.email.error)
    ensures r.0.password == form.password.(error := r.0.password.error)
  {
    var checked := form.(
      email := form.email.(error := EmailFormatError(pattern, form.email.value)),
      password := form.password.(error := PasswordError(form.password.value)));
    (checked, checked.email.error.None? && checked.password.error.None?)
  }

  /** The button is enabled when nothing is loading, both fields have text
      and neither shows an error. */
  predicate Enabled(form: LoginForm, isLoading: bool) {
    !isLoading && form.email.value != "" && form.password.value != "" && form.email.error.None? && form.password.error.None?
  }

  /** With the button enabled, the password is known to be there, so the
      click calls `login` exactly when the e-mail has a valid format. */
  lemma EnabledSubmit(pattern: string -> bool, form: LoginForm)
    requires Enabled(form, false)
    ensures Submit(pattern, form).1 <==> IsValidEmail(pattern, form.email.value)
    ensures Submit(pattern, form).0.password.error.None?
  {
  }

  /** Login has no minimum length: every non-empty password shorter than
      the 4 UTF-16 units registration demands still lets a valid e-mail log
      in, while the register screen would reject it as too short. */
  lemma NoMinimumLength(pattern: string -> bool, form: LoginForm)
    requires IsValidEmail(pattern, form.email.value)
    requires 0 < Utf16Length(form.password.value) < 4
    ensures Submit(pattern, form).1
    ensures RegisterScreen.PasswordError(form.password.value) == Some(RegisterScreen.PasswordShort)
  {
  }

  /** The message under the button: the view model's error, if any. Its
      message is never null, so the fallback "An error occurred" never shows. */
  function ErrorText(error: Option<AuthViewModel.ErrorState>): (t: Option<string>)
    ensures t.Some? <==> error.Some?
    ensures t.Some? ==> t.value == error.value.message
  {
    if error.Some? then Some(error.value.message) else None
  }
}

=== FILE: markdown.dfy ===
/** The segments a category description is split into, plain runs and
    `[text](url)` links, and how a segment list is written back as Markdown. */
module Markdown {

  datatype Segment = Plain(text: string) | Link(text: string, url: string)

  /** One match: the indices of "[", of the "]" before "(", and of ")". */
  datatype LinkMatch = LinkMatch(open: nat, close: nat, end: nat)

  /** The characters Java's `.` refuses without the DOTALL flag. */
  predicate IsLineTerminator(c: char) {
    c == '\n' || c == '\r' || c == '\U{0085}' || c == '\U{2028}' || c == '\U{2029}'
  }

  /** No line terminator anywhere in `t`. */
  predicate NoTerminator(t: string) {
    forall p :: 0 <= p < |t| ==> !IsLineTerminator(t[p])
  }

  /** The four delimiters of a link sit at the indices `m` records: "[" at
      `open`, "](" at `close`, ")" at `end`, in that order. */
  predicate Delimited(s: string, m: LinkMatch) {
    && m.open < m.close && m.close + 2 <= m.end < |s|
    && s[m.open] == '[' && s[m.close] == ']' && s[m.close + 1] == '(' && s[m.end] == ')'
  }

  /** The plain run between `from` and a match at `open`, if not empty. */
  function Before(s: string, from: nat, open: nat): seq<Segment>
    requires from <= open <= |s|
  {
    if open > from then [Plain(s[from..open])] else []
  }

  /** The link a match stands for: the first group as text, the second as URL. */
  function LinkOf(s: string, m: LinkMatch): Segment
    requires m.open < m.close && m.close + 2 <= m.end <= |s|
  {
    Link(s[m.open + 1..m.close], s[m.close + 2..m.end])
  }

  // ---------------------------------------------------------------------------
  // Writing segments back

  /** The Markdown source of one segment. */
  function SegmentMarkup(g: Segment): string {
    match g
    case Plain(t) => t
    case Link(t, u) => "[" + t + "](" + u + ")"
  }

  /** The Markdown source of a segment list. */
  function Markup(gs: seq<Segment>): string {
    if gs == [] then "" else SegmentMarkup(gs[0]) + Markup(gs[1..])
  }

  lemma {:induction false} MarkupAppend(a: seq<Segment>, b: seq<Segment>)
    ensures Markup(a + b) == Markup(a) + Markup(b)
  {
    if a == [] {
      assert a + b == b;
    } else {
      assert (a + b)[0] == a[0];
      assert (a + b)[1..] == a[1..] + b;
      MarkupAppend(a[1..], b);
    }
  }

  lemma MarkupCons(g: Segment, rest: seq<Segment>)
    ensures Markup([g] + rest) == SegmentMarkup(g) + Markup(rest)
  {
    assert ([g] + rest)[0] == g;
    assert ([g] + rest)[1..] == rest;
  }

  lemma MarkupThree(pre: seq<Segment>, g: Segment, rest: seq<Segment>)
    ensures Markup(pre + [g] + rest) == Markup(pre) + SegmentMarkup(g) + Markup(rest)
  {
    assert pre + [g] + rest == pre + ([g] + rest);
    MarkupAppend(pre, [g] + rest);
    MarkupCons(g, rest);
  }

  /** A list made of a prefix, one segment and a suffix writes back as the
      three pieces written back one after the other. */
  lemma MarkupJoin(gs: seq<Segment>, pre: seq<Segment>, g: Segment, rest: seq<Segment>, x: string, y: string, z: string, whole: string)
    requires gs == pre + [g] + rest
    requires Markup(pre) == x && SegmentMarkup(g) == y && Markup(rest) == z
    requires whole == x + y + z
    ensures Markup(gs) == whole
  {
    MarkupThree(pre, g, rest);
    EqualViaThird(Markup(gs), whole, x + y + z);
  }

  lemma EqualViaThird<T>(a: seq<T>, b: seq<T>, c: seq<T>)
    requires a == c && b == c
    ensures a == b
  {
  }

  lemma MarkupSingle(t: string)
    ensures Markup([Plain(t)]) == t
  {
    MarkupCons(Plain(t), []);
    assert [Plain(t)] + [] == [Plain(t)];
  }

  /** The plain run before a match writes back as the text it was cut from. */
  lemma MarkupBefore(s: string, from: nat, open: nat)
    requires from <= open <= |s|
    ensures Markup(Before(s, from, open)) == s[from..open]
  {
    if open > from {
      MarkupSingle(s[from..open]);
    }
  }

  /** A link written back is exactly the text of the match it was cut from. */
  lemma LinkMarkup(s: string, m: LinkMatch)
    requires Delimited(s, m)
    ensures SegmentMarkup(LinkOf(s, m)) == s[m.open..m.end + 1]
  {
    LinkSlices(s, m.open, m.close, m.end);
    LinkAssoc(s[m.open + 1..m.close], s[m.close + 2..m.end]);
  }

  /** The plain run before a match, the match's link and segments that
      write back as the text after the match, write back as the text from
      `from` on. */
  lemma RoundTripStep(s: string, from: nat, m: LinkMatch, gs: seq<Segment>, rest: seq<Segment>)
    requires from <= m.open && Delimited(s, m)
    requires gs == Before(s, from, m.open) + [LinkOf(s, m)] + rest
    requires Markup(rest) == s[m.end + 1..]
    ensures Markup(gs) == s[from..]
  {
    MarkupBefore(s, from, m.open);
    LinkMarkup(s, m);
    SliceThree(s, from, m.open, m.end + 1);
    MarkupJoin(gs, Before(s, from, m.open), LinkOf(s, m), rest,
      s[from..m.open], s[m.open..m.end + 1], s[m.end + 1..], s[from..]);
  }

  /** A match's text cut at its four delimiters. */
  lemma LinkSlices<T>(s: seq<T>, open: nat, close: nat, end: nat)
    requires open < close && close + 2 <= end < |s|
    ensures s[open..end + 1]
      == [s[open]] + (s[open + 1..close] + ([s[close]] + ([s[close + 1]] + (s[close + 2..end] + [s[end]]))))
  {
    var e1 := s[close + 2..end] + [s[end]];
    assert s[close + 2..end + 1] == e1 by { SliceSnoc(s, close + 2, end + 1); }
    var e2 := [s[close + 1]] + e1;
    assert s[close + 1..end + 1] == e2 by { SliceCons(s, close + 1, end + 1); }
    var e3 := [s[close]] + e2;
    assert s[close..end + 1] == e3 by { SliceCons(s, close, end + 1); }
    var e4 := s[open + 1..close] + e3;
    assert s[open + 1..end + 1] == e4 by { SliceCat(s, open + 1, close, end + 1); }
    assert s[open..end + 1] == [s[open]] + e4 by { SliceCons(s, open, end + 1); }
  }

  lemma LinkAssoc(t: string, u: string)
    ensures "[" + t + "](" + u + ")" == ['['] + (t + ([']'] + (['('] + (u + [')']))))
  {
    assert "](" == [']'] + ['('];
  }

  lemma SliceCons<T>(s: seq<T>, a: nat, b: nat)
    requires a < b <= |s|
    ensures s[a..b] == [s[a]] + s[a + 1..b]
  {
  }

  lemma SliceSnoc<T>(s: seq<T>, a: nat, b: nat)
    requires a < b <= |s|
    ensures s[a..b] == s[a..b - 1] + [s[b - 1]]
  {
  }

  lemma SliceCat<T>(s: seq<T>, a: nat, b: nat, c: nat)
    requires a <= b <= c <= |s|
    ensures s[a..c] == s[a..b] + s[b..c]
  {
  }

  lemma SliceThree(s: string, a: nat, b: nat, c: nat)
    requires a <= b <= c <= |s|
    ensures s[a..] == s[a..b] + s[b..c] + s[c..]
  {
  }

  // ---------------------------------------------------------------------------
  // Shape of a segment list

  /** No empty plain run, no two plain runs side by side, and every link as
      the lazy groups allow: no line terminator in its text, neither a line
      terminator nor ")" in its URL. */
  predicate WellFormed(gs: seq<Segment>) {
    && (forall i :: 0 <= i < |gs| && gs[i].Plain? ==> gs[i].text != "")
    && (forall i :: 0 <= i < |gs| - 1 && gs[i].Plain? ==> gs[i + 1].Link?)
    && (forall i :: 0 <= i < |gs| && gs[i].Link? ==> NoTerminator(gs[i].text) && NoTerminator(gs[i].url))
    && (forall i :: 0 <= i < |gs| && gs[i].Link? ==> ')' !in gs[i].url)
  }

  /** Prefixing a well-formed list with a link, and optionally a non-empty
      plain run before it, keeps it well formed. */
  lemma WellFormedStep(gs: seq<Segment>, pre: seq<Segment>, link: Segment, rest: seq<Segment>)
    requires gs == pre + [link] + rest
    requires pre == [] || (|pre| == 1 && pre[0].Plain? && pre[0].text != "")
    requires link.Link? && NoTerminator(link.text) && NoTerminator(link.url) && ')' !in link.url
    requires WellFormed(rest)
    ensures WellFormed(gs)
  {
    forall i | 0 <= i < |gs|
      ensures i < |pre| ==> gs[i] == pre[i]
      ensures i == |pre| ==> gs[i] == link
      ensures i > |pre| ==> gs[i] == rest[i - |pre| - 1]
    {
    }
  }

  // ---------------------------------------------------------------------------
  // What the reader sees

  /** The text shown on screen: every segment's text in order, a link showing
      its text without brackets or URL. */
  function Visible(gs: seq<Segment>): string {
    if gs == [] then "" else gs[0].text + Visible(gs[1..])
  }

  /** The number of characters the links hide: "[", "](", ")" and the URL. */
  function Hidden(gs: seq<Segment>): nat {
    if gs == [] then 0 else (if gs[0].Link? then 4 + |gs[0].url| else 0) + Hidden(gs[1..])
  }

  /** The shown text and the hidden characters together are the source. */
  lemma {:induction false} VisibleLength(gs: seq<Segment>)
    ensures |Visible(gs)| + Hidden(gs) == |Markup(gs)|
  {
    if gs != [] {
      VisibleLength(gs[1..]);
    }
  }

  /** Nothing is hidden exactly when there is no link. */
  lemma {:induction false} HiddenZero(gs: seq<Segment>)
    ensures Hidden(gs) == 0 <==> forall i :: 0 <= i < |gs| ==> gs[i].Plain?
  {
    if gs != [] {
      HiddenZero(gs[1..]);
      if forall i :: 0 <= i < |gs[1..]| ==> gs[1..][i].Plain? {
        if gs[0].Plain? {
          forall i | 0 <= i < |gs|
            ensures gs[i].Plain?
          {
            if i > 0 {
              assert gs[i] == gs[1..][i - 1];
            }
          }
        }
      } else {
        var i :| 0 <= i < |gs[1..]| && !gs[1..][i].Plain?;
        assert !gs[i + 1].Plain?;
      }
    }
  }

  /** Without links the shown text is the source itself. */
  lemma {:induction false} VisiblePlain(gs: seq<Segment>)
    requires forall i :: 0 <= i < |gs| ==> gs[i].Plain?
    ensures Visible(gs) == Markup(gs)
  {
    if gs != [] {
      assert forall i :: 0 <= i < |gs[1..]| ==> gs[1..][i] == gs[i + 1];
      VisiblePlain(gs[1..]);
    }
  }
}

=== FILE: markdown_links.dfy ===
/** `ui/components/MarkdownLinkText.kt`: the text of a category description
    split into plain runs and `[text](url)` links, as the regex
    `\[(.*?)\]\((.*?)\)` finds them left to right. Java's `.` matches any
    character except a line terminator, and both groups are lazy.

    The scanning functions promise only where the delimiters are; what the
    regex means (the groups, laziness, leftmost-first) is stated by the
    `...Spec` lemmas beside them. */
module MarkdownLinks {
  import opened Models
  import opened Markdown

  /** `s[a..b]` holds no line terminator: what `(.*?)` may match. */
  predicate TextRun(s: string, a: int, b: int)
    requires 0 <= a <= b <= |s|
  {
    forall p :: a <= p < b ==> !IsLineTerminator(s[p])
  }

  /** `s[a..b]` holds neither a line terminator nor ")": what the lazy URL
      group matches before the ")" that ends the link. */
  predicate UrlRun(s: string, a: int, b: int)
    requires 0 <= a <= b <= |s|
  {
    forall p :: a <= p < b ==> s[p] != ')' && !IsLineTerminator(s[p])
  }

  /** The pattern matches `s[open..end + 1]` with "](" at `close`: "[" at
      `open`, ")" at `end`, and the two groups in between. */
  predicate IsMatch(s: string, open: int, close: int, end: int) {
    && 0 <= open < close
    && close + 2 <= end < |s|
    && s[open] == '[' && s[close] == ']' && s[close + 1] == '(' && s[end] == ')'
    && TextRun(s, open + 1, close)
    && UrlRun(s, close + 2, end)
  }

  /** `m` is the match the lazy pattern picks at `m.open`: no shorter first
      group lets the pattern succeed. */
  ghost predicate IsLazyMatch(s: string, m: LinkMatch) {
    && IsMatch(s, m.open, m.close, m.end)
    && forall c, e :: m.open < c < m.close ==> !IsMatch(s, m.open, c, e)
  }

  // ---------------------------------------------------------------------------
  // The regex engine, one group at a time

  /** The lazy URL group: the first ")" at or after `k`, given up at a line
      terminator. */
  function CloseParen(s: string, k: nat): (r: Option<nat>)
    requires k <= |s|
    ensures r.Some? ==> k <= r.value < |s| && s[r.value] == ')'
    decreases |s| - k
  {
    if k == |s| then None
    else if s[k] == ')' then Some(k)
    else if IsLineTerminator(s[k]) then None
    else CloseParen(s, k + 1)
  }

  /** The ")" found ends a URL run, and when none is found no ")" after `k`
      ends one. */
  lemma {:induction false} CloseParenSpec(s: string, k: nat)
    requires k <= |s|
    ensures CloseParen(s, k).Some? ==> UrlRun(s, k, CloseParen(s, k).value)
    ensures CloseParen(s, k).None? ==> forall m :: k <= m < |s| && s[m] == ')' ==> !UrlRun(s, k, m)
    decreases |s| - k
  {
    if k < |s| && s[k] != ')' && !IsLineTerminator(s[k]) {
      CloseParenSpec(s, k + 1);
    }
  }

  /** The lazy text group: the smallest `close >= j` at which "](" follows
      and the URL group succeeds, given up at a line terminator. */
  function CloseBracket(s: string, open: nat, j: nat): (r: Option<LinkMatch>)
    requires open < j <= |s| && s[open] == '['
    ensures r.Some? ==> r.value.open == open && j <= r.value.close && Delimited(s, r.value)
    decreases |s| - j
  {
    if j + 1 >= |s| then None
    else if s[j] == ']' && s[j + 1] == '(' && CloseParen(s, j + 2).Some? then
      Some(LinkMatch(open, j, CloseParen(s, j + 2).value))
    else if IsLineTerminator(s[j]) then None
    else CloseBracket(s, open, j + 1)
  }

  /** Given a text run up to `j`, the match found is a match, no smaller
      `close >= j` gives one, and when none is found there is none. */
  lemma {:induction false} CloseBracketSpec(s: string, open: nat, j: nat)
    requires open < j <= |s| && s[open] == '['
    requires TextRun(s, open + 1, j)
    ensures var r := CloseBracket(s, open, j);
      && (r.Some? ==> IsMatch(s, open, r.value.close, r.value.end))
      && (r.Some? ==> forall c, e :: j <= c < r.value.close ==> !IsMatch(s, open, c, e))
      && (r.None? ==> forall c, e :: j <= c ==> !IsMatch(s, open, c, e))
    decreases |s| - j
  {
    if j + 1 < |s| {
      CloseParenSpec(s, j + 2);
      if !(s[j] == ']' && s[j + 1] == '(' && CloseParen(s, j + 2).Some?) && !IsLineTerminator(s[j]) {
        CloseBracketSpec(s, open, j + 1);
      }
    }
  }

  /** The match the pattern finds when tried at index `i`, if any. */
  function MatchAt(s: string, i: nat): (r: Option<LinkMatch>)
    requires i <= |s|
    ensures r.Some? ==> r.value.open == i && Delimited(s, r.value)
  {
    if i < |s| && s[i] == '[' then CloseBracket(s, i, i + 1) else None
  }

  /** Trying the pattern at `i` finds the lazy match there, or there is no
      match starting at `i`. */
  lemma MatchAtSpec(s: string, i: nat)
    requires i <= |s|
    ensures MatchAt(s, i).Some? ==> IsLazyMatch(s, MatchAt(s, i).value)
    ensures MatchAt(s, i).None? ==> forall c, e :: !IsMatch(s, i, c, e)
  {
    if i < |s| && s[i] == '[' {
      CloseBracketSpec(s, i, i + 1);
    }
  }

  /** `Regex.findAll` continuing from index `from`: the leftmost index at or
      after `from` where the pattern matches, with its lazy match. */
  function FindFrom(s: string, from: nat): (r: Option<LinkMatch>)
    requires from <= |s|
    ensures r.Some? ==> from <= r.value.open && Delimited(s, r.value)
    decreases |s| - from
  {
    if from == |s| then None
    else
      var m := MatchAt(s, from);
      if m.Some? then m else FindFrom(s, from + 1)
  }

  /** The match found is lazy and leftmost, and when none is found the
      pattern matches nowhere at or after `from`. */
  lemma {:induction false} FindFromSpec(s: string, from: nat)
    requires from <= |s|
    ensures FindFrom(s, from).Some? ==> IsLazyMatch(s, FindFrom(s, from).value)
    ensures FindFrom(s, from).Some? ==>
      forall k, c, e :: from <= k < FindFrom(s, from).value.open ==> !IsMatch(s, k, c, e)
    ensures FindFrom(s, from).None? ==> forall k, c, e :: from <= k ==> !IsMatch(s, k, c, e)
    decreases |s| - from
  {
    if from < |s| {
      MatchAtSpec(s, from);
      if MatchAt(s, from).None? {
        FindFromSpec(s, from + 1);
      }
    }
  }

  // ---------------------------------------------------------------------------
  // The loop of `MarkdownLinkText`

  /** The loop of `buildAnnotatedString` from `lastIndex == from` on: the
      plain text before the next match (when there is any), the link, and
      the rest; after the last match, the remaining text (when there is any). */
  function SegmentsFrom(s: string, from: nat): seq<Segment>
    requires from <= |s|
    decreases |s| - from
  {
    var found := FindFrom(s, from);
    if found.None? then
      (if from < |s| then [Plain(s[from..])] else [])
    else
      var m := found.value;
      Before(s, from, m.open) + [LinkOf(s, m)] + SegmentsFrom(s, m.end + 1)
  }

  /** The segments `MarkdownLinkText` renders for `text`. Round trip: plain
      runs verbatim and each link as "[text](url)" give back exactly the
      input; and the segmentation is well formed. */
  function Segments(text: string): (gs: seq<Segment>)
    ensures Markup(gs) == text
    ensures WellFormed(gs)
  {
    SegmentsFromRoundTrip(text, 0);
    SegmentsFromWellFormed(text, 0);
    SegmentsFrom(text, 0)
  }

  /** One turn of the loop, when a match is found at or after `from`. */
  lemma SegmentsFromStep(s: string, from: nat)
    requires from <= |s| && FindFrom(s, from).Some?
    ensures var m := FindFrom(s, from).value;
      && from <= m.open && Delimited(s, m)
      && SegmentsFrom(s, from) == Before(s, from, m.open) + [LinkOf(s, m)] + SegmentsFrom(s, m.end + 1)
  {
  }

  /** Writing the segments back reproduces the text from `from` on. */
  lemma {:induction false} SegmentsFromRoundTrip(s: string, from: nat)
    requires from <= |s|
    ensures Markup(SegmentsFrom(s, from)) == s[from..]
    decreases |s| - from
  {
    if FindFrom(s, from).None? {
      RoundTripLast(s, from);
    } else {
      SegmentsFromRoundTrip(s, FindFrom(s, from).value.end + 1);
      RoundTripTurn(s, from);
    }
  }

  /** With no match left, the remainder writes back as itself. */
  lemma RoundTripLast(s: string, from: nat)
    requires from <= |s| && FindFrom(s, from).None?
    ensures Markup(SegmentsFrom(s, from)) == s[from..]
  {
    if from < |s| {
      MarkupSingle(s[from..]);
    }
  }

  /** One turn of the loop keeps the round trip. */
  lemma RoundTripTurn(s: string, from: nat)
    requires from <= |s| && FindFrom(s, from).Some?
    requires var m := FindFrom(s, from).value; Markup(SegmentsFrom(s, m.end + 1)) == s[m.end + 1..]
    ensures Markup(SegmentsFrom(s, from)) == s[from..]
  {
    var m := FindFrom(s, from).value;
    SegmentsFromStep(s, from);
    RoundTripStep(s, from, m, SegmentsFrom(s, from), SegmentsFrom(s, m.end + 1));
  }

  // ---------------------------------------------------------------------------
  // Shape of the segmentation

  /** The link cut out of a match satisfies what the lazy groups allow. */
  lemma MatchedLinkShape(s: string, m: LinkMatch)
    requires IsMatch(s, m.open, m.close, m.end)
    ensures var link := LinkOf(s, m);
      NoTerminator(link.text) && NoTerminator(link.url) && ')' !in link.url
  {
    var link := LinkOf(s, m);
    assert forall p :: 0 <= p < |link.url| ==> link.url[p] == s[m.close + 2 + p];
    assert forall p :: 0 <= p < |link.text| ==> link.text[p] == s[m.open + 1 + p];
  }

  /** The match found at or after `from` is a match of the pattern. */
  lemma FoundIsMatch(s: string, from: nat)
    requires from <= |s| && FindFrom(s, from).Some?
    ensures var m := FindFrom(s, from).value; IsMatch(s, m.open, m.close, m.end)
  {
    FindFromSpec(s, from);
  }

  lemma {:induction false} SegmentsFromWellFormed(s: string, from: nat)
    requires from <= |s|
    ensures WellFormed(SegmentsFrom(s, from))
    decreases |s| - from
  {
    var found := FindFrom(s, from);
    if found.Some? {
      SegmentsFromWellFormed(s, found.value.end + 1);
      WellFormedTurn(s, from);
    } else if from < |s| {
      assert SegmentsFrom(s, from) == [Plain(s[from..])];
    }
  }

  /** One turn of the loop keeps the segment list well formed. */
  lemma WellFormedTurn(s: string, from: nat)
    requires from <= |s| && FindFrom(s, from).Some?
    requires var m := FindFrom(s, from).value; WellFormed(SegmentsFrom(s, m.end + 1))
    ensures WellFormed(SegmentsFrom(s, from))
  {
    var m := FindFrom(s, from).value;
    SegmentsFromStep(s, from);
    FoundIsMatch(s, from);
    MatchedLinkShape(s, m);
    WellFormedStep(SegmentsFrom(s, from), Before(s, from, m.open), LinkOf(s, m), SegmentsFrom(s, m.end + 1));
  }

  /** A text in which the pattern matches nowhere comes out unchanged as one
      plain run, and the empty text as no segment at all. */
  lemma NoMatchIsPlain(text: string)
    requires forall k, c, e :: !IsMatch(text, k, c, e)
    ensures Segments(text) == (if text == "" then [] else [Plain(text)])
  {
    FindFromSpec(text, 0);
  }

  /** A link segment appears exactly when the pattern matches somewhere. */
  lemma HasLinkIffMatch(text: string)
    ensures (exists i :: 0 <= i < |Segments(text)| && Segments(text)[i].Link?)
        <==> (exists k, c, e :: IsMatch(text, k, c, e))
  {
    FindFromSpec(text, 0);
    var found := FindFrom(text, 0);
    if found.Some? {
      var m := found.value;
      SegmentsFromStep(text, 0);
      assert Segments(text)[|Before(text, 0, m.open)|].Link?;
      assert IsMatch(text, m.open, m.close, m.end);
    }
  }

  /** The first link is the leftmost lazy match of the pattern: its text is
      the first group and its URL the second. */
  lemma FirstLinkIsLeftmostMatch(text: string, k: nat, c: nat, e: nat)
    requires IsMatch(text, k, c, e)
    requires forall k', c', e' :: k' < k ==> !IsMatch(text, k', c', e')
    ensures exists c0, e0 ::
      && c0 <= c
      && IsMatch(text, k, c0, e0)
      && |Segments(text)| > (if k > 0 then 1 else 0)
      && Segments(text)[if k > 0 then 1 else 0] == Link(text[k + 1..c0], text[c0 + 2..e0])
  {
    FirstLinkFound(text, k, c, e);
    var m := FindFrom(text, 0).value;
    assert Segments(text) == SegmentsFrom(text, 0);
    assert IsMatch(text, k, m.close, m.end);
  }

  /** The loop's first turn finds the leftmost match and emits its link
      right after the plain run before it, if any. */
  lemma FirstLinkFound(text: string, k: nat, c: nat, e: nat)
    requires IsMatch(text, k, c, e)
    requires forall k', c', e' :: k' < k ==> !IsMatch(text, k', c', e')
    ensures FindFrom(text, 0).Some?
    ensures var m := FindFrom(text, 0).value; var i := if k > 0 then 1 else 0;
      && m.open == k && m.close <= c && IsMatch(text, k, m.close, m.end)
      && |SegmentsFrom(text, 0)| > i
      && SegmentsFrom(text, 0)[i] == Link(text[k + 1..m.close], text[m.close + 2..m.end])
  {
    FindFromSpec(text, 0);
    var m := FindFrom(text, 0).value;
    assert m.open == k && m.close <= c;
    SegmentsFromStep(text, 0);
    var i := if k > 0 then 1 else 0;
    var gs := Before(text, 0, k) + [LinkOf(text, m)] + SegmentsFrom(text, m.end + 1);
    assert gs[i] == LinkOf(text, m);
  }

  // ---------------------------------------------------------------------------
  // Every segment, not only the first: the scan as a reference definition

  /** Where the source of `g` ends when it starts at `from`. */
  function Next(from: nat, g: Segment): nat {
    if g.Plain? then from + |g.text| else from + 4 + |g.text| + |g.url|
  }

  /** The match a link segment stands for when its "[" is at `open`. */
  function MatchOf(open: nat, g: Segment): (m: LinkMatch)
    requires g.Link?
    ensures m.open == open && m.end + 1 == Next(open, g)
  {
    LinkMatch(open, open + 1 + |g.text|, open + 3 + |g.text| + |g.url|)
  }

  /** No match of the pattern starts in `s[a..b]`. */
  ghost predicate NoMatchIn(s: string, a: int, b: int) {
    forall k, c, e :: a <= k < b ==> !IsMatch(s, k, c, e)
  }

  /** `t` is a plain run at `from`: not empty, the text there, and no match
      of the pattern starts inside it. */
  ghost predicate PlainRun(s: string, from: nat, t: string) {
    t != "" && from + |t| <= |s| && t == s[from..from + |t|] && NoMatchIn(s, from, from + |t|)
  }

  /** `g` is a link at `from`: the lazy match that starts there, cut into
      its two groups. */
  ghost predicate LinkRun(s: string, from: nat, g: Segment)
    requires g.Link?
  {
    IsLazyMatch(s, MatchOf(from, g)) && LinkOf(s, MatchOf(from, g)) == g
  }

  /** `gs` is what a left-to-right scan of `s[from..]` for the pattern
      emits: plain runs in which no match starts, each followed by a link or
      the end; each link the lazy match that starts where it sits; and the
      last segment ending where `s` ends. */
  ghost predicate Scanned(s: string, from: nat, gs: seq<Segment>)
    decreases |gs|
  {
    if gs == [] then from == |s|
    else
      && (gs[0].Plain? ==> PlainRun(s, from, gs[0].text) && (|gs| > 1 ==> gs[1].Link?))
      && (gs[0].Link? ==> LinkRun(s, from, gs[0]))
      && Scanned(s, Next(from, gs[0]), gs[1..])
  }

  /** The match the scan finds is lazy, and no match starts before it. */
  lemma Found(s: string, from: nat)
    requires from <= |s| && FindFrom(s, from).Some?
    ensures var m := FindFrom(s, from).value;
      from <= m.open && IsLazyMatch(s, m) && NoMatchIn(s, from, m.open)
  {
    FindFromSpec(s, from);
  }

  /** A segment that fits at `from`, followed by a rest scanned from where
      it ends, is scanned from `from`. */
  lemma ScannedCons(s: string, from: nat, g: Segment, rest: seq<Segment>)
    requires g.Plain? ==> PlainRun(s, from, g.text) && (rest != [] ==> rest[0].Link?)
    requires g.Link? ==> LinkRun(s, from, g)
    requires Scanned(s, Next(from, g), rest)
    ensures Scanned(s, from, [g] + rest)
  {
    assert ([g] + rest)[0] == g;
    assert ([g] + rest)[1..] == rest;
  }

  /** The link cut out of a lazy match is a link at the match's "[", and
      its source ends at the match's ")". */
  lemma LinkRunOf(s: string, m: LinkMatch)
    requires IsLazyMatch(s, m)
    ensures Next(m.open, LinkOf(s, m)) == m.end + 1
    ensures LinkRun(s, m.open, LinkOf(s, m))
  {
    assert MatchOf(m.open, LinkOf(s, m)) == m;
  }

  /** The text `s[from..open]` before a match, with no match in it, is a
      plain run. */
  lemma PlainRunOf(s: string, from: nat, open: nat)
    requires from < open <= |s| && NoMatchIn(s, from, open)
    ensures PlainRun(s, from, s[from..open]) && Next(from, Plain(s[from..open])) == open
  {
  }

  /** The link cut out of a lazy match, followed by a rest scanned from
      after its ")", is scanned from its "[". */
  lemma ScannedAtLink(s: string, m: LinkMatch, rest: seq<Segment>)
    requires IsLazyMatch(s, m) && Scanned(s, m.end + 1, rest)
    ensures Scanned(s, m.open, [LinkOf(s, m)] + rest)
  {
    LinkRunOf(s, m);
    ScannedCons(s, m.open, LinkOf(s, m), rest);
  }

  /** The run `s[from..open]` free of matches, followed by a list scanned
      from `open` that opens with a link, is scanned from `from`. */
  lemma ScannedAfterPlain(s: string, from: nat, open: nat, tail: seq<Segment>)
    requires from < open <= |s| && NoMatchIn(s, from, open)
    requires tail != [] && tail[0].Link? && Scanned(s, open, tail)
    ensures Scanned(s, from, [Plain(s[from..open])] + tail)
  {
    PlainRunOf(s, from, open);
    ScannedCons(s, from, Plain(s[from..open]), tail);
  }

  /** The plain run before a match, if any, then the match's link, then
      the rest, as a list that starts with the first of them. */
  lemma BeforeLinkShape(s: string, from: nat, m: LinkMatch, rest: seq<Segment>)
    requires from <= m.open < m.close && m.close + 2 <= m.end < |s|
    ensures var tail := [LinkOf(s, m)] + rest;
      && tail[0].Link?
      && Before(s, from, m.open) + [LinkOf(s, m)] + rest
        == if m.open > from then [Plain(s[from..m.open])] + tail else tail
  {
  }

  /** A plain run free of matches up to a lazy match, its link and a scanned
      rest are scanned. */
  lemma ScannedBeforeLink(s: string, from: nat, m: LinkMatch, rest: seq<Segment>)
    requires from <= m.open && IsLazyMatch(s, m) && NoMatchIn(s, from, m.open)
    requires Scanned(s, m.end + 1, rest)
    ensures Scanned(s, from, Before(s, from, m.open) + [LinkOf(s, m)] + rest)
  {
    BeforeLinkShape(s, from, m, rest);
    ScannedAtLink(s, m, rest);
    if m.open > from {
      ScannedAfterPlain(s, from, m.open, [LinkOf(s, m)] + rest);
    }
  }

  /** With no match left, the rest of the text, if any, is scanned. */
  lemma ScannedLast(s: string, from: nat)
    requires from <= |s| && FindFrom(s, from).None?
    ensures Scanned(s, from, SegmentsFrom(s, from))
  {
    if from < |s| {
      assert NoMatchIn(s, from, |s|) by { FindFromSpec(s, from); }
      PlainRunOf(s, from, |s|);
      ScannedCons(s, from, Plain(s[from..|s|]), []);
      assert s[from..|s|] == s[from..];
      assert [Plain(s[from..])] + [] == SegmentsFrom(s, from);
    }
  }

  /** One turn of the loop keeps the output scanned. */
  lemma ScannedTurn(s: string, from: nat)
    requires from <= |s| && FindFrom(s, from).Some?
    requires var m := FindFrom(s, from).value; Scanned(s, m.end + 1, SegmentsFrom(s, m.end + 1))
    ensures Scanned(s, from, SegmentsFrom(s, from))
  {
    var m := FindFrom(s, from).value;
    Found(s, from);
    ScannedBeforeLink(s, from, m, SegmentsFrom(s, m.end + 1));
    SegmentsFromStep(s, from);
  }

  lemma {:induction false} SegmentsFromScanned(s: string, from: nat)
    requires from <= |s|
    ensures Scanned(s, from, SegmentsFrom(s, from))
    decreases |s| - from
  {
    if FindFrom(s, from).None? {
      ScannedLast(s, from);
    } else {
      SegmentsFromScanned(s, FindFrom(s, from).value.end + 1);
      ScannedTurn(s, from);
    }
  }

  /** At a given "[" and "](", the ")" that ends the match is the first ")"
      after the "](": the URL group holds none. */
  lemma MatchEndUnique(s: string, open: int, close: int, e: int, e': int)
    requires IsMatch(s, open, close, e) && IsMatch(s, open, close, e')
    ensures e == e'
  {
  }

  /** At most one lazy match starts at a given position. */
  lemma LazyMatchUnique(s: string, m: LinkMatch, m': LinkMatch)
    requires IsLazyMatch(s, m) && IsLazyMatch(s, m') && m.open == m'.open
    ensures m == m'
  {
    MatchEndUnique(s, m.open, m.close, m.end, m'.end);
  }

  /** The head of a scanned list fits at `from`, and the rest is scanned
      from where the head ends. */
  lemma ScannedHead(s: string, from: nat, gs: seq<Segment>)
    requires gs != [] && Scanned(s, from, gs)
    ensures gs[0].Plain? ==> PlainRun(s, from, gs[0].text) && (|gs| > 1 ==> gs[1].Link?)
    ensures gs[0].Link? ==> LinkRun(s, from, gs[0])
    ensures Scanned(s, Next(from, gs[0]), gs[1..])
  {
  }

  /** Nothing is scanned from the end of the text but the empty list. */
  lemma ScannedAtEnd(s: string, gs: seq<Segment>)
    requires Scanned(s, |s|, gs)
    ensures gs == []
  {
    if gs != [] {
      ScannedHead(s, |s|, gs);
    }
  }

  /** No link of the scan starts inside a plain run: the pattern matches
      wherever a link starts. */
  lemma LinkNotInRun(s: string, from: nat, t: string, p: nat, h: Segment)
    requires PlainRun(s, from, t) && h.Link? && LinkRun(s, p, h) && from <= p
    ensures p >= from + |t|
  {
    var m := MatchOf(p, h);
    assert IsMatch(s, p, m.close, m.end);
  }

  /** Two links at the same place are the same link. */
  lemma LinkRunsAgree(s: string, from: nat, g: Segment, h: Segment)
    requires g.Link? && h.Link? && LinkRun(s, from, g) && LinkRun(s, from, h)
    ensures g == h
  {
    LazyMatchUnique(s, MatchOf(from, g), MatchOf(from, h));
  }

  /** A plain run of the scan ends at the end of the text or where the next
      link starts. */
  lemma PlainRunEnds(s: string, from: nat, gs: seq<Segment>)
    requires gs != [] && gs[0].Plain? && Scanned(s, from, gs)
    ensures from + |gs[0].text| == |s| || (|gs| > 1 && gs[1].Link? && LinkRun(s, from + |gs[0].text|, gs[1]))
  {
    ScannedHead(s, from, gs);
    if |gs| == 1 {
      ScannedAtEndOfRun(s, from + |gs[0].text|, gs[1..]);
    } else {
      ScannedHead(s, from + |gs[0].text|, gs[1..]);
      assert gs[1..][0] == gs[1];
    }
  }

  /** A scanned list that opens with a plain run at `from` has it no shorter
      than any other plain run there: the scan ends a run only at a link or
      at the end of the text, and no link starts inside a plain run. */
  lemma PlainRunLongest(s: string, from: nat, gs: seq<Segment>, t: string)
    requires gs != [] && gs[0].Plain? && Scanned(s, from, gs) && PlainRun(s, from, t)
    ensures |gs[0].text| >= |t|
  {
    PlainRunEnds(s, from, gs);
    if from + |gs[0].text| != |s| {
      LinkNotInRun(s, from, t, from + |gs[0].text|, gs[1]);
    }
  }

  /** The empty list is scanned only from the end of the text. */
  lemma ScannedAtEndOfRun(s: string, from: nat, gs: seq<Segment>)
    requires gs == [] && Scanned(s, from, gs)
    ensures from == |s|
  {
  }

  /** The head of a scanned list fits at `from`. */
  lemma HeadFits(s: string, from: nat, gs: seq<Segment>)
    requires gs != [] && Scanned(s, from, gs)
    ensures gs[0].Plain? ==> PlainRun(s, from, gs[0].text)
    ensures gs[0].Link? ==> LinkRun(s, from, gs[0])
  {
    ScannedHead(s, from, gs);
  }

  /** The first segments of two lists scanned from the same place agree. */
  lemma HeadsAgree(s: string, from: nat, gs: seq<Segment>, hs: seq<Segment>)
    requires gs != [] && hs != [] && Scanned(s, from, gs) && Scanned(s, from, hs)
    ensures gs[0] == hs[0]
  {
    var g, h := gs[0], hs[0];
    HeadFits(s, from, gs);
    HeadFits(s, from, hs);
    if g.Link? && h.Link? {
      LinkRunsAgree(s, from, g, h);
    } else if g.Plain? && h.Plain? {
      PlainRunLongest(s, from, gs, h.text);
      PlainRunLongest(s, from, hs, g.text);
      assert g.text == s[from..from + |g.text|];
    } else if g.Plain? {
      LinkNotInRun(s, from, g.text, from, h);
    } else {
      LinkNotInRun(s, from, h.text, from, g);
    }
  }

  /** The scan is deterministic: two lists scanned from the same place are
      the same list. */
  lemma {:induction false} ScannedUnique(s: string, from: nat, gs: seq<Segment>, hs: seq<Segment>)
    requires Scanned(s, from, gs) && Scanned(s, from, hs)
    ensures gs == hs
    decreases |gs|
  {
    if gs == [] {
      ScannedAtEndOfRun(s, from, gs);
      ScannedAtEnd(s, hs);
    } else if hs == [] {
      ScannedAtEndOfRun(s, from, hs);
      ScannedAtEnd(s, gs);
    } else {
      HeadsAgree(s, from, gs, hs);
      ScannedHead(s, from, gs);
      ScannedHead(s, from, hs);
      ScannedUnique(s, Next(from, gs[0]), gs[1..], hs[1..]);
      assert gs == [gs[0]] + gs[1..];
      assert hs == [hs[0]] + hs[1..];
    }
  }

  /** The split of `text` is the left-to-right scan for the pattern, and
      the only one: every link is the lazy match starting at its offset in
      the text, no match starts inside a plain run, and no other segment
      list has these properties. */
  lemma SegmentsScanned(text: string, gs: seq<Segment>)
    ensures Scanned(text, 0, Segments(text))
    ensures gs == Segments(text) <==> Scanned(text, 0, gs)
  {
    SegmentsFromScanned(text, 0);
    assert Segments(text) == SegmentsFrom(text, 0);
    if Scanned(text, 0, gs) {
      ScannedUnique(text, 0, gs, Segments(text));
    }
  }

  /** The shown text is the input less the characters the links hide, and
      it is the input unchanged exactly when the pattern matches nowhere. */
  lemma VisibleText(text: string)
    ensures |Visible(Segments(text))| + Hidden(Segments(text)) == |text|
    ensures Visible(Segments(text)) == text <==> forall k, c, e :: !IsMatch(text, k, c, e)
  {
    var gs := Segments(text);
    VisibleLength(gs);
    HiddenZero(gs);
    HasLinkIffMatch(text);
    if forall k, c, e :: !IsMatch(text, k, c, e) {
      VisiblePlain(gs);
    }
  }

  /** Both lazy groups may be empty: "[]()" is one link with no text and no
      URL, which shows as nothing. */
  lemma EmptyGroups()
    ensures Segments("[]()") == [Link("", "")]
    ensures Visible(Segments("[]()")) == ""
  {
    var s := "[]()";
    assert CloseParen(s, 3) == Some(3);
    assert CloseBracket(s, 0, 1) == Some(LinkMatch(0, 1, 3));
    assert FindFrom(s, 0) == Some(LinkMatch(0, 1, 3));
    assert FindFrom(s, 4).None?;
    assert SegmentsFrom(s, 4) == [];
    assert Before(s, 0, 0) == [];
    assert LinkOf(s, LinkMatch(0, 1, 3)) == Link("", "");
    SegmentsFromStep(s, 0);
    assert [] + [Link("", "")] + [] == [Link("", "")];
    assert Visible([Link("", "")]) == "";
  }
}

=== FILE: models.dfy ===
/** The app's data-transfer records and the `Resource` result wrapper every
    repository call returns. Dates travel as milliseconds since the epoch;
    Kotlin's nullable fields become `Option`. */
module Models {

  datatype Option<+T> = None | Some(value: T) {
    /** Kotlin's elvis operator `x ?: default`. */
    function GetOr(default: T): T {
      match this
      case Some(v) => v
      case None => default
    }
  }

  datatype User = User(id: string, fullname: string, email: string, profileImageUrl: string)

  datatype Favorite = Favorite(
    favoriteId: string,
    user: string,
    artistId: string,
    artistName: string,
    imageUrl: string,
    nationality: string,
    birthday: string,
    deathday: string,
    addedAt: int)

  datatype ArtistResult = ArtistResult(id: string, title: string, imageUrl: string)

  datatype ArtistDetail = ArtistDetail(
    id: string,
    name: string,
    birthday: Option<string>,
    deathday: Option<string>,
    nationality: Option<string>,
    biography: Option<string>,
    imageUrl: string)

  datatype Artwork = Artwork(id: string, title: string, date: Option<string>, imageUrl: string)

  datatype Category = Category(id: string, name: string, imageUrl: string, description: string)

  /** Result of a repository call: the data, or an optional message with
      optional per-field messages. */
  datatype Resource<+T> =
    | Success(data: T)
    | Error(message: Option<string>, fieldErrors: Option<map<string, string>>)

  /** The answer of a favourite check, read as "not a favourite" when the
      check failed. */
  function FlagOrFalse(r: Resource<bool>): bool {
    r.Success? && r.data
  }

  /** Kotlin's `isNullOrEmpty()` on a nullable string. */
  predicate IsNullOrEmpty(s: Option<string>) {
    s.None? || s.value == ""
  }

  /** Kotlin's string template of a nullable string: `null` prints as "null". */
  function Interpolate(s: Option<string>): string {
    s.GetOr("null")
  }
}

=== FILE: register_screen.dfy ===
/** `ui/screens/RegisterScreen.kt`: the registration form. Its state is the
    three fields and the server error shown under the button; each user
    action or change of the view model's error is one step. */
module RegisterScreen {
  import opened Text
  import opened Models
  import opened Utils
  import opened Forms

  datatype RegisterForm = RegisterForm(fullname: Field, email: Field, password: Field, backendError: Option<string>)

  const Start: RegisterForm := RegisterForm(Blank, Blank, Blank, None)

  const FullnameEmpty: string := "Fullname cannot be empty"
  const PasswordEmpty: string := "Password cannot be empty"
  const PasswordShort: string := "Password must be at least 4 characters"
  const EmailTaken: string := "Email already exists"

  /** `validateFullname`. */
  function FullnameError(fullname: string): (e: Option<string>)
    ensures e.Some? <==> fullname == ""
    ensures e.Some? ==> e.value == FullnameEmpty
  {
    if fullname == "" then Some(FullnameEmpty) else None
  }

  /** `validatePassword`: emptiness first, then the minimum length of 4,
      counted as Kotlin's `String.length` counts, in UTF-16 code units. */
  function PasswordError(password: string): (e: Option<string>)
    ensures e.None? <==> Utf16Length(password) >= 4
    ensures password == "" ==> e == Some(PasswordEmpty)
    ensures 0 < Utf16Length(password) < 4 ==> e == Some(PasswordShort)
  {
    if password == "" then Some(PasswordEmpty)
    else if Utf16Length(password) < 4 then Some(PasswordShort)
    else None
  }

  /** Two characters outside the Basic Multilingual Plane already make four
      UTF-16 units, so such a password passes the length rule. */
  lemma TwoAstralCharactersAreLongEnough()
    ensures PasswordError("\U{1F600}\U{1F600}").None?
  {
    assert Utf16Length("\U{1F600}\U{1F600}"[1..]) == 2;
  }

  /** What the user does. */
  datatype Action =
    | EditFullname(v: string) | FocusFullname(f: bool)
    | EditEmail(v: string) | FocusEmail(f: bool)
    | EditPassword(v: string) | FocusPassword(f: bool)
    | ErrorChanged(message: Option<string>)

  /** The `LaunchedEffect(email)` that runs when the e-mail text changes: a
      server error that mentions "email" is dropped. */
  function EmailChanged(backendError: Option<string>): Option<string> {
    if backendError.Some? && ContainsIgnoreCase(backendError.value, "email") then None else backendError
  }

  /** The `LaunchedEffect(errorState)`: a message about the e-mail becomes
      the e-mail field's "Email already exists", any other message the
      server error; no error clears the server error. */
  function RouteError(form: RegisterForm, message: Option<string>): (r: RegisterForm)
    ensures r.fullname == form.fullname && r.password == form.password
    ensures message.None? ==> r.backendError.None? && r.email == form.email
    ensures message.Some? && ContainsIgnoreCase(message.value, "email") ==>
      r.email.error == Some(EmailTaken) && r.backendError == form.backendError
    ensures r.email == form.email.(error := r.email.error)
    ensures message.Some? && !ContainsIgnoreCase(message.value, "email") ==>
      r.backendError == message && r.email == form.email
  {
    match message
    case None => form.(backendError := None)
    case Some(m) =>
      if ContainsIgnoreCase(m, "email") then form.(email := form.email.(error := Some(EmailTaken)))
      else form.(backendError := Some(m))
  }

  function Step(form: RegisterForm, a: Action): RegisterForm {
    match a
    case EditFullname(v) => form.(fullname := EditRevalidating(form.fullname, v, FullnameError))
    case FocusFullname(f) => form.(fullname := ChangeFocus(form.fullname, f, FullnameError))
    case EditEmail(v) =>
      form.(email := EditClearing(form.email, v),
            backendError := if v != form.email.value then EmailChanged(form.backendError) else form.backendError)
    case FocusEmail(f) => form.(email := ChangeFocus(form.email, f, EmailEmptyError))
    case EditPassword(v) => form.(password := EditRevalidating(form.password, v, PasswordError))
    case FocusPassword(f) => form.(password := ChangeFocus(form.password, f, PasswordError))
    case ErrorChanged(m) => RouteError(form, m)
  }

  function Run(form: RegisterForm, actions: seq<Action>): RegisterForm
    decreases |actions|
  {
    if actions == [] then form else Run(Step(form, actions[0]), actions[1..])
  }

  /** The server error shown under the button: only one that does not
      mention "email". */
  function DisplayedBackendError(form: RegisterForm): Option<string> {
    if form.backendError.Some? && !ContainsIgnoreCase(form.backendError.value, "email") then form.backendError
    else None
  }

  /** The server error kept never mentions "email" in any letter case. */
  predicate NoEmailInBackendError(form: RegisterForm) {
    form.backendError.Some? ==> !ContainsIgnoreCase(form.backendError.value, "email")
  }

  lemma StepKeepsNoEmail(form: RegisterForm, a: Action)
    requires NoEmailInBackendError(form)
    ensures NoEmailInBackendError(Step(form, a))
  {
  }

  /** Whatever happens on the screen, the kept server error never mentions
      "email", so it is always shown as it is, and the e-mail effect never
      has anything to drop. */
  lemma {:induction false} BackendErrorNeverMentionsEmail(form: RegisterForm, actions: seq<Action>)
    requires NoEmailInBackendError(form)
    ensures NoEmailInBackendError(Run(form, actions))
    ensures DisplayedBackendError(Run(form, actions)) == Run(form, actions).backendError
    ensures EmailChanged(Run(form, actions).backendError) == Run(form, actions).backendError
    decreases |actions|
  {
    if actions != [] {
      StepKeepsNoEmail(form, actions[0]);
      BackendErrorNeverMentionsEmail(Step(form, actions[0]), actions[1..]);
    }
  }

  /** From the empty form, the server error shown is always the one kept. */
  lemma DisplayedFromStart(actions: seq<Action>)
    ensures DisplayedBackendError(Run(Start, actions)) == Run(Start, actions).backendError
  {
    BackendErrorNeverMentionsEmail(Start, actions);
  }

  /** Typing into the e-mail field removes its error. */
  lemma EditEmailClearsError(form: RegisterForm, v: string)
    ensures Step(form, EditEmail(v)).email.error.None?
    ensures Step(form, EditEmail(v)).email.value == v
  {
  }

  // ---------------------------------------------------------------------------
  // Submitting

  /** The button's click: all three fields are validated, the e-mail with
      its format, and `register` is called when the e-mail and password
      errors are clear; the full-name error is not consulted. */
  function Submit(pattern: string -> bool, form: RegisterForm): (r: (RegisterForm, bool))
    ensures r.0.fullname.error == FullnameError(form.fullname.value)
    ensures r.0.email.error == EmailFormatError(pattern, form.email.value)
    ensures r.0.password.error == PasswordError(form.password.value)
    ensures r.1 <==> IsValidEmail(pattern, form.email.value) && Utf16Length(form.password.value) >= 4
    ensures r.0.backendError == form.backendError
    ensures r.0.fullname == form.fullname.(error := r.0.fullname.error)
    ensures r.0.email == form.email.(error := r.0.email.error)
    ensures r.0.password == form.password.(error := r.0.password.error)
  {
    var checked := form.(
      fullname := form.fullname.(error := FullnameError(form.fullname.value)),
      password := form.password.(error := PasswordError(form.password.value)),
      email := form.email.(error := EmailFormatError(pattern, form.email.value)));
    (checked, checked.email.error.None? && checked.password.error.None?)
  }

  /** The button is enabled when nothing is loading, every field has text
      and no field shows an error. */
  predicate Enabled(form: RegisterForm, isLoading: bool) {
    && !isLoading
    && form.fullname.value != "" && form.email.value != "" && form.password.value != ""
    && form.fullname.error.None? && form.email.error.None? && form.password.error.None?
  }

  /** The click itself skips the full name: a form with an empty full name
      but a valid e-mail and password would call `register`. */
  lemma SubmitIgnoresFullname(pattern: string -> bool, form: RegisterForm)
    requires form.fullname.value == ""
    requires IsValidEmail(pattern, form.email.value) && Utf16Length(form.password.value) >= 4
    ensures Submit(pattern, form).1
    ensures Submit(pattern, form).0.fullname.error == Some(FullnameEmpty)
  {
  }

  /** The enabled button closes that gap: a click on it calls `register` only
      with a full name, a valid e-mail and a password of at least 4 UTF-16
      units. */
  lemma EnabledSubmitIsValid(pattern: string -> bool, form: RegisterForm)
    requires Enabled(form, false) && Submit(pattern, form).1
    ensures form.fullname.value != ""
    ensures IsValidEmail(pattern, form.email.value) && Utf16Length(form.password.value) >= 4
  {
  }
}

=== FILE: search_result_screen.dfy ===
/** `ui/screens/SearchResultScreen.kt`: when a search starts and what the
    result area shows for the search view model's state. */
module SearchResultScreen {
  import opened Models
  import opened Text
  import FavoritesViewModel

  /** The shortest query the screen searches on its own, in UTF-16 units as
      Kotlin's `String.length` counts. */
  const AutoSearchMinLength: nat := 3

  /** What starts a search: the current query changing, or the user
      submitting a query from the search bar. */
  datatype Trigger = QueryChanged(currentQuery: string) | Submitted(query: string)

  /** The query searched for a trigger, if any: a changed query only when it
      has at least 3 UTF-16 units, a submitted one at any length. */
  function SearchFor(t: Trigger): (q: Option<string>)
    ensures t.Submitted? ==> q == Some(t.query)
    ensures t.QueryChanged? ==> (q.Some? <==> Utf16Length(t.currentQuery) >= AutoSearchMinLength)
    ensures q.Some? && t.QueryChanged? ==> q.value == t.currentQuery
  {
    match t
    case QueryChanged(cq) => if Utf16Length(cq) >= AutoSearchMinLength then Some(cq) else None
    case Submitted(query) => Some(query)
  }

  /** The result area. */
  datatype View =
    | Loading
    | Blank
    | NoResult
    | ResultList(cards: seq<Card>)

  /** A result card: the artist, and its star's state. */
  datatype Card = Card(artist: ArtistResult, isFavorite: bool)

  /** The cards for the results, starred by membership in the favourite set. */
  function Cards(results: seq<ArtistResult>, favoriteIds: set<string>): (cs: seq<Card>)
    ensures |cs| == |results|
    ensures forall i :: 0 <= i < |cs| ==> cs[i].artist == results[i] && (cs[i].isFavorite <==> results[i].id in favoriteIds)
  {
    seq(|results|, i requires 0 <= i < |results| => Card(results[i], results[i].id in favoriteIds))
  }

  /** The decision table of the result area, first branch that holds wins:
      loading wins over every other branch; the empty query shows a blank
      area; "No result found." appears exactly for a query of at least 3
      UTF-16 units with no results; otherwise every result has its card. */
  function Show(isLoading: bool, currentQuery: string, results: seq<ArtistResult>, favoriteIds: set<string>): (v: View)
    ensures v == Loading <==> isLoading
    ensures v == Blank <==> !isLoading && currentQuery == ""
    ensures v == NoResult <==> !isLoading && Utf16Length(currentQuery) >= AutoSearchMinLength && results == []
    ensures v.ResultList? ==> v.cards == Cards(results, favoriteIds)
  {
    if isLoading then Loading
    else if currentQuery == "" then Blank
    else if Utf16Length(currentQuery) >= AutoSearchMinLength && results == [] then NoResult
    else ResultList(Cards(results, favoriteIds))
  }

  /** A query of 1 or 2 UTF-16 units with no results shows an empty list,
      not "No result found.". */
  lemma ShortQueryEmptyList(currentQuery: string, favoriteIds: set<string>)
    requires 0 < Utf16Length(currentQuery) < AutoSearchMinLength
    ensures Show(false, currentQuery, [], favoriteIds) == ResultList([])
  {
  }

  /** One astral character and one plain one already make three UTF-16
      units: such a query starts a search as the user types. */
  lemma AstralQuerySearches()
    ensures SearchFor(QueryChanged("a\U{1F600}")) == Some("a\U{1F600}")
  {
    assert Utf16Length("a\U{1F600}"[1..]) == 2;
  }

  /** A card's star press: the card's artist is removed when starred and
      added otherwise, which is the favourites view model's toggle. */
  lemma CardToggle(st: FavoritesViewModel.FavoritesState, results: seq<ArtistResult>, i: nat, answer: Resource<bool>)
    requires i < |results|
    ensures var card := Cards(results, st.favoriteIds)[i];
      var r := FavoritesViewModel.Toggle(st, card.artist.id, answer);
      && (card.isFavorite ==> r == FavoritesViewModel.RemoveFavorite(st, card.artist.id, answer))
      && (!card.isFavorite ==> r == FavoritesViewModel.AddFavorite(st, card.artist.id, answer))
  {
  }
}

=== FILE: search_view_model.dfy ===
/** `ui/viewmodel/SearchViewModel.kt`: the current query, its results and
    the favourite flag of each result. A search runs as one step whose
    outcome is an input; the favourite check of an id is a lookup function
    standing for the server. */
module SearchViewModel {
  import opened Models

  datatype SearchState = SearchState(
    currentQuery: string,
    searchResults: seq<ArtistResult>,
    isLoading: bool,
    error: Option<string>,
    favorites: map<string, bool>)

  /** The state flows' initial values. */
  const Initial: SearchState := SearchState("", [], false, None, map[])

  const UnexpectedPrefix: string := "An unexpected error occurred: "

  /** What the search call produced: a `Resource`, or an exception escaping
      the repository with its message. */
  datatype SearchOutcome =
    | Returned(result: Resource<seq<ArtistResult>>)
    | Threw(message: Option<string>)

  /** `searchArtists` up to its call. The empty query ends here: results
      cleared, not loading, error untouched. Any other query starts loading
      and clears the error. */
  function BeginSearch(st: SearchState, query: string): (r: SearchState)
    ensures r.currentQuery == query && r.favorites == st.favorites
    ensures query == "" ==> r.searchResults == [] && !r.isLoading && r.error == st.error
    ensures query != "" ==> r.isLoading && r.error.None? && r.searchResults == st.searchResults
  {
    if query == "" then st.(currentQuery := query, searchResults := [], isLoading := false)
    else st.(currentQuery := query, isLoading := true, error := None)
  }

  /** The end of a non-empty search: the results on success, otherwise no
      results and the error; loading ends whatever happened. */
  function FinishSearch(st: SearchState, outcome: SearchOutcome): (r: SearchState)
    ensures !r.isLoading && r.currentQuery == st.currentQuery && r.favorites == st.favorites
    ensures outcome.Returned? && outcome.result.Success? ==> r.searchResults == outcome.result.data && r.error == st.error
    ensures outcome.Returned? && outcome.result.Error? ==> r.searchResults == [] && r.error == outcome.result.message
    ensures outcome.Threw? ==> r.searchResults == [] && r.error == Some(UnexpectedPrefix + Interpolate(outcome.message))
  {
    match outcome
    case Returned(Success(results)) => st.(searchResults := results, isLoading := false)
    case Returned(Error(msg, _)) => st.(error := msg, searchResults := [], isLoading := false)
    case Threw(msg) => st.(error := Some(UnexpectedPrefix + Interpolate(msg)), searchResults := [], isLoading := false)
  }

  /** `searchArtists(query)` run to completion. The outcome is only used when
      the query is not empty: the empty query makes no call. */
  function SearchArtists(st: SearchState, query: string, outcome: SearchOutcome): SearchState {
    if query == "" then BeginSearch(st, query) else FinishSearch(BeginSearch(st, query), outcome)
  }

  /** The query is always recorded and loading always ends; a successful
      search clears the error, a failed one shows no results. */
  lemma SearchOutcomeSpec(st: SearchState, query: string, outcome: SearchOutcome)
    ensures var r := SearchArtists(st, query, outcome);
      && r.currentQuery == query && !r.isLoading && r.favorites == st.favorites
      && (query == "" ==> r == st.(currentQuery := "", searchResults := [], isLoading := false))
      && (query != "" && outcome.Returned? && outcome.result.Success? ==> r.searchResults == outcome.result.data && r.error.None?)
      && (query != "" && !(outcome.Returned? && outcome.result.Success?) ==> r.searchResults == [])
      && (query != "" && outcome.Threw? ==> r.error.Some?)
  {
  }

  /** Searching the empty query twice is the same as once, and does not
      depend on any outcome. */
  lemma EmptySearchIdempotent(st: SearchState, o1: SearchOutcome, o2: SearchOutcome)
    ensures SearchArtists(SearchArtists(st, "", o1), "", o2) == SearchArtists(st, "", o1)
    ensures SearchArtists(st, "", o1) == SearchArtists(st, "", o2)
  {
  }

  // ---------------------------------------------------------------------------
  // Favourite flags of the results

  /** The flag an id gets: the one already in the map, or else the server's
      answer, or else false when the check fails. */
  function StatusOf(current: map<string, bool>, id: string, lookup: string -> Resource<bool>): bool {
    if id in current then current[id] else FlagOrFalse(lookup(id))
  }

  /** The loop of `getFavoriteStatus`: one entry per artist id, looked up
      only when the previous map has none. */
  method FavoriteStatus(current: map<string, bool>, artists: seq<ArtistResult>, lookup: string -> Resource<bool>)
    returns (m: map<string, bool>)
    ensures forall id :: id in m <==> exists i :: 0 <= i < |artists| && artists[i].id == id
    ensures forall id :: id in m ==> m[id] == StatusOf(current, id, lookup)
  {
    m := map[];
    var k := 0;
    while k < |artists|
      invariant 0 <= k <= |artists|
      invariant forall id :: id in m <==> exists i :: 0 <= i < k && artists[i].id == id
      invariant forall id :: id in m ==> m[id] == StatusOf(current, id, lookup)
    {
      var id := artists[k].id;
      var flag: bool;
      if id in current {
        flag := current[id];
      } else {
        match lookup(id)
        case Success(b) => flag := b;
        case Error(_, _) => flag := false;
      }
      m := m[id := flag];
      k := k + 1;
    }
  }

  /** `getFavoriteStatus(artists)`: nothing happens for no artists; otherwise
      the favourites map is replaced by the one built for exactly these
      artists, and entries for other ids are gone. */
  method GetFavoriteStatus(st: SearchState, artists: seq<ArtistResult>, lookup: string -> Resource<bool>)
    returns (r: SearchState)
    ensures artists == [] ==> r == st
    ensures artists != [] ==> r == st.(favorites := r.favorites)
    ensures artists != [] ==> forall id :: id in r.favorites <==> exists i :: 0 <= i < |artists| && artists[i].id == id
    ensures artists != [] ==> forall id :: id in r.favorites ==> r.favorites[id] == StatusOf(st.favorites, id, lookup)
  {
    if artists == [] {
      return st;
    }
    var m := FavoriteStatus(st.favorites, artists, lookup);
    r := st.(favorites := m);
  }

  /** A cached flag is kept whatever the server would say; an uncached one
      is the server's answer, false when the check fails. */
  lemma StatusOfCached(current: map<string, bool>, id: string, lookup: string -> Resource<bool>)
    ensures id in current ==> StatusOf(current, id, lookup) == current[id]
    ensures id !in current && lookup(id).Error? ==> !StatusOf(current, id, lookup)
    ensures id !in current && lookup(id).Success? ==> StatusOf(current, id, lookup) == lookup(id).data
  {
  }
}

=== FILE: text.dfy ===
/** String helpers shared by the model: substring search, Kotlin's
    case-insensitive comparison, Kotlin's UTF-16 string length, and decimal
    rendering of naturals as Kotlin's string templates print a `Long`. */
module Text {

  /** `p` is a prefix of `s`. */
  predicate IsPrefix(p: string, s: string) {
    |p| <= |s| && s[..|p|] == p
  }

  /** Kotlin's `s.contains(sub)`: `sub` occurs somewhere in `s`. */
  predicate Contains(s: string, sub: string)
    decreases |s|
  {
    IsPrefix(sub, s) || (|s| > 0 && Contains(s[1..], sub))
  }

  /** A string never contains a longer one. */
  lemma {:induction false} ShorterNotContained(s: string, sub: string)
    requires |s| < |sub|
    ensures !Contains(s, sub)
    decreases |s|
  {
    if |s| > 0 {
      ShorterNotContained(s[1..], sub);
    }
  }

  /** `sub` occurs in `s` starting at index `i`. */
  ghost predicate OccursAt(s: string, sub: string, i: int) {
    0 <= i && i + |sub| <= |s| && s[i..i + |sub|] == sub
  }

  /** Every occurrence makes `Contains` true. */
  lemma {:induction false} OccursImpliesContains(s: string, sub: string, i: int)
    requires OccursAt(s, sub, i)
    ensures Contains(s, sub)
    decreases |s|
  {
    if i == 0 {
      assert IsPrefix(sub, s);
    } else {
      assert s[1..][i - 1..i - 1 + |sub|] == s[i..i + |sub|];
      OccursImpliesContains(s[1..], sub, i - 1);
    }
  }

  /** `Contains` is only true when there is an occurrence. */
  lemma {:induction false} ContainsImpliesOccurs(s: string, sub: string)
    requires Contains(s, sub)
    ensures exists i :: OccursAt(s, sub, i)
    decreases |s|
  {
    if IsPrefix(sub, s) {
      assert OccursAt(s, sub, 0);
    } else {
      ContainsImpliesOccurs(s[1..], sub);
      var i :| OccursAt(s[1..], sub, i);
      assert s[1..][i..i + |sub|] == s[i + 1..i + 1 + |sub|];
      assert OccursAt(s, sub, i + 1);
    }
  }

  /** The scanning definition of `Contains` agrees with the positional one. */
  lemma ContainsIffOccurs(s: string, sub: string)
    ensures Contains(s, sub) <==> exists i :: OccursAt(s, sub, i)
  {
    if Contains(s, sub) {
      ContainsImpliesOccurs(s, sub);
    }
    if exists i :: OccursAt(s, sub, i) {
      var i :| OccursAt(s, sub, i);
      OccursImpliesContains(s, sub, i);
    }
  }

  // ---------------------------------------------------------------------------
  // Kotlin's `ignoreCase = true`

  /** `Character.toUpperCase` on the characters whose mapping can meet an ASCII
      character: the ASCII letters, and dotless i and long s, whose capitals
      are `I` and `S`. Every other character is left as it is. */
  function UpperChar(c: char): char {
    if 'a' <= c <= 'z' then (c as int - 32) as char
    else if c == '\U{0131}' then 'I'
    else if c == '\U{017F}' then 'S'
    else c
  }

  /** `Character.toLowerCase` on the same footing: the ASCII letters, and
      the dotted capital I and the Kelvin sign, whose small letters are `i`
      and `k`. */
  function LowerChar(c: char): char {
    if 'A' <= c <= 'Z' then (c as int + 32) as char
    else if c == '\U{0130}' then 'i'
    else if c == '\U{212A}' then 'k'
    else c
  }

  /** Kotlin's `Char.equals(other, ignoreCase = true)`: equal, or equal once
      both are upper-cased, or once the upper-cased forms are lower-cased. */
  predicate CharEqualsIgnoreCase(a: char, b: char) {
    a == b || UpperChar(a) == UpperChar(b) || LowerChar(UpperChar(a)) == LowerChar(UpperChar(b))
  }

  predicate IsAscii(s: string) {
    forall i :: 0 <= i < |s| ==> s[i] as int < 128
  }

  /** The case-insensitive `regionMatches` that Kotlin's `contains` tries at
      each index: `sub` matches `s` from index `i` on, character by character. */
  ghost predicate MatchesAt(s: string, sub: string, i: int) {
    0 <= i && i + |sub| <= |s| && forall k :: 0 <= k < |sub| ==> CharEqualsIgnoreCase(s[i + k], sub[k])
  }

  /** One representative per class of characters that `CharEqualsIgnoreCase`
      identifies with an ASCII character: ASCII capitals become small
      letters, and dotless i, dotted capital I, long s and the Kelvin sign
      become `i`, `i`, `s` and `k`. */
  function Fold(c: char): (r: char)
    ensures c as int < 128 ==> r as int < 128
  {
    if 'A' <= c <= 'Z' then (c as int + 32) as char
    else if c == '\U{0130}' || c == '\U{0131}' then 'i'
    else if c == '\U{017F}' then 's'
    else if c == '\U{212A}' then 'k'
    else c
  }

  /** Against an ASCII character, folding decides Kotlin's case-insensitive
      equality. */
  lemma FoldAgrees(a: char, b: char)
    requires b as int < 128
    ensures CharEqualsIgnoreCase(a, b) <==> Fold(a) == Fold(b)
  {
  }

  /** `Fold` applied to every character. */
  function FoldAll(s: string): (r: string)
    ensures |r| == |s|
    ensures forall i :: 0 <= i < |s| ==> r[i] == Fold(s[i])
  {
    if s == [] then [] else [Fold(s[0])] + FoldAll(s[1..])
  }

  /** Kotlin's `s.contains(sub, ignoreCase = true)`, computed by folding both
      strings; for an ASCII `sub` it holds exactly when `sub` matches `s`
      case-insensitively at some index. */
  function ContainsIgnoreCase(s: string, sub: string): (r: bool)
    ensures IsAscii(sub) ==> (r <==> exists i :: MatchesAt(s, sub, i))
  {
    FoldedMatches(s, sub);
    Contains(FoldAll(s), FoldAll(sub))
  }

  /** An occurrence of the folded `sub` in the folded `s` is a case-insensitive
      match at the same index, and conversely. */
  lemma FoldedMatches(s: string, sub: string)
    ensures IsAscii(sub) ==> (Contains(FoldAll(s), FoldAll(sub)) <==> exists i :: MatchesAt(s, sub, i))
  {
    if !IsAscii(sub) {
      return;
    }
    var fs, fsub := FoldAll(s), FoldAll(sub);
    ContainsIffOccurs(fs, fsub);
    if exists i :: OccursAt(fs, fsub, i) {
      var i :| OccursAt(fs, fsub, i);
      FoldedMatchAt(s, sub, i);
      assert MatchesAt(s, sub, i);
    }
    if exists i :: MatchesAt(s, sub, i) {
      var i :| MatchesAt(s, sub, i);
      FoldedMatchAt(s, sub, i);
      assert OccursAt(fs, fsub, i);
    }
  }

  /** At one index: the folded texts agree there exactly when the original
      ones match case-insensitively. */
  lemma FoldedMatchAt(s: string, sub: string, i: int)
    requires IsAscii(sub)
    ensures OccursAt(FoldAll(s), FoldAll(sub), i) <==> MatchesAt(s, sub, i)
  {
    if !(0 <= i && i + |sub| <= |s|) {
      return;
    }
    var fs, fsub := FoldAll(s), FoldAll(sub);
    forall k | 0 <= k < |sub|
      ensures CharEqualsIgnoreCase(s[i + k], sub[k]) <==> fs[i + k] == fsub[k]
    {
      FoldAgrees(s[i + k], sub[k]);
    }
    if OccursAt(fs, fsub, i) {
      forall k | 0 <= k < |sub| ensures fs[i + k] == fsub[k] {
        assert fs[i..i + |sub|][k] == fsub[k];
      }
    }
    if MatchesAt(s, sub, i) {
      assert fs[i..i + |sub|] == fsub;
    }
  }

  /** A case-sensitive occurrence is also a case-insensitive one. */
  lemma ContainsImpliesIgnoreCase(s: string, sub: string)
    requires Contains(s, sub)
    ensures ContainsIgnoreCase(s, sub)
  {
    ContainsIffOccurs(s, sub);
    var i :| OccursAt(s, sub, i);
    var fs, fsub := FoldAll(s), FoldAll(sub);
    assert fs[i..i + |fsub|] == fsub by {
      forall k | 0 <= k < |fsub|
        ensures fs[i..i + |fsub|][k] == fsub[k]
      {
        assert s[i..i + |sub|][k] == sub[k];
      }
    }
    assert OccursAt(fs, fsub, i);
    ContainsIffOccurs(fs, fsub);
  }

  // ---------------------------------------------------------------------------
  // Kotlin's `String.length`

  /** The width of one character in UTF-16: two code units outside the Basic
      Multilingual Plane, one inside it. */
  function Utf16Width(c: char): (w: nat)
    ensures w == 1 || w == 2
  {
    if c as int >= 0x1_0000 then 2 else 1
  }

  /** Kotlin's `s.length`: the number of UTF-16 code units. */
  function Utf16Length(s: string): (n: nat)
    ensures |s| <= n <= 2 * |s|
    ensures n == 0 <==> s == []
    decreases |s|
  {
    if s == [] then 0 else Utf16Width(s[0]) + Utf16Length(s[1..])
  }

  /** The two lengths agree exactly when no character lies outside the Basic
      Multilingual Plane. */
  lemma {:induction false} Utf16LengthBmp(s: string)
    ensures Utf16Length(s) == |s| <==> forall i :: 0 <= i < |s| ==> s[i] as int < 0x1_0000
    decreases |s|
  {
    if s != [] {
      Utf16LengthBmp(s[1..]);
      assert forall i :: 1 <= i < |s| ==> s[i] == s[1..][i - 1];
    }
  }

  /** Characters of the decimal digits, as `Long.toString` prints them. */
  predicate IsDigit(c: char) {
    '0' <= c <= '9'
  }

  function DigitChar(d: nat): (c: char)
    requires d < 10
    ensures IsDigit(c) && c as int - '0' as int == d
  {
    ('0' as int + d) as char
  }

  /** Decimal rendering of a natural, most significant digit first. */
  function NatToString(n: nat): (r: string)
    ensures |r| >= 1
    ensures forall i :: 0 <= i < |r| ==> IsDigit(r[i])
    ensures r[0] == '0' ==> n == 0
    decreases n
  {
    if n < 10 then [DigitChar(n)] else NatToString(n / 10) + [DigitChar(n % 10)]
  }

  function DigitValue(c: char): (d: nat)
    requires IsDigit(c)
    ensures d < 10
  {
    c as int - '0' as int
  }

  /** Decimal reading of a string of digits; the partner of `NatToString`. */
  function ParseNat(s: string): nat
    requires forall i :: 0 <= i < |s| ==> IsDigit(s[i])
    decreases |s|
  {
    if s == [] then 0 else ParseNat(s[..|s| - 1]) * 10 + DigitValue(s[|s| - 1])
  }

  /** Reading back a rendered natural gives the natural. */
  lemma {:induction false} ParseNatToString(n: nat)
    ensures ParseNat(NatToString(n)) == n
    decreases n
  {
    if n >= 10 {
      var r := NatToString(n);
      assert r[..|r| - 1] == NatToString(n / 10);
      ParseNatToString(n / 10);
    }
  }

  /** Two naturals with the same rendering are equal. */
  lemma NatToStringInjective(a: nat, b: nat)
    requires NatToString(a) == NatToString(b)
    ensures a == b
  {
    ParseNatToString(a);
    ParseNatToString(b);
  }
}

=== FILE: utils.dfy ===
/** The helpers of `utils/Utils.kt`: the "3 weeks ago" relative-time text,
    the refresh interval of the relative-time ticker, and the e-mail check.
    The clock is a parameter: `now` and `date` are milliseconds since the
    epoch. */
module Utils {
  import opened Text

  const MillisPerSecond: int := 1000
  const MillisPerMinute: int := 60_000
  const MillisPerHour: int := 3_600_000
  const MillisPerDay: int := 86_400_000

  /** Division rounding toward zero, as Java's `long` division and the
      `TimeUnit.MILLISECONDS.toX` conversions do (Dafny's `/` is Euclidean). */
  function TruncDiv(a: int, b: int): (q: int)
    requires b > 0
    ensures a >= 0 ==> 0 <= q && q * b <= a < q * b + b
    ensures a < 0 ==> q <= 0 && q * b - b < a <= q * b
  {
    if a >= 0 then
      DivBounds(a, b);
      a / b
    else
      DivBounds(-a, b);
      NegatedProduct((-a) / b, b);
      -((-a) / b)
  }

  /** The Euclidean quotient of a non-negative number counts the whole
      multiples of `b` it holds. */
  lemma DivBounds(a: int, b: int)
    requires a >= 0 && b > 0
    ensures 0 <= a / b && (a / b) * b <= a < (a / b) * b + b
  {
    var q, r := a / b, a % b;
    assert a == b * q + r && 0 <= r < b;
    assert q * b == b * q;
    if q < 0 {
      ProductAtMost(q, -1, b);
    }
  }

  /** Multiplying by a positive number keeps the order. */
  lemma ProductAtMost(x: int, y: int, b: int)
    requires x <= y && b > 0
    ensures x * b <= y * b
  {
    assert y * b - x * b == (y - x) * b;
  }

  lemma NegatedProduct(x: int, b: int)
    ensures (-x) * b == -(x * b)
  {
  }

  // ---------------------------------------------------------------------------
  // Relative time

  datatype Unit = Second | Minute | Hour | Day | Week | Month | Year

  /** The count and unit that the text "<count> <unit> ago" shows. */
  datatype Elapsed = Elapsed(count: nat, unit: Unit)

  /** The length of one unit in milliseconds; a month is 30 days and a year
      365 days, as the day-based arithmetic of the source has it. */
  function UnitMillis(u: Unit): (ms: int)
    ensures ms > 0
  {
    match u
    case Second => MillisPerSecond
    case Minute => MillisPerMinute
    case Hour => MillisPerHour
    case Day => MillisPerDay
    case Week => 7 * MillisPerDay
    case Month => 30 * MillisPerDay
    case Year => 365 * MillisPerDay
  }

  /** The clamp to a minimum of 1 applied to every displayed count. */
  function AtLeastOne(n: int): (r: nat)
    ensures r >= 1 && r >= n
    ensures n >= 1 ==> r == n
  {
    if n < 1 then 1 else n
  }

  /** The bucket choice of `formatDateTime`: the first of seconds < 60,
      minutes < 60, hours < 24, days < 7, weeks < 4, months < 12 that holds,
      else years, where weeks, months and years are derived from whole days. */
  function Classify(diffMs: int): (r: Elapsed)
    ensures r.count == AtLeastOne(TruncDiv(diffMs, UnitMillis(r.unit)))
    ensures diffMs < MillisPerSecond ==> r == Elapsed(1, Second)
  {
    NestedDivision(diffMs, 7);
    NestedDivision(diffMs, 30);
    NestedDivision(diffMs, 365);
    var seconds := TruncDiv(diffMs, MillisPerSecond);
    var minutes := TruncDiv(diffMs, MillisPerMinute);
    var hours := TruncDiv(diffMs, MillisPerHour);
    var days := TruncDiv(diffMs, MillisPerDay);
    var weeks := TruncDiv(days, 7);
    var months := TruncDiv(days, 30);
    var years := TruncDiv(days, 365);
    if seconds < 60 then Elapsed(AtLeastOne(seconds), Second)
    else if minutes < 60 then Elapsed(AtLeastOne(minutes), Minute)
    else if hours < 24 then Elapsed(AtLeastOne(hours), Hour)
    else if days < 7 then Elapsed(AtLeastOne(days), Day)
    else if weeks < 4 then Elapsed(AtLeastOne(weeks), Week)
    else if months < 12 then Elapsed(AtLeastOne(months), Month)
    else Elapsed(AtLeastOne(years), Year)
  }

  /** The unit depends only on which millisecond interval the difference
      falls in: 1 minute, 1 hour, 1 day, 7 days, 28 days and 360 days are the
      boundaries. */
  lemma ClassifyUnitByThreshold(diffMs: int)
    ensures Classify(diffMs).unit == Second <==> diffMs < MillisPerMinute
    ensures Classify(diffMs).unit == Minute <==> MillisPerMinute <= diffMs < MillisPerHour
    ensures Classify(diffMs).unit == Hour <==> MillisPerHour <= diffMs < MillisPerDay
    ensures Classify(diffMs).unit == Day <==> MillisPerDay <= diffMs < 7 * MillisPerDay
    ensures Classify(diffMs).unit == Week <==> 7 * MillisPerDay <= diffMs < 28 * MillisPerDay
    ensures Classify(diffMs).unit == Month <==> 28 * MillisPerDay <= diffMs < 360 * MillisPerDay
    ensures Classify(diffMs).unit == Year <==> 360 * MillisPerDay <= diffMs
  {
    var days := TruncDiv(diffMs, MillisPerDay);
    if diffMs >= MillisPerMinute {
      assert days >= 0;
      assert TruncDiv(days, 7) < 4 <==> days < 28;
      assert TruncDiv(days, 30) < 12 <==> days < 360;
    }
  }

  /** Whole days then whole weeks, months or years equals whole weeks,
      months or years of milliseconds. */
  lemma NestedDivision(diffMs: int, k: int)
    requires k == 7 || k == 30 || k == 365
    ensures diffMs >= 0 ==> TruncDiv(TruncDiv(diffMs, MillisPerDay), k) == TruncDiv(diffMs, k * MillisPerDay)
  {
    if diffMs < 0 {
      return;
    }
    var d := TruncDiv(diffMs, MillisPerDay);
    var q := TruncDiv(d, k);
    assert q * k <= d < q * k + k;
    assert d * MillisPerDay <= diffMs < d * MillisPerDay + MillisPerDay;
    assert q * k * MillisPerDay <= diffMs;
    assert diffMs < q * k * MillisPerDay + k * MillisPerDay;
  }

  /** 28 and 29 days skip the week bucket and print one month; 360 to 364
      days skip the month bucket and print one year. */
  lemma BucketGaps(diffMs: int)
    ensures 28 * MillisPerDay <= diffMs < 30 * MillisPerDay ==> Classify(diffMs) == Elapsed(1, Month)
    ensures 360 * MillisPerDay <= diffMs < 365 * MillisPerDay ==> Classify(diffMs) == Elapsed(1, Year)
  {
    ClassifyUnitByThreshold(diffMs);
  }

  /** The singular word of each unit. */
  function UnitName(u: Unit): string {
    match u
    case Second => "second"
    case Minute => "minute"
    case Hour => "hour"
    case Day => "day"
    case Week => "week"
    case Month => "month"
    case Year => "year"
  }

  /** "<count> <unit> ago", with the plural "s" unless the count is 1: the
      text opens with the count's digits and a space, ends in " ago", and
      carries an "s" just before that exactly when the count is not 1. */
  function Render(e: Elapsed): (s: string)
    ensures IsPrefix(NatToString(e.count) + " ", s)
    ensures |s| > 5 && s[|s| - 4..] == " ago"
    ensures s[|s| - 5] == 's' <==> e.count != 1
  {
    NatToString(e.count) + " " + UnitName(e.unit) + (if e.count == 1 then "" else "s") + " ago"
  }

  /** `formatDateTime(date)` evaluated at time `now`: the number shown is the
      count of whole units of the chosen bucket elapsed, at least 1, so that
      anything under a second, a future date included, is "1 second ago". */
  function FormatDateTime(now: int, date: int): (s: string)
    ensures var u := Classify(now - date).unit;
      s == Render(Elapsed(AtLeastOne(TruncDiv(now - date, UnitMillis(u))), u))
    ensures now - date < MillisPerSecond ==> s == "1 second ago"
  {
    OneSecondText();
    Render(Classify(now - date))
  }

  /** The text of a single second. */
  lemma OneSecondText()
    ensures Render(Elapsed(1, Second)) == "1 second ago"
  {
    assert NatToString(1) == "1";
  }

  /** The word between the count and " ago" in a rendered text. */
  function Word(e: Elapsed): string {
    UnitName(e.unit) + (if e.count == 1 then "" else "s")
  }

  /** Each unit's word, singular or plural, starts with that unit's name and
      with no other unit's name. */
  lemma WordNamesUnit(e: Elapsed, v: Unit)
    ensures IsPrefix(UnitName(v), Word(e)) <==> e.unit == v
  {
    var w := Word(e);
    if e.unit == v {
      assert w[..|UnitName(v)|] == UnitName(v);
    } else if |UnitName(v)| <= |w| {
      assert w[0] == UnitName(e.unit)[0];
      assert w[1] == UnitName(e.unit)[1];
      assert w[..|UnitName(v)|][0] == w[0] && w[..|UnitName(v)|][1] == w[1];
    }
  }

  /** The word names the bucket the difference falls in: seconds under a
      minute, minutes under an hour, hours under a day, days under 7 days,
      weeks under 28 days, months under 360 days, and years from then on. */
  predicate ClassifiedWord(diffMs: int, w: string) {
    && (IsPrefix("second", w) <==> diffMs < MillisPerMinute)
    && (IsPrefix("minute", w) <==> MillisPerMinute <= diffMs < MillisPerHour)
    && (IsPrefix("hour", w) <==> MillisPerHour <= diffMs < MillisPerDay)
    && (IsPrefix("day", w) <==> MillisPerDay <= diffMs < 7 * MillisPerDay)
    && (IsPrefix("week", w) <==> 7 * MillisPerDay <= diffMs < 28 * MillisPerDay)
    && (IsPrefix("month", w) <==> 28 * MillisPerDay <= diffMs < 360 * MillisPerDay)
    && (IsPrefix("year", w) <==> 360 * MillisPerDay <= diffMs)
  }

  /** Between the count and " ago" stands the unit's word. */
  lemma RenderWord(e: Elapsed)
    ensures var s := Render(e);
      && |NatToString(e.count)| + 1 <= |s| - 4
      && s[|NatToString(e.count)| + 1..|s| - 4] == Word(e)
  {
    var digits := NatToString(e.count);
    var s := Render(e);
    assert s == digits + " " + Word(e) + " ago";
  }

  /** The text shown for a difference: the word after the count names the
      bucket the difference falls in. */
  lemma RenderedWords(diffMs: int)
    ensures var e := Classify(diffMs); var s := Render(e);
      && |NatToString(e.count)| + 1 <= |s| - 4
      && ClassifiedWord(diffMs, s[|NatToString(e.count)| + 1..|s| - 4])
  {
    RenderWord(Classify(diffMs));
    ClassifiedWords(diffMs);
  }

  lemma ClassifiedWords(diffMs: int)
    ensures ClassifiedWord(diffMs, Word(Classify(diffMs)))
  {
    var e := Classify(diffMs);
    WordNamesUnit(e, Second);
    WordNamesUnit(e, Minute);
    WordNamesUnit(e, Hour);
    WordNamesUnit(e, Day);
    WordNamesUnit(e, Week);
    WordNamesUnit(e, Month);
    WordNamesUnit(e, Year);
    ClassifyUnitByThreshold(diffMs);
  }

  /** The text determines count and unit: different elapsed values never
      print the same. */
  lemma RenderInjective(a: Elapsed, b: Elapsed)
    requires Render(a) == Render(b)
    ensures a == b
  {
    RenderShape(a);
    RenderShape(b);
    SplitAtSpace(NatToString(a.count), UnitName(a.unit) + Ending(a.count),
                 NatToString(b.count), UnitName(b.unit) + Ending(b.count));
    NatToStringInjective(a.count, b.count);
    SuffixCancel(UnitName(a.unit), UnitName(b.unit), Ending(a.count));
    UnitNameInjective(a.unit, b.unit);
  }

  /** What follows the unit name: the plural "s" unless the count is 1, then " ago". */
  function Ending(count: nat): string {
    (if count == 1 then "" else "s") + " ago"
  }

  lemma RenderShape(e: Elapsed)
    ensures Render(e) == NatToString(e.count) + " " + (UnitName(e.unit) + Ending(e.count))
  {
  }

  /** Two strings with the same ending are equal when what precedes it is. */
  lemma SuffixCancel(p: string, q: string, sfx: string)
    requires p + sfx == q + sfx
    ensures p == q
  {
    assert p == (p + sfx)[..|p|];
    assert q == (q + sfx)[..|q|];
  }

  /** A run of digits followed by a space splits a string in one way only. */
  lemma SplitAtSpace(x: string, y: string, x2: string, y2: string)
    requires forall i :: 0 <= i < |x| ==> IsDigit(x[i])
    requires forall i :: 0 <= i < |x2| ==> IsDigit(x2[i])
    requires x + " " + y == x2 + " " + y2
    ensures x == x2 && y == y2
  {
    var s := x + " " + y;
    var s2 := x2 + " " + y2;
    FirstSpace(x, y);
    FirstSpace(x2, y2);
    assert |x| == |x2|;
    assert x == s[..|x|] && x2 == s2[..|x2|];
    assert y == s[|x| + 1..] && y2 == s2[|x2| + 1..];
  }

  /** In digits followed by a space, the first space ends the digits. */
  lemma FirstSpace(x: string, y: string)
    requires forall i :: 0 <= i < |x| ==> IsDigit(x[i])
    ensures (x + " " + y)[|x|] == ' '
    ensures forall i :: 0 <= i < |x| ==> (x + " " + y)[i] != ' '
  {
  }

  lemma UnitNameInjective(u: Unit, v: Unit)
    requires UnitName(u) == UnitName(v)
    ensures u == v
  {
    assert UnitName(u)[0] == UnitName(v)[0];
  }

  // ---------------------------------------------------------------------------
  // Refresh interval of `relativeTimeFlow`

  /** The delay before the relative-time text is recomputed. */
  function NextDelay(diffMs: int): (delay: int)
    ensures delay == MillisPerSecond || delay == MillisPerMinute || delay == MillisPerHour || delay == MillisPerDay
  {
    if diffMs < MillisPerMinute then MillisPerSecond
    else if diffMs < MillisPerHour then MillisPerMinute
    else if diffMs < MillisPerDay then MillisPerHour
    else MillisPerDay
  }

  /** The refresh interval is the length of the unit the text is currently
      expressed in, capped at one day. */
  lemma NextDelayIsDisplayedUnit(diffMs: int)
    ensures var u := Classify(diffMs).unit;
      NextDelay(diffMs) == (if u in {Second, Minute, Hour} then UnitMillis(u) else MillisPerDay)
  {
    ClassifyUnitByThreshold(diffMs);
  }

  /** Older timestamps never refresh more often. */
  lemma NextDelayMonotone(d1: int, d2: int)
    requires d1 <= d2
    ensures NextDelay(d1) <= NextDelay(d2)
  {
  }

  // ---------------------------------------------------------------------------
  // E-mail check

  /** `isValidEmail`: non-empty and accepted by the platform's e-mail
      pattern, which is foreign code and so a parameter here. */
  predicate IsValidEmail(pattern: string -> bool, email: string) {
    email != "" && pattern(email)
  }

  /** Whatever the pattern accepts, the empty string is not a valid e-mail. */
  lemma EmptyEmailInvalid(pattern: string -> bool)
    ensures !IsValidEmail(pattern, "")
  {
  }
}
